=== FILE: README.md ===
# CampX campus marketplace — a Dafny model of its core

CampX is a campus web application with an Express/Mongoose backend and a React
frontend. Students sign up by e-mail code and an administrator approves them.
Drivers list rides and passengers book them. Students post lost and found
items, and other students claim them. Club chairmen publish events and
students register for them.

This project models that core as pure functions over immutable state. Each
HTTP handler becomes one atomic step from a state to a reply and a new state,
`(Reply<T>, State)`. The reply is `Ok(value)` or `Err(status, message)`, with
the handlers' own status codes and messages. The model covers these parts:

- the OTP ticket store and the code check shared by signup, password reset
  and account deletion;
- the user store, login, the administrator's approval handlers, and the
  bearer-token middleware with its role gates;
- rides and ride bookings: the single-winner invariant, the fare rule and
  the 20:00 expiry;
- lost-and-found items and claims: the claim invariant, the owner-or-admin
  test, the listing's pagination and the seven-day expiry;
- events: registration, creator-only changes, the date ordering and the
  participant export;
- the pure logic of three pages: `Rides.jsx`, `LostFound.jsx` and
  `StudentDashboard.jsx`.

Every page function is tied by a lemma to the handler it talks to.

Modules, one per file:

- `Common`: `Option`, `Reply`, `Filter`, `FirstWhere`, `Subseq`, `RemoveAt`.
- `Sorting`: sorting by a numeric key, largest first, shared by the event
  and lost-and-found listings.
- `Text`: ASCII `toLowerCase`, JavaScript `trim`, substring search, `split`,
  decimal text and `parseInt`.
- `Otp`.
- `Accounts`.
- `Signup` (`auth.controller.js`).
- `UserOtp` (`user.controller.js`).
- `Admin`.
- `Login`.
- `Middleware`.
- `RideModel` and `Rides`.
- `LostFoundModel` and `LostFound`.
- `Events`.
- `RidesPage`.
- `LostFoundPage`.
- `Dashboard`.

Time is an integer number of milliseconds, passed in as `now`. Randomness,
mail delivery, image upload, password hashing and token signing are
parameters or abstract datatypes; see "Left out".

## Model

| member | source | states |
|---|---|---|
| Otp.GenerateOtp | backend/controller/auth.controller.js:9 | every code is six decimal digits without a leading zero, and reads back as 100000 plus the random draw |
| Otp.GenerateOtpInjective | backend/controller/user.controller.js:9 | two draws give the same code exactly when they are the same draw |
| Otp.FindTicket | backend/controller/auth.controller.js:71 | the lookup finds the first ticket for the e-mail, and finds none exactly when no ticket has that e-mail |
| Otp.DeleteMany | backend/controller/auth.controller.js:38 | exactly the tickets of other e-mails survive, in their order |
| Otp.DeleteOne | backend/controller/auth.controller.js:95 | only tickets of that e-mail can go; with at most one ticket per e-mail, none is left for it |
| Otp.Issue | backend/controller/auth.controller.js:36-45 | after issuing, the only ticket for the e-mail is the new one, expiring 300000 ms after now; other e-mails' tickets are unchanged; at most one ticket per e-mail is kept |
| Otp.CheckCode | backend/controller/auth.controller.js:71-79 | the verdict is no-ticket, wrong-code, expired or valid, in that order of precedence; a code is still valid at its expiry instant |
| Otp.Sweep | backend/models/otpRequest.model.js:6 | the TTL index keeps exactly the tickets whose expiry has not passed |
| Otp.SweepAgreesWithCheck | backend/models/otpRequest.model.js:6 | a sweep at the moment of a check removes exactly what the check calls expired, and changes no other verdict |
| Accounts.HashMatchesOnlyItsPassword | backend/controller/login.controller.js:19 | a stored digest matches exactly the password it was made from |
| Accounts.ParseRole | backend/models/user.model.js:9-13 | a role string is accepted only when it names the role it parses to |
| Accounts.ParseRoleName | backend/models/user.model.js:9-13 | exactly `student`, `club_chairman` and `admin` are accepted, each as its own role |
| Accounts.FindByEmail | backend/controller/login.controller.js:12 | the user found has that e-mail; none is found exactly when no user has it |
| Accounts.FindById | backend/middleware/auth.middleware.js:15 | the user found has that id; none is found exactly when no user has it |
| Accounts.FindByEmailUnique | backend/models/user.model.js:6 | with unique e-mails, the lookup returns the one user that has the e-mail |
| Accounts.CreateUser | backend/models/user.model.js:4-19 | creation succeeds exactly when the required strings are non-empty, the role is in the enum and the e-mail is free; it appends one user under a fresh id and keeps ids and e-mails unique |
| Accounts.DeleteUserByEmail | backend/controller/user.controller.js:122 | only the user with that e-mail can go, and afterwards no user has that e-mail |
| Accounts.DeleteUserKeepsWellFormed | backend/controller/admin.controller.js:89 | deleting a user keeps e-mails and ids unique |
| Accounts.UpdateUserKeepsWellFormed | backend/controller/admin.controller.js:43-44 | changing a user's fields other than id and e-mail keeps the store well formed |
| Signup.NormalizeEmail | backend/controller/auth.controller.js:29 | the stored form of an e-mail has no capitals and no surrounding white space |
| Signup.NormalizeEmailIdempotent | backend/controller/auth.controller.js:69 | normalizing twice gives the same key as once, so a stored e-mail finds its own ticket |
| Signup.SendOtp | backend/controller/auth.controller.js:25-62 | it answers "Data missing" when a field is missing and "Email already registered" when the e-mail is taken, storing nothing; otherwise it replaces the e-mail's ticket with one holding the form; a mail failure is a 500 that keeps the ticket |
| Signup.VerifyOtp | backend/controller/auth.controller.js:64-102 | the checks fail in order (fields, no ticket, wrong code, expired); success adds one pending user from the stored form and consumes the ticket; every failure changes nothing |
| Signup.VerifyIsSingleUse | backend/controller/auth.controller.js:95 | after a successful verification the same request finds no ticket |
| Signup.ExpiryIsInclusive | backend/controller/auth.controller.js:75-79 | a right code is accepted at the expiry instant and refused one millisecond later; a wrong code is reported as wrong whatever the time |
| Signup.VerifyLiveTicket | backend/controller/auth.controller.js:81-97 | the code of a live signup ticket succeeds exactly when the stored form can be created |
| Signup.SignupRoundTrip | backend/controller/auth.controller.js:25-102 | sending a form and then its mailed code within five minutes creates the user, pending approval, exactly when the form passes the schema |
| UserOtp.SendAccountOtp | backend/controller/user.controller.js:24-51 | it requires an e-mail and an existing account (lower-cased, not trimmed); otherwise it replaces that e-mail's ticket with an empty one that expires in five minutes |
| UserOtp.CheckReply | backend/controller/user.controller.js:62-64 | every verdict except a valid code produces an error reply |
| UserOtp.SetPassword | backend/controller/user.controller.js:69 | only the first account with the e-mail gets the new digest; every other field and account is unchanged |
| UserOtp.ResetPasswordWithOtp | backend/controller/user.controller.js:54-77 | with all fields present and a valid code, it sets the password and consumes the ticket; any failure changes nothing |
| UserOtp.DeleteAccount | backend/controller/user.controller.js:111-130 | with a valid code, it deletes the account and consumes the ticket; any failure changes nothing |
| UserOtp.ResetIsSingleUse | backend/controller/user.controller.js:70 | the same reset sent again finds no ticket |
| UserOtp.ResetSetsPassword | backend/controller/user.controller.js:66-70 | after a reset the account's password is the new one and nothing else about any account changed |
| UserOtp.CodesAreInterchangeable | backend/controller/user.controller.js:37-61 | a code mailed for deletion also resets the password, and a code mailed for a reset also deletes the account |
| UserOtp.ResetWithoutAccount | backend/controller/user.controller.js:60-72 | with the code of an unfinished signup, the reset reports success and changes no account |
| UserOtp.DeletedAccountIsGone | backend/controller/user.controller.js:122 | after deletion by code no account has that e-mail |
| Admin.ViewReq | backend/controller/admin.controller.js:21-29 | exactly the pending users are listed, in store order |
| Admin.HandleUserApproval | backend/controller/admin.controller.js:32-76 | missing fields are a 400 and an unknown e-mail a 404; for a known e-mail `approve` always marks only that user approved and `reject` always deletes them, anything else is a 400; a mail failure is a 500 after the change |
| Admin.DeleteUser | backend/controller/admin.controller.js:79-104 | a missing e-mail is a 400; an unknown one is a 404 quoting the e-mail as sent; for a known one the user is removed, whether or not the notice mail goes out, and the reply is Ok exactly when it does |
| Admin.ApproveLeavesPendingList | backend/controller/admin.controller.js:42-44 | approving takes exactly that account off the pending list |
| Login.UserLogin | backend/controller/login.controller.js:5-34 | missing fields are a 400; an unknown e-mail is a 401; an unapproved account is a 403 whatever its password; an approved account with a wrong password is a 401; a token is issued exactly to an approved account with the right password, and carries its id and role |
| Login.UnknownAndWrongPasswordLookAlike | backend/controller/login.controller.js:13-21 | an unknown e-mail and a wrong password get the same reply |
| Login.UnapprovedIsToldSo | backend/controller/login.controller.js:16-17 | an unapproved account gets the 403 whatever password it sends |
| Login.DeletedUserCannotLogin | backend/controller/admin.controller.js:79-104 | after an administrator deletes an e-mail's account, logging in with that e-mail and any password is the unknown-account 401 |
| Login.ApprovalDecidesLogin | backend/controller/admin.controller.js:42-57 | after approval the account's own password logs it in; after rejection the e-mail is unknown |
| Middleware.BearerToken | backend/middleware/auth.middleware.js:7-11 | a token is read exactly when the header starts with `Bearer `; it is the second space-separated field and contains no space |
| Middleware.BearerRoundTrip | backend/middleware/auth.middleware.js:11 | the header `Bearer ` + token gives back any token without a space |
| Middleware.Authenticate | backend/middleware/auth.middleware.js:4-25 | a request passes exactly when the header carries a token that verifies to the id of a stored account, and it is admitted as that account; every failure is a 401 |
| Middleware.RequireRole | backend/middleware/auth.middleware.js:28-50 | the gate admits exactly the accounts of its role; others get 403 |
| Middleware.ExactlyOneGate | backend/middleware/auth.middleware.js:28-50 | every account passes exactly one of the admin, chairman and student gates |
| Middleware.StatusIsNotChecked | backend/middleware/auth.middleware.js:15-19 | demoting an account to pending or rejected does not revoke its token |
| RideModel.ParseRideStatus | backend/models/ride.model.js:42-46 | an accepted status string names the status it parses to |
| RideModel.ParseRideStatusName | backend/controller/rides.controller.js:47 | exactly `listed`, `booking_accepted` and `cancelled` are accepted, each as its own status |
| RideModel.TrimVia | backend/models/ride.model.js:28-41 | each stop's location is trimmed and nothing else changes |
| RideModel.LocalTime | backend/models/ride.model.js:67 | the local time of day lies within one day |
| RideModel.Cutoff | backend/models/ride.model.js:66-67 | the cutoff falls on the departure's local day, at 20:00:00.000 |
| RideModel.CutoffUnique | backend/models/ride.model.js:66-67 | no other instant of that day is at 20:00 |
| RideModel.CutoffNearDeparture | backend/models/ride.model.js:66-67 | the cutoff lies less than four hours before and at most twenty hours after the departure |
| RideModel.DeletionDelay | backend/models/ride.model.js:63-82 | a timer is requested exactly when the ride is new or its departure changed and the cutoff is in the future; the requested delay is positive and ends at the cutoff |
| RideModel.NodeTimerDelay | backend/models/ride.model.js:71-78 | Node runs the callback after the requested delay when it lies in 1 .. 2147483647 ms, and after 1 ms otherwise |
| RideModel.TimerFiresAtCutoff | backend/models/ride.model.js:70-89 | when the cutoff is at most 2147483647 ms ahead the timer fires at the cutoff, one millisecond before `isExpired` first holds; when it is farther the timer fires 1 ms after the save, while the ride is still open |
| RideModel.FarRideIsDeletedAtOnce | backend/models/ride.model.js:70-78 | a new ride whose cutoff is more than 2147483647 ms ahead is scheduled, its delay is clamped to 1 ms, and the deletion runs while the ride is not expired |
| RideModel.RearmedDelays | backend/models/ride.model.js:70-78 | the intended schedule: every step is a delay Node honours unchanged, and the steps end exactly at the cutoff |
| RideModel.RearmedTimerFiresAtCutoff | backend/models/ride.model.js:70-89 | with re-arming, the last timer fires at the cutoff, one millisecond before `isExpired` first holds, however far ahead the ride was saved |
| RideModel.LateRideIsNeverScheduled | backend/models/ride.model.js:70 | a ride saved at or after its cutoff gets no timer, although it is expired a millisecond later |
| RideModel.PriceFor | backend/controller/rides.controller.js:136-145 | a fare exists exactly for the final stop and the intermediate stops; the final stop costs the last stop's fare, or the ride's price without stops; an intermediate stop costs the fare of the first stop with that name |
| RideModel.PriceIsOffered | backend/controller/rides.controller.js:136-145 | every fare charged is the ride's price or one of its stops' fares, so a valid ride never charges a negative fare |
| RideModel.CastBooking | backend/models/rideBooking.model.js:3-13 | a missing destination or price, or an empty destination, is never stored; a stored record carries the input's declared fields and nothing else |
| RideModel.CastIgnoresUndeclared | backend/models/rideBooking.model.js:3-13 | undeclared fields such as `seatsBooked` make no difference to the stored record |
| RideModel.CastRoundTrip | backend/models/rideBooking.model.js:3-13 | every record with a destination is what the cast makes of the input carrying its fields, whatever undeclared fields come with it |
| Rides.CreateRide | backend/controller/rides.controller.js:5-28 | a missing field, including a zero price, is a 400; a departure that is not a date is a 500; a ride the schema accepts is stored under a fresh id, listed, with the caller as driver and the given departure |
| Rides.Patched | backend/controller/rides.controller.js:40-49 | only truthy fields overwrite; the status changes only to a name in the enum; driver and seats never change |
| Rides.UpdateRide | backend/controller/rides.controller.js:31-57 | an unknown ride is a 404 and a caller who is not the driver a 403, with no change; a truthy departure that is not a date is a 500 with no change; otherwise the patched ride replaces the old one |
| Rides.DeleteRide | backend/controller/rides.controller.js:60-77 | only the driver deletes; the ride and every booking on it go, and nothing else changes |
| Rides.AutoDeleteRide | backend/models/ride.model.js:71-74 | the timer removes only that ride and leaves its bookings behind |
| Rides.ViewAllRide | backend/controller/rides.controller.js:80-93 | it lists exactly the listed rides, or answers 404 when there are none |
| Rides.MyListedRides | backend/controller/rides.controller.js:96-109 | it lists exactly the caller's rides in any status, or answers 404 when there are none |
| Rides.CreatedRideIsListed | backend/controller/rides.controller.js:5-109 | a ride just created appears in its driver's own listing and in the listing of all rides, and its driver can delete it |
| Rides.DeletedRideIsUnlisted | backend/controller/rides.controller.js:60-109 | a deleted ride appears in neither listing |
| Rides.ViewBookingReq | backend/controller/rides.controller.js:171-200 | a caller with no rides gets "You have no rides listed"; the reply is a listing exactly when some pending booking is on one of the caller's rides, and it lists exactly those; a driver without any gets "No pending booking requests" |
| Rides.BookedRequestIsShown | backend/controller/rides.controller.js:112-200 | a booking just stored is shown to the ride's driver among the pending requests |
| Rides.BookingCheck | backend/controller/rides.controller.js:117-145 | the guards fail in order (ride exists, not own ride, ride listed, no pending booking on it, valid destination); when all pass, the fare is `PriceFor` of the destination |
| Rides.SaveBooking | backend/controller/rides.controller.js:155-166 | a record the schema refuses is a 500; a second request by the same passenger is a 400; otherwise one pending booking is stored |
| Rides.BookRideAsWritten | backend/controller/rides.controller.js:147-166 | every booking that passes the guards is refused with a 500, and the store never changes |
| Rides.BookRide | backend/controller/rides.controller.js:112-168 | a booking that passes the guards stores one pending booking with the chosen destination and its fare, under a fresh id, unless the passenger already requested the ride |
| Rides.DecideBookingReq | backend/controller/rides.controller.js:203-243 | the failures come in order: bad decision, unknown booking, ride removed by its timer (500), not the driver (403), already decided (400); accepting sets the booking accepted and the ride `booking_accepted`; rejecting sets it rejected and the ride `listed` |
| Rides.CreateRidePreserves | backend/controller/rides.controller.js:13-21 | creating a ride keeps the store well formed and the single-winner invariant |
| Rides.UpdateRideKeepsWellFormed | backend/controller/rides.controller.js:42-51 | updating a ride keeps the store well formed |
| Rides.DeleteRidePreserves | backend/controller/rides.controller.js:69-70 | deleting a ride keeps the store well formed and the single-winner invariant |
| Rides.AutoDeleteRidePreserves | backend/models/ride.model.js:71-74 | the timer's deletion keeps the store well formed and the single-winner invariant |
| Rides.BookRidePreserves | backend/controller/rides.controller.js:124-155 | booking keeps at most one pending and one accepted booking per ride, pending bookings on listed rides, and `booking_accepted` exactly when a booking is accepted |
| Rides.DecidedAtMostOne | backend/controller/rides.controller.js:226-233 | after a decision no ride has two pending or two accepted bookings |
| Rides.DecidedPendingRideListed | backend/controller/rides.controller.js:226-233 | after a decision every pending booking's ride is listed |
| Rides.DecidedAcceptedMatchesStatus | backend/controller/rides.controller.js:229-233 | after a decision a ride is `booking_accepted` exactly when one of its bookings is accepted |
| Rides.DecidePreserves | backend/controller/rides.controller.js:203-243 | deciding keeps the store well formed and the single-winner invariant |
| Rides.DecideTwiceFails | backend/controller/rides.controller.js:222-224 | a second decision on the same booking is refused as already decided |
| Rides.RejectedPassengerCannotRebook | backend/models/rideBooking.model.js:16 | a rejected passenger's new request on the same ride is refused, because the record stays |
| Rides.AcceptClosesRejectReopens | backend/controller/rides.controller.js:124-134 | after an acceptance nobody can book the ride; after a rejection the ride is listed and has no pending booking |
| Rides.ListedIsBookable | backend/controller/rides.controller.js:82 | the listing shows exactly the rides whose status lets a booking through |
| Rides.ShownRequestsAreDecidable | backend/controller/rides.controller.js:181-184 | every request shown to a driver can be decided by that driver |
| Rides.UpdateRideBreaksSingleWinner | backend/controller/rides.controller.js:47-48 | a driver can mark a ride `booking_accepted` without any accepted booking, which breaks the single-winner invariant |
| Rides.BookingRecordMismatch | backend/controller/rides.controller.js:147-153 | a booking that passes every guard is refused by the as-written handler and stored by the corrected one |
| LostFoundModel.ParseItemStatus | backend/models/LostFound.model.js:8 | exactly `lost` and `found` are accepted, and each names its status |
| LostFoundModel.IdText | backend/controller/lostfound.controller.js:25 | a plain reference prints as a non-empty string of digits |
| LostFoundModel.PopulatedText | backend/controller/lostfound.controller.js:280-283 | a populated reference prints as a document that opens with a brace |
| LostFoundModel.PlainReferenceComparesIds | backend/controller/lostfound.controller.js:24-25 | on plain references, comparing the printed ids is comparing the ids |
| LostFoundModel.PopulatedReferenceAdmitsOnlyAdmin | backend/controller/lostfound.controller.js:280-288 | on a populated reference the owner-or-admin test passes exactly for an administrator |
| LostFoundModel.OwnerOrAdminCases | backend/controller/lostfound.controller.js:24-25 | administrators pass for every post; anyone else passes only for their own |
| LostFoundModel.CeilDiv | backend/controller/lostfound.controller.js:96 | the result is the least number of pages of that size that holds all items |
| LostFoundModel.Pages | backend/controller/lostfound.controller.js:96 | with a positive limit, the page count is at least 1 and is the least one that covers the total; an empty result has one page; a zero limit with items gives infinitely many pages |
| LostFoundModel.PageOf | backend/controller/lostfound.controller.js:81 | the k-th item falls between its page's skip and the next page's skip |
| LostFoundModel.Window | backend/controller/lostfound.controller.js:83-86 | skip-then-limit returns the contiguous slice from the skip holding the absolute limit's worth of items, or fewer when the list runs out, and every remaining item for a zero limit |
| LostFoundModel.WindowKeysAgree | backend/controller/lostfound.controller.js:85-86 | lists whose keys agree place by place give windows whose keys agree place by place |
| LostFoundModel.PagesCoverList | backend/controller/lostfound.controller.js:81-96 | every item of the sorted list appears on one of the announced pages, at its place within that page |
| LostFoundModel.PageZeroSkipsBackwards | backend/controller/lostfound.controller.js:81 | page zero asks for a negative skip |
| LostFound.FindItem | backend/controller/lostfound.controller.js:136 | the item found has that id; none is found exactly when no item has it |
| LostFound.CreateLostFound | backend/controller/lostfound.controller.js:28-64 | a missing field is a 400; a bad status or a blank trimmed string is a 500; otherwise one unresolved item owned by the caller is appended under a fresh id, stamped with the current instant, with the trimmed title, description and location, the contact as sent, the given status, and the picture's URL or empty |
| LostFound.Newest | backend/controller/lostfound.controller.js:83-84 | the matching items, each as often as stored, sorted by creation instant, newest first |
| LostFound.ListLostFound | backend/controller/lostfound.controller.js:67-103 | defaults page 1 and limit 20; a negative skip is a 500; otherwise the items are exactly the page's window of the newest-first matches, with their count and the page count |
| LostFound.EveryMatchIsListed | backend/controller/lostfound.controller.js:72-96 | with a positive limit, every matching item is shown on some announced page |
| LostFound.ListingIsNewestFirst | backend/controller/lostfound.controller.js:84 | every page lists its items newest first, whatever order the store holds them in |
| LostFound.NewestIgnoresStoreOrder | backend/controller/lostfound.controller.js:83-84 | two stores holding the same items sort their matches into the same sequence of creation instants |
| LostFound.ListingIgnoresStoreOrder | backend/controller/lostfound.controller.js:67-103 | two stores holding the same items answer every listing request alike: same success, count and page count, and the same creation instants in the same places on the page |
| LostFound.Assigned | backend/controller/lostfound.controller.js:146-150 | only non-empty fields overwrite, title, description and location trimmed as the schema does; the status changes only to `lost` or `found`; identity, owner and resolution are untouched |
| LostFound.Resolution | backend/controller/lostfound.controller.js:152-162 | a given flag resolves the item exactly when it is `true` or `"true"`; resolver and time are set exactly when it is resolved |
| LostFound.UpdateLostFound | backend/controller/lostfound.controller.js:134-184 | an unknown item is a 404 and a caller who is neither owner nor admin a 403, with no change; otherwise only that item changes |
| LostFound.ClaimsWithout | backend/controller/lostfound.controller.js:203 | exactly the claims on other items remain |
| LostFound.DeleteLostFound | backend/controller/lostfound.controller.js:187-210 | only the owner or an admin deletes; the item and all its claims go, and the id is no longer found |
| LostFound.Sweep | backend/models/LostFound.model.js:22 | the TTL index keeps exactly the items younger than seven days, in order |
| LostFound.CreateClaim | backend/controller/lostfound.controller.js:213-253 | the refusals come in order (404, resolved, own item, 409 for a second claim); otherwise one pending claim with the trimmed message, or empty, is stored under a fresh id |
| LostFound.ListClaimsForItem | backend/controller/lostfound.controller.js:256-274 | the owner or an admin sees exactly the item's claims; others get 403 |
| LostFound.ClaimIsListedToOwner | backend/controller/lostfound.controller.js:213-274 | a claim just made is shown to the item's owner and to administrators |
| LostFound.AcceptClaim | backend/controller/lostfound.controller.js:302-323 | the claim becomes accepted, the item's other pending claims rejected, every other claim unchanged, messages kept, and no claim on the item is left pending |
| LostFound.Settle | backend/controller/lostfound.controller.js:290-346 | a claim of another item is not found; a decided claim is refused before the action is read; accept resolves the item by the caller; reject changes only that claim; any other action is a 400 |
| LostFound.DecideClaim | backend/controller/lostfound.controller.js:277-351 | an unknown item is a 404 and a caller who is neither owner nor admin a 403; otherwise the claim is settled |
| LostFound.DecideClaimAsWritten | backend/controller/lostfound.controller.js:277-351 | every caller except an administrator is refused with 403, the owner included; administrators get the corrected behaviour |
| LostFound.CreateLostFoundPreserves | backend/controller/lostfound.controller.js:48-57 | posting keeps the store well formed and the claim invariant |
| LostFound.DeleteLostFoundPreserves | backend/controller/lostfound.controller.js:202-203 | deleting keeps the store well formed and the claim invariant |
| LostFound.SweepPreserves | backend/models/LostFound.model.js:22 | the expiry keeps the store well formed and the claim invariant |
| LostFound.CreateClaimPreserves | backend/controller/lostfound.controller.js:221-232 | claiming keeps the store well formed and the claim invariant |
| LostFound.AcceptedOneAccepted | backend/controller/lostfound.controller.js:302-323 | after an acceptance an item has at most one accepted claim |
| LostFound.AcceptedAcceptedResolved | backend/controller/lostfound.controller.js:306-309 | after an acceptance every item with an accepted claim is resolved |
| LostFound.AcceptedNoPending | backend/controller/lostfound.controller.js:320-323 | after an acceptance no claim on that item is pending |
| LostFound.AcceptedWellFormed | backend/controller/lostfound.controller.js:302-323 | an acceptance keeps the store well formed |
| LostFound.RejectedPreserves | backend/controller/lostfound.controller.js:330-332 | a rejection keeps the store well formed and the claim invariant |
| LostFound.DecideClaimPreserves | backend/controller/lostfound.controller.js:277-351 | deciding keeps the store well formed and the claim invariant |
| LostFound.UpdatePreserves | backend/controller/lostfound.controller.js:143-178 | an update keeps the store well formed, and keeps the claim invariant unless it clears `isResolved` |
| LostFound.UpdateBreaksSettled | backend/controller/lostfound.controller.js:152-161 | clearing `isResolved` on an item with an accepted claim leaves that claim accepted on an unresolved item |
| LostFound.DecideTwiceFails | backend/controller/lostfound.controller.js:298-300 | a second decision on the same claim is refused as already decided |
| LostFound.AcceptClosesItem | backend/controller/lostfound.controller.js:221-222 | after an acceptance no claim on the item is pending, and a new claim is refused as resolved |
| LostFound.SecondClaimConflicts | backend/controller/lostfound.controller.js:245-248 | the same user's second claim on the same item is a 409 |
| LostFound.OwnerCannotDecide | backend/controller/lostfound.controller.js:280-288 | a poster who is not an administrator is refused by the as-written handler and allowed by the corrected one |
| Events.FindEvent | backend/controller/eventController.js:49 | the event found has that id; none is found exactly when no event has it |
| Events.CreateEvent | backend/controller/eventController.js:12-36 | the event is stored exactly when title, date and description are given, with no participants and the caller as creator; in a well-formed store its id is one no stored event has |
| Events.CreateEventPreserves | backend/controller/eventController.js:12-36 | posting keeps ids distinct and below the next id, and the new event is found under its id |
| Events.RegisterForEvent | backend/controller/eventController.js:47-63 | an unknown event is a 404 and a registered caller a 400, with no change; otherwise exactly the caller is appended to that event's participants |
| Events.RegisterPreserves | backend/controller/eventController.js:47-63 | registration keeps the store well formed |
| Events.AppendKeepsNoDup | backend/controller/eventController.js:56 | appending a new id to a duplicate-free list keeps it duplicate-free |
| Events.RegisterKeepsParticipantsDistinct | backend/controller/eventController.js:52-57 | registration keeps every participant list duplicate-free |
| Events.RegisterTwiceFails | backend/controller/eventController.js:52-54 | a second registration by the same user is refused |
| Events.UpdateEvent | backend/controller/eventController.js:89-123 | only the creator updates; only given fields overwrite; the poster is kept unless a new one is sent; a bad date is a 500 |
| Events.UpdatePreserves | backend/controller/eventController.js:89-123 | an update keeps the store well formed |
| Events.DeleteEvent | backend/controller/eventController.js:126-145 | only the creator deletes, and only that event goes |
| Events.DeletePreserves | backend/controller/eventController.js:126-145 | a deletion keeps the store well formed |
| Events.OnlyCreatorChanges | backend/controller/eventController.js:98-100 | update and delete by anyone but the creator leave the store unchanged |
| Events.DeleteRemovesEvent | backend/controller/eventController.js:139 | after deletion the id is no longer found, and one event fewer is stored |
| Events.GetMyEvents | backend/controller/eventController.js:148-158 | exactly the caller's events, in store order |
| Events.CreatedEventIsMine | backend/controller/eventController.js:148-158 | a posted event joins the end of its creator's own listing, and every other user's listing stays as it was |
| Sorting.Insert | backend/controller/eventController.js:40 | inserting into a largest-first list keeps it largest-first and adds exactly that element |
| Sorting.SortDescending | backend/controller/lostfound.controller.js:84 | the result is largest key first and a permutation of the input |
| Sorting.SortedKeysAgree | backend/controller/eventController.js:40 | two largest-first permutations of the same elements agree key by key, so any tie order the database picks gives the same keys |
| Sorting.SliceDescending | backend/controller/lostfound.controller.js:84-86 | a slice of a largest-first list is largest-first |
| Events.GetEvents | backend/controller/eventController.js:38-45 | every stored event exactly once, latest date first |
| Events.GetEventsIgnoresStoreOrder | backend/controller/eventController.js:40 | two stores holding the same events list them with the same dates in the same places |
| Events.ParticipantRows | backend/controller/eventController.js:70-74 | one row of name, e-mail and USN per participant, in participant order, when every participant is an account |
| Events.ExportParticipants | backend/controller/eventController.js:65-87 | an unknown event is a 404; otherwise it returns the participants' rows |
| Events.RegisterAddsRow | backend/controller/eventController.js:56-74 | after registration the export has exactly one more row, the new participant's, at the end |
| RidesPage.RidePayloadOf | frontend/src/pages/Rides.jsx:87-104 | nothing is sent while from, to, departure or price is empty; a filled-in stop becomes the one stop, priced like the ride |
| RidesPage.PageRidesHaveOneFare | frontend/src/pages/Rides.jsx:98-104 | a ride created from the page charges the form's price for every destination it offers |
| RidesPage.Destinations | frontend/src/pages/Rides.jsx:136-139 | the menu is the stops' locations in order, then the final stop |
| RidesPage.DestinationsArePriced | frontend/src/pages/Rides.jsx:136-139 | every destination in the menu has a fare on the server |
| RidesPage.ChooseDestination | frontend/src/pages/Rides.jsx:141-152 | with one destination it is chosen without asking; otherwise a choice is made exactly when the answer parses, in base ten or after a `0x` in base sixteen, to a number between 1 and the menu's length; the choice is always in the menu |
| RidesPage.TypedNumberSelects | frontend/src/pages/Rides.jsx:143-151 | typing the number shown next to a destination selects it, and the server prices it |
| RidesPage.HexAnswerSelects | frontend/src/pages/Rides.jsx:146-151 | the answer `0x2` selects the second destination, as `parseInt` reads it in base sixteen |
| RidesPage.LowestFare | frontend/src/pages/Rides.jsx:207 | the minimum of the ride's price and its stops' fares |
| RidesPage.HighestFare | frontend/src/pages/Rides.jsx:208 | the maximum of the ride's price and its stops' fares |
| RidesPage.FareLabelOf | frontend/src/pages/Rides.jsx:205-212 | a ride without stops shows its price; a range is shown only when the lowest and highest fares differ |
| RidesPage.ChargedFareWithinLabel | frontend/src/pages/Rides.jsx:205-212 | the fare charged for any destination lies within the label, and is the label's fare when it shows one |
| RidesPage.StatusBadge | frontend/src/pages/Rides.jsx:214-223 | any status outside the five known ones shows as PENDING |
| RidesPage.BadgeNamesStoredStatus | frontend/src/pages/Rides.jsx:214-223 | every status a stored booking can have shows under its own name in capitals |
| RidesPage.CancelShownForOpenBookings | frontend/src/pages/Rides.jsx:461 | the cancel button shows exactly for pending and accepted bookings |
| LostFoundPage.FilteredItems | frontend/src/pages/LostFound.jsx:131-137 | exactly the items matching the search and the status, in the loaded order |
| LostFoundPage.EmptySearchShowsAll | frontend/src/pages/LostFound.jsx:131-137 | an empty search with `all` shows every loaded item |
| LostFoundPage.PageFilterIsServerFilter | frontend/src/pages/LostFound.jsx:131-135 | for a non-empty search and a known status, the page's filter is the server listing's filter |
| LostFoundPage.ClaimMessage | frontend/src/pages/LostFound.jsx:90-98 | nothing is sent for a dismissed or blank answer; otherwise the trimmed answer is sent |
| LostFoundPage.StoredMessageIsSent | frontend/src/pages/LostFound.jsx:97 | the server stores the message exactly as the page sent it |
| LostFoundPage.Slot | frontend/src/pages/LostFound.jsx:61-63 | an empty field adds no entry; a filled one adds one entry under its own name |
| LostFoundPage.LookupSlot | frontend/src/pages/LostFound.jsx:61-63 | a field is read back from its own entry whatever other fields surround it |
| LostFoundPage.SlotReachesServer | frontend/src/pages/LostFound.jsx:60-63 | a field is read back from its own slot when no other slot uses its name |
| LostFoundPage.FlattenSplit | frontend/src/pages/LostFound.jsx:60-63 | the entries of the slots are those before a slot, the slot's own, then those after it |
| LostFoundPage.FieldsReachServer | frontend/src/pages/LostFound.jsx:60-63 | each of the five text fields reaches the server as typed when non-empty, and as absent otherwise |
| LostFoundPage.EmptyInputsAreRefused | frontend/src/pages/LostFound.jsx:56-70 | the server refuses the post with "Required fields missing" exactly when one of the five inputs is empty |
| Dashboard.FilteredEvents | frontend/src/pages/StudentDashboard.jsx:74-76 | exactly the loaded events whose title contains the search, ignoring case, in the loaded order |
| Dashboard.EmptySearchShowsAllEvents | frontend/src/pages/StudentDashboard.jsx:74-76 | an empty search shows every loaded event |
| Dashboard.SearchByTitleFinds | frontend/src/pages/StudentDashboard.jsx:74-76 | searching for an event's own title finds it |
| Dashboard.ButtonLabel | frontend/src/pages/StudentDashboard.jsx:127-140 | the button reads "Register" exactly when it is enabled, and "Registered" exactly when the user is registered |
| Dashboard.ButtonAgreesWithServer | frontend/src/pages/StudentDashboard.jsx:96-97 | for a stored event the button shows registered exactly when `registerForEvent` would refuse the registration as a repeat; an enabled button's request would be accepted by `registerForEvent` |
| Dashboard.LocalRegister | frontend/src/pages/StudentDashboard.jsx:57-63 | the user is appended to the participants of the events with that id, and no other event changes |
| Dashboard.LocalRegisterIsServerRegister | frontend/src/pages/StudentDashboard.jsx:57-63 | on the store's own list, the local update equals what `registerForEvent` would store |
| Dashboard.LocalViewMatchesServer | frontend/src/pages/StudentDashboard.jsx:57-63 | whatever part of the store the page holds, after the local update each event it shows is one the server now stores |
| Dashboard.RegisteredAfterUpdate | frontend/src/pages/StudentDashboard.jsx:96-140 | after the local update the event's button reads "Registered", and `registerForEvent` would refuse a second request |
| Text.Lower | frontend/src/pages/LostFound.jsx:132 | lower-casing keeps the length and leaves no ASCII capital |
| Text.Trim | backend/controller/auth.controller.js:29 | the trimmed string is no longer than the input, has no white space at either end, and is empty exactly when the input is all white space |
| Text.TrimIdempotent | frontend/src/pages/LostFound.jsx:97 | trimming a trimmed string changes nothing |
| Text.NatToDecimal | backend/controller/auth.controller.js:9 | the decimal text of a number is a non-empty string of digits, without a leading zero for a positive number |
| Text.DecimalRoundTrip | backend/controller/auth.controller.js:9 | the decimal text reads back as the number |
| Text.ParseInt | frontend/src/pages/Rides.jsx:146 | after leading white space and a sign, a `0x` or `0X` reads base sixteen and fails (`NaN`) exactly when no hexadecimal digit follows; otherwise the parse fails exactly when no decimal digit comes first; a negative result needs a minus sign |
| Text.ParseDecimal | frontend/src/pages/Rides.jsx:146 | `parseInt` of a number's decimal text is that number |
| Text.HexPrefixIsBaseSixteen | frontend/src/pages/Rides.jsx:146 | `0x1A` reads as 26 and `-0x10` as -16 |
| Text.HexPrefixWithoutDigitsIsNaN | frontend/src/pages/Rides.jsx:146 | `0x` and `0xg` read as `NaN`, where base ten would read 0 |

## Findings

| source | as written | input that shows it | evidently intended | confidence | as-written member | corrected member |
|---|---|---|---|---|---|---|
| backend/controller/rides.controller.js:147-155 | the booking is built with `seatsBooked` and `totalPrice`, but the schema (backend/models/rideBooking.model.js:6-7) requires `destination` and `price`; the undeclared fields are dropped and validation fails | any booking that passes every guard: ride 1 driven by user 1, listed, destination its `to`, booked by user 2; the reply is 500 "Error while booking ride" | store the chosen destination and its fare, as the schema describes | not executed | Rides.BookRideAsWritten (shown by Rides.BookingRecordMismatch) | Rides.BookRide |
| backend/models/ride.model.js:70-78 | the hook passes `eightPM.getTime() - Date.now()` straight to `setTimeout`; Node replaces any delay above 2147483647 ms (about 24.8 days) by 1 ms | a ride posted 30 days before its departure: the timer fires 1 ms after the save and deletes the ride at once | delete the ride at its 8 p.m. cutoff, however far ahead, for instance by re-arming the timer in steps Node accepts | not executed | RideModel.TimerFiresAtCutoff (shown by RideModel.FarRideIsDeletedAtOnce) | RideModel.RearmedTimerFiresAtCutoff (with RideModel.RearmedDelays) |
| backend/controller/lostfound.controller.js:280-288 | `decideClaim` populates `uploadedBy` before `ensureOwnerOrAdmin` compares `uploadedBy.toString()` with the caller's id; a populated document prints as `{ _id: …, email: … }`, never as an id | the poster, a student, accepting a claim on their own item gets 403 "Not authorized"; only an administrator can decide | the owner-or-admin test on ids, as `updateLostFound` and `deleteLostFound` make it | not executed | LostFound.DecideClaimAsWritten (shown by LostFound.OwnerCannotDecide) | LostFound.DecideClaim |

The ride controllers also test `req.user.isAdmin` (backend/controller/rides.controller.js:36, 65), a field the user schema
does not have. The test is always false, so only the driver passes. `Rides.UpdateRide` and `Rides.DeleteRide` model it
that way.

## Left out

- Mail delivery: sending is a boolean parameter where the handler awaits it without a catch. Where the handler swallows a failed send, as in `createClaim` and `decideClaim`, sending is not modelled.
- Randomness: the random part of an OTP is a parameter `draw` in [0, 900000).
- Clock: the clock is the parameter `now`. The server's time zone is a fixed offset, so daylight-saving changes are not modelled.
- Password hashing: a digest matches exactly its own password; salts and bcrypt are not modelled.
- Token signing: signing and the seven-day token expiry are not modelled. Token verification is a function parameter from token text to an optional id.
- Image storage: uploads are a parameter carrying the URL and storage id. Deleting old images is not modelled, because the handlers ignore its errors.
- Spreadsheet export: writing the XLSX file and sending it are not modelled. The export stops at the rows.
- Mongoose errors: validation errors and their text are abstracted. `Events.CreateEvent` and `Events.UpdateEvent` answer with the fixed message `ValidationFailed`, and `Rides.CreateRide` with `RideValidationFailed`, instead of Mongoose's own wording.
- Database failures: a failing database call (the handlers' generic 500) is not modelled.
- Date parsing: event dates and ride departures arrive already parsed, as absent, as "not a date", or as an instant. Which strings JavaScript's `Date` accepts is not modelled.
- Events.GetEvents: the database leaves the order among events with the same date open; the model fixes one (the earlier stored comes first). `Events.GetEventsIgnoresStoreOrder` states what holds for every order. `LostFound.Newest` fixes the same tie order for items with the same creation instant, and `LostFound.ListingIgnoresStoreOrder` states what holds for every order.
- LostFound.ListLostFound: reads the search as literal text, not as a regular expression. Non-numeric `page` and `limit` values (`NaN`) are not modelled.
- Deleted users in populate: `createClaim` on an item whose poster was deleted (a `null` populate) is not modelled. Neither is `decideClaim` on such an item: there `uploadedBy` populates to `null`, `null.toString()` throws, and a non-administrator gets a 500, where `LostFound.DecideClaimAsWritten` answers 403. Claims and bookings whose user was deleted are not modelled either.
- RideModel.TimerFiresAtCutoff: promises the deletion at the cutoff only when the cutoff is at most 2147483647 ms after the save; a farther ride is deleted 1 ms after the save (see Findings). `Rides.AutoDeleteRide` models the deletion itself, whenever the timer fires.
- `getLostFound`, `listMyLostFound` and `viewProfile`: left out, because they are single reads with no checks of their own.
- Fares: a ride's price and its stops' fares are integers, while the schema's `Number` also accepts fractions (backend/models/ride.model.js:23-27 and 35-39). Fractional fares are not modelled.
- Text.Lower: lower-cases ASCII letters only, where JavaScript's `toLowerCase` is Unicode-aware. This affects `Signup.NormalizeEmail`, the lost-and-found page search and the dashboard search on text outside ASCII.
- Concurrency: every handler is one atomic step. Interleavings between a handler's awaits are not modelled.
- The frontend's network calls are not modelled, and neither are its rendering, state hooks, alerts or date formatting. Two calls the pages make have no matching route:
  - the dashboard fetches `/chair/getAll-events`, which no route serves;
  - it registers with a POST, where the route is a GET.
- RidesPage.StatusBadge: states the fallback and the names of stored statuses. The `completed` entry names no status the backend stores. Keys inherited from `Object.prototype`, such as `constructor`, are not modelled.
- The ride page's booking cancellation and the chairman's event pages are not modelled.

=== FILE: accounts.dfy ===
/** The `User` collection: roles, approval status, unique e-mail, and the
    account store the signup, recovery, admin and login handlers share with
    the one-time-code tickets. */
module Accounts {
  import opened Common
  import opened Text
  import Otp

  datatype Role = Student | ClubChairman | Admin

  datatype UserStatus = Pending | Approved | Rejected

  /** A bcrypt digest. Salting and hashing are not modelled: a digest matches
      exactly the password it was made from. */
  datatype Digest = Digest(plain: string)

  function Hash(password: string): Digest { Digest(password) }

  /** `bcrypt.compare(password, digest)`. */
  predicate Matches(password: string, d: Digest) { d.plain == password }

  lemma HashMatchesOnlyItsPassword(p: string, q: string)
    ensures Matches(q, Hash(p)) <==> p == q
  {
  }

  datatype User = User(id: Id, name: string, email: string, usn: string,
                       password: Digest, role: Role, status: UserStatus)

  /** The role's spelling in the schema's enum. */
  function RoleName(r: Role): string
  {
    match r
    case Student => "student"
    case ClubChairman => "club_chairman"
    case Admin => "admin"
  }

  /** The schema's enum check on a role string. */
  function ParseRole(s: string): (r: Option<Role>)
    ensures r.Some? ==> RoleName(r.value) == s
  {
    if s == "student" then Some(Student)
    else if s == "club_chairman" then Some(ClubChairman)
    else if s == "admin" then Some(Admin)
    else None
  }

  /** Every role name is accepted and names that role, and nothing else is
      accepted. */
  lemma ParseRoleName(r: Role, s: string)
    ensures ParseRole(RoleName(r)) == Some(r)
    ensures ParseRole(s).Some? <==> s == "student" || s == "club_chairman" || s == "admin"
  {
  }

  datatype Store = Store(users: seq<User>, tickets: seq<Otp.Ticket>, nextUserId: nat)

  function EmailOf(u: User): string { u.email }
  function IdOf(u: User): Id { u.id }

  /** The store's standing invariants: e-mail and id are unique among users
      (the unique index and the id allocator), every id is below the next one
      to hand out, and at most one ticket exists per e-mail. */
  ghost predicate WellFormed(s: Store)
  {
    && KeysDistinct(s.users, EmailOf)
    && KeysDistinct(s.users, IdOf)
    && (forall i :: 0 <= i < |s.users| ==> s.users[i].id < s.nextUserId)
    && Otp.OnePerEmail(s.tickets)
  }

  /** `User.findOne({ email })`. */
  function FindByEmail(users: seq<User>, email: string): (r: Option<nat>)
    ensures r.Some? ==> r.value < |users| && users[r.value].email == email
    ensures r.None? <==> forall k :: 0 <= k < |users| ==> users[k].email != email
  {
    FirstWhere(users, (u: User) => u.email == email)
  }

  /** `User.findById(id)`. */
  function FindById(users: seq<User>, id: Id): (r: Option<nat>)
    ensures r.Some? ==> r.value < |users| && users[r.value].id == id
    ensures r.None? <==> forall k :: 0 <= k < |users| ==> users[k].id != id
  {
    FirstWhere(users, (u: User) => u.id == id)
  }

  /** With unique e-mails, the user found is the only one with that e-mail. */
  lemma FindByEmailUnique(users: seq<User>, email: string, k: nat)
    requires KeysDistinct(users, EmailOf)
    requires k < |users| && users[k].email == email
    ensures FindByEmail(users, email) == Some(k)
  {
    var r := FindByEmail(users, email);
    assert r.Some?;
    assert EmailOf(users[r.value]) == EmailOf(users[k]);
  }

  /** The schema's checks on a new user: the required strings are non-empty
      and the role is in the enum. */
  predicate ValidSignup(name: string, email: string, usn: string, role: string)
  {
    name != "" && email != "" && usn != "" && ParseRole(role).Some?
  }

  /** `User.create`: fails on a schema violation or on an e-mail already in
      use (the unique index); otherwise appends the user with a fresh id. */
  function CreateUser(s: Store, name: string, email: string, usn: string,
                      password: Digest, role: string, status: UserStatus): (r: Option<Store>)
    ensures r.Some? <==> ValidSignup(name, email, usn, role) && FindByEmail(s.users, email).None?
    ensures r.Some? ==> r.value.tickets == s.tickets && r.value.nextUserId == s.nextUserId + 1
    ensures r.Some? ==>
      r.value.users == s.users + [User(s.nextUserId, name, email, usn, password, ParseRole(role).value, status)]
    ensures r.Some? && WellFormed(s) ==> WellFormed(r.value)
  {
    if !ValidSignup(name, email, usn, role) || FindByEmail(s.users, email).Some? then None
    else
      var u := User(s.nextUserId, name, email, usn, password, ParseRole(role).value, status);
      Some(Store(s.users + [u], s.tickets, s.nextUserId + 1))
  }

  /** `User.deleteOne({ email })`: removes the first user with that e-mail. */
  function DeleteUserByEmail(users: seq<User>, email: string): (r: seq<User>)
    ensures forall u :: u in r ==> u in users
    ensures forall u :: u in users && u.email != email ==> u in r
    ensures KeysDistinct(users, EmailOf) ==> KeysDistinct(r, EmailOf) && FindByEmail(r, email).None?
    ensures KeysDistinct(users, IdOf) ==> KeysDistinct(r, IdOf)
  {
    match FindByEmail(users, email)
    case None => users
    case Some(i) =>
      var r := RemoveAt(users, i);
      assert KeysDistinct(users, EmailOf) ==> KeysDistinct(r, EmailOf) && FindByEmail(r, email).None? by {
        if KeysDistinct(users, EmailOf) {
          RemoveAtKeepsKeysDistinct(users, i, EmailOf);
          forall k | 0 <= k < |r| ensures r[k].email != email {
            var k' := if k < i then k else k + 1;
            assert EmailOf(users[k']) != EmailOf(users[i]);
          }
        }
      }
      assert KeysDistinct(users, IdOf) ==> KeysDistinct(r, IdOf) by {
        if KeysDistinct(users, IdOf) { RemoveAtKeepsKeysDistinct(users, i, IdOf); }
      }
      r
  }

  /** Deleting a user keeps the store well formed. */
  lemma DeleteUserKeepsWellFormed(s: Store, email: string, tickets: seq<Otp.Ticket>)
    requires WellFormed(s) && Otp.OnePerEmail(tickets)
    ensures WellFormed(Store(DeleteUserByEmail(s.users, email), tickets, s.nextUserId))
  {
    var r := DeleteUserByEmail(s.users, email);
    forall i | 0 <= i < |r| ensures r[i].id < s.nextUserId {
      assert r[i] in s.users;
    }
  }

  /** Replacing one user by a copy with the same id and e-mail keeps the store
      well formed. */
  lemma UpdateUserKeepsWellFormed(s: Store, i: nat, u: User, tickets: seq<Otp.Ticket>)
    requires WellFormed(s) && Otp.OnePerEmail(tickets)
    requires i < |s.users| && u.id == s.users[i].id && u.email == s.users[i].email
    ensures WellFormed(Store(s.users[i := u], tickets, s.nextUserId))
  {
    var r := s.users[i := u];
    forall a, b | 0 <= a < b < |r| ensures EmailOf(r[a]) != EmailOf(r[b]) && IdOf(r[a]) != IdOf(r[b]) {
      assert EmailOf(r[a]) == EmailOf(s.users[a]) && EmailOf(r[b]) == EmailOf(s.users[b]);
      assert IdOf(r[a]) == IdOf(s.users[a]) && IdOf(r[b]) == IdOf(s.users[b]);
    }
  }
}

=== FILE: admin.dfy ===
/** The administrator's account handlers (`admin.controller.js`): list the
    pending signups, approve or reject one, delete an account. These handlers
    lower-case the e-mail they look up but do not trim it. */
module Admin {
  import opened Common
  import opened Text
  import opened Accounts

  /** `viewReq`: the pending users, in store order. */
  function ViewReq(users: seq<User>): (r: seq<User>)
    ensures forall u :: u in r <==> u in users && u.status == Pending
    ensures Subseq(r, users)
  {
    FilterIsSubseq(users, (u: User) => u.status == Pending);
    Filter(users, (u: User) => u.status == Pending)
  }

  /** `handleUserApproval`. `approve` marks the account approved, `reject`
      deletes it; either way a mail follows, and a mail failure turns the
      reply into a 500 after the change is made. */
  function HandleUserApproval(s: Store, email: Option<string>, action: Option<string>, mailOk: bool): (r: (Reply<()>, Store))
    ensures !Present(email) || !Present(action) ==> r == (Err(400, "Email and action required"), s)
    ensures Present(email) && Present(action) && FindByEmail(s.users, Lower(email.value)).None? ==>
      r == (Err(404, "User not found"), s)
    ensures Present(email) && Present(action) && FindByEmail(s.users, Lower(email.value)).Some? ==>
      (action.value != "approve" && action.value != "reject" ==> r == (Err(400, "Invalid action"), s))
    ensures r.0.Ok? <==>
      Present(email) && Present(action) && FindByEmail(s.users, Lower(email.value)).Some?
      && (action.value == "approve" || action.value == "reject") && mailOk
    ensures r.1.tickets == s.tickets && r.1.nextUserId == s.nextUserId
    ensures r.1 != s && action == Some("approve") ==> Approved(s, r.1, Lower(email.value))
    ensures r.1 != s && action == Some("reject") ==> r.1.users == DeleteUserByEmail(s.users, Lower(email.value))
    ensures Present(email) && FindByEmail(s.users, Lower(email.value)).Some? && action == Some("approve") ==>
      Approved(s, r.1, Lower(email.value))
    ensures Present(email) && FindByEmail(s.users, Lower(email.value)).Some? && action == Some("reject") ==>
      r.1.users == DeleteUserByEmail(s.users, Lower(email.value))
    ensures WellFormed(s) ==> WellFormed(r.1)
  {
    if !Present(email) || !Present(action) then (Err(400, "Email and action required"), s)
    else
      var e := Lower(email.value);
      match FindByEmail(s.users, e)
      case None => (Err(404, "User not found"), s)
      case Some(i) =>
        if action.value == "approve" then
          var s' := s.(users := s.users[i := s.users[i].(status := UserStatus.Approved)]);
          assert WellFormed(s) ==> WellFormed(s') by {
            if WellFormed(s) { UpdateUserKeepsWellFormed(s, i, s'.users[i], s.tickets); }
          }
          (if mailOk then Ok(()) else Err(500, "Server error"), s')
        else if action.value == "reject" then
          var s' := s.(users := DeleteUserByEmail(s.users, e));
          assert WellFormed(s) ==> WellFormed(s') by {
            if WellFormed(s) { DeleteUserKeepsWellFormed(s, e, s.tickets); }
          }
          (if mailOk then Ok(()) else Err(500, "Server error"), s')
        else (Err(400, "Invalid action"), s)
  }

  /** `s'` is `s` with the first user under `email` marked approved and every
      other user unchanged. */
  ghost predicate Approved(s: Store, s': Store, email: string)
  {
    && FindByEmail(s.users, email).Some?
    && |s'.users| == |s.users|
    && s'.users[FindByEmail(s.users, email).value] == s.users[FindByEmail(s.users, email).value].(status := UserStatus.Approved)
    && (forall k :: 0 <= k < |s.users| && k != FindByEmail(s.users, email).value ==> s'.users[k] == s.users[k])
  }

  /** `deleteUser`: the 404 message quotes the e-mail as it was sent. */
  function DeleteUser(s: Store, email: Option<string>, mailOk: bool): (r: (Reply<()>, Store))
    ensures !Present(email) ==> r == (Err(400, "Email is required"), s)
    ensures Present(email) && FindByEmail(s.users, Lower(email.value)).None? ==>
      r == (Err(404, "User with email " + email.value + " doesn't exist"), s)
    ensures r.0.Ok? <==> Present(email) && FindByEmail(s.users, Lower(email.value)).Some? && mailOk
    ensures r.1 != s ==> Present(email) && r.1.users == DeleteUserByEmail(s.users, Lower(email.value))
    ensures Present(email) && FindByEmail(s.users, Lower(email.value)).Some? ==>
      r.1.users == DeleteUserByEmail(s.users, Lower(email.value))
    ensures r.1.tickets == s.tickets && r.1.nextUserId == s.nextUserId
    ensures WellFormed(s) ==> WellFormed(r.1)
  {
    if !Present(email) then (Err(400, "Email is required"), s)
    else
      var e := Lower(email.value);
      if FindByEmail(s.users, e).None? then (Err(404, "User with email " + email.value + " doesn't exist"), s)
      else
        var s' := s.(users := DeleteUserByEmail(s.users, e));
        assert WellFormed(s) ==> WellFormed(s') by {
          if WellFormed(s) { DeleteUserKeepsWellFormed(s, e, s.tickets); }
        }
        (if mailOk then Ok(()) else Err(500, "Server error"), s')
  }

  /** Approving takes the account off the pending list and leaves the rest of
      the list as it was. */
  lemma ApproveLeavesPendingList(s: Store, email: string, mailOk: bool)
    requires WellFormed(s) && email != ""
    requires FindByEmail(s.users, Lower(email)).Some?
    ensures var s1 := HandleUserApproval(s, Some(email), Some("approve"), mailOk).1;
      forall u :: u in ViewReq(s1.users) <==> u in ViewReq(s.users) && u.email != Lower(email)
  {
    var e := Lower(email);
    var i := FindByEmail(s.users, e).value;
    var s1 := HandleUserApproval(s, Some(email), Some("approve"), mailOk).1;
    forall u ensures u in s1.users && u.status == Pending <==> u in s.users && u.status == Pending && u.email != e {
      if u in s1.users && u.status == Pending {
        var k :| 0 <= k < |s1.users| && s1.users[k] == u;
        assert k != i;
        assert EmailOf(s.users[k]) != EmailOf(s.users[i]);
      }
      if u in s.users && u.status == Pending && u.email != e {
        var k :| 0 <= k < |s.users| && s.users[k] == u;
        assert k != i;
        assert s1.users[k] == u;
      }
    }
  }
}

=== FILE: common.dfy ===
/** Shared vocabulary of the model: document ids, the optional and reply types
    every handler returns, and order-preserving filtering of collections. */
module Common {

  /** A document id (a MongoDB ObjectId, abstracted to a number). */
  type Id = nat

  datatype Option<+T> = None | Some(value: T)

  /** What an HTTP handler answers: a success value, or an error status with
      the message the handler puts in its JSON body. */
  datatype Reply<+T> = Ok(value: T) | Err(status: nat, message: string)

  /** A date field as sent: absent or empty (falsy), present but not a
      date (the schema's cast to `Date` fails), or an instant in
      milliseconds. */
  datatype DateField = NoDate | BadDate | DateAt(ms: int)

  /** A request field that JavaScript treats as truthy: given and not the
      empty string. */
  predicate Present(o: Option<string>)
  {
    o.Some? && o.value != ""
  }

  /** `a` occurs in `b` in order, possibly with gaps (greedy matching). */
  predicate Subseq<T(==)>(a: seq<T>, b: seq<T>)
    decreases |b|
  {
    if |a| == 0 then true
    else if |b| == 0 then false
    else if a[0] == b[0] then Subseq(a[1..], b[1..])
    else Subseq(a, b[1..])
  }

  lemma {:induction false} SubseqDropHead<T>(a: seq<T>, b: seq<T>)
    requires |a| > 0 && Subseq(a, b)
    ensures Subseq(a[1..], b)
    decreases |b|, 1
  {
    if a[0] == b[0] {
      SubseqWeaken(a[1..], b[1..], b[0]);
      assert [b[0]] + b[1..] == b;
    } else {
      SubseqDropHead(a, b[1..]);
      SubseqWeaken(a[1..], b[1..], b[0]);
      assert [b[0]] + b[1..] == b;
    }
  }

  /** Putting one more element in front of `b` keeps `a` a subsequence. */
  lemma {:induction false} SubseqWeaken<T>(a: seq<T>, b: seq<T>, x: T)
    requires Subseq(a, b)
    ensures Subseq(a, [x] + b)
    decreases |b|, 2
  {
    var xb := [x] + b;
    assert xb[1..] == b;
    if |a| > 0 && a[0] == x {
      SubseqDropHead(a, b);
    }
  }

  /** The elements of `s` that satisfy `p`, in their original order. */
  function Filter<T(!new)>(s: seq<T>, p: T -> bool): (r: seq<T>)
    ensures |r| <= |s|
    ensures forall i :: 0 <= i < |r| ==> p(r[i])
    ensures forall x :: x in r <==> x in s && p(x)
  {
    if |s| == 0 then []
    else if p(s[0]) then [s[0]] + Filter(s[1..], p)
    else Filter(s[1..], p)
  }

  /** Filtering keeps the survivors in the order they had. */
  lemma {:induction false} FilterIsSubseq<T(!new)>(s: seq<T>, p: T -> bool)
    ensures Subseq(Filter(s, p), s)
    decreases |s|
  {
    if |s| > 0 {
      FilterIsSubseq(s[1..], p);
      var r := Filter(s, p);
      if p(s[0]) {
        assert r[0] == s[0] && r[1..] == Filter(s[1..], p);
      } else {
        SubseqWeaken(Filter(s[1..], p), s[1..], s[0]);
        assert [s[0]] + s[1..] == s;
      }
    }
  }

  /** Filtering a list with one element appended filters the list, then
      appends the element when it satisfies `p`. */
  lemma {:induction false} FilterAppend<T(!new)>(s: seq<T>, x: T, p: T -> bool)
    ensures Filter(s + [x], p) == Filter(s, p) + (if p(x) then [x] else [])
    decreases |s|
  {
    if |s| == 0 {
      assert s + [x] == [x];
    } else {
      FilterAppend(s[1..], x, p);
      assert (s + [x])[0] == s[0] && (s + [x])[1..] == s[1..] + [x];
    }
  }

  /** Filtering keeps each element exactly as often as the input holds it
      when it satisfies `p`, and drops it otherwise. */
  lemma {:induction false} FilterMultiset<T(!new)>(s: seq<T>, p: T -> bool)
    ensures forall x :: multiset(Filter(s, p))[x] == if p(x) then multiset(s)[x] else 0
    decreases |s|
  {
    if |s| > 0 {
      FilterMultiset(s[1..], p);
      assert s == [s[0]] + s[1..];
      assert multiset(s) == multiset{s[0]} + multiset(s[1..]);
    }
  }

  /** Two sequences holding the same elements keep the same elements under
      a filter, whatever their order. */
  lemma FilterKeepsMultiset<T(!new)>(a: seq<T>, b: seq<T>, p: T -> bool)
    requires multiset(a) == multiset(b)
    ensures multiset(Filter(a, p)) == multiset(Filter(b, p))
  {
    FilterMultiset(a, p);
    FilterMultiset(b, p);
  }

  /** `Array.prototype.findIndex`, or a store's `findOne`: the position of
      the first element satisfying `p`. */
  function FirstWhere<T>(s: seq<T>, p: T -> bool): (r: Option<nat>)
    ensures r.Some? ==> r.value < |s| && p(s[r.value])
    ensures r.Some? ==> forall k :: 0 <= k < r.value ==> !p(s[k])
    ensures r.None? <==> forall k :: 0 <= k < |s| ==> !p(s[k])
    decreases |s|
  {
    if |s| == 0 then None
    else if p(s[0]) then Some(0)
    else match FirstWhere(s[1..], p)
      case None => None
      case Some(k) => Some(k + 1)
  }

  /** `s` with the element at position `i` taken out; the others keep their
      order. */
  function RemoveAt<T>(s: seq<T>, i: nat): (r: seq<T>)
    requires i < |s|
    ensures |r| == |s| - 1
    ensures forall k :: 0 <= k < |r| ==> r[k] == if k < i then s[k] else s[k + 1]
  {
    s[..i] + s[i + 1..]
  }

  /** Removing one element keeps keys that were distinct distinct. */
  lemma RemoveAtKeepsKeysDistinct<T, K>(s: seq<T>, i: nat, key: T -> K)
    requires i < |s| && KeysDistinct(s, key)
    ensures KeysDistinct(RemoveAt(s, i), key)
  {
    var r := RemoveAt(s, i);
    forall a, b | 0 <= a < b < |r| ensures key(r[a]) != key(r[b]) {
      var a' := if a < i then a else a + 1;
      var b' := if b < i then b else b + 1;
      assert r[a] == s[a'] && r[b] == s[b'] && a' < b';
    }
  }

  /** A filter that keeps every element is the identity. */
  lemma {:induction false} FilterAll<T(!new)>(s: seq<T>, p: T -> bool)
    requires forall i :: 0 <= i < |s| ==> p(s[i])
    ensures Filter(s, p) == s
    decreases |s|
  {
    if |s| > 0 {
      FilterAll(s[1..], p);
      assert [s[0]] + s[1..] == s;
    }
  }

  /** `s` without duplicates. */
  predicate NoDup<T(==)>(s: seq<T>)
  {
    forall i, j :: 0 <= i < j < |s| ==> s[i] != s[j]
  }

  /** No two elements of `s` share a key. */
  ghost predicate KeysDistinct<T, K>(s: seq<T>, key: T -> K)
  {
    forall i, j :: 0 <= i < j < |s| ==> key(s[i]) != key(s[j])
  }

  /** Filtering keeps the keys of the survivors pairwise distinct. */
  lemma {:induction false} FilterKeepsKeysDistinct<T(!new), K>(s: seq<T>, p: T -> bool, key: T -> K)
    requires KeysDistinct(s, key)
    ensures KeysDistinct(Filter(s, p), key)
    decreases |s|
  {
    if |s| > 0 {
      FilterKeepsKeysDistinct(s[1..], p, key);
      var r := Filter(s, p);
      var t := Filter(s[1..], p);
      if !p(s[0]) {
        assert r == t;
      } else {
        assert r == [s[0]] + t;
        forall i, j | 0 <= i < j < |r|
          ensures key(r[i]) != key(r[j])
        {
          if i == 0 {
            assert r[j] == t[j - 1] && t[j - 1] in s[1..];
            var k :| 0 <= k < |s[1..]| && s[1..][k] == r[j];
            assert s[k + 1] == r[j] && r[0] == s[0];
          } else {
            assert r[i] == t[i - 1] && r[j] == t[j - 1];
          }
        }
      }
    }
  }
}

=== FILE: dashboard.dfy ===
/** The logic of the student dashboard (`StudentDashboard.jsx`): the title
    search over the loaded events, the register button's state and label,
    and the local update of the participant list after the server accepted
    a registration. Each is related to what `registerForEvent` does. */
module Dashboard {
  import opened Common
  import opened Text
  import opened Events

  // ---------------------------------------------------------------- search

  /** `filteredEvents`: the loaded events whose title contains the search,
      ignoring case, in the order loaded. */
  function FilteredEvents(events: seq<Event>, search: string): (r: seq<Event>)
    ensures forall e :: e in r <==> e in events && ContainsIgnoringCase(e.title, search)
    ensures Subseq(r, events)
  {
    FilterIsSubseq(events, (e: Event) => ContainsIgnoringCase(e.title, search));
    Filter(events, (e: Event) => ContainsIgnoringCase(e.title, search))
  }

  /** An empty search shows every loaded event. */
  lemma EmptySearchShowsAllEvents(events: seq<Event>)
    ensures FilteredEvents(events, "") == events
  {
    forall i | 0 <= i < |events| ensures ContainsIgnoringCase(events[i].title, "") {
      EmptyQueryMatches(events[i].title);
    }
    FilterAll(events, (e: Event) => ContainsIgnoringCase(e.title, ""));
  }

  /** Searching for an event's own title always finds it. */
  lemma SearchByTitleFinds(events: seq<Event>, e: Event)
    requires e in events
    ensures e in FilteredEvents(events, e.title)
  {
    TextMatchesItself(e.title);
  }

  // ---------------------------------------------------------------- button

  /** `isRegistered`: a signed-in user (`None` when no id could be read from
      the token) who is among the event's participants. */
  predicate IsRegistered(userId: Option<Id>, e: Event)
  {
    userId.Some? && userId.value in e.participants
  }

  /** The button is disabled while its own request is in flight and once
      the user is registered. */
  predicate RegisterDisabled(loadingId: Option<Id>, userId: Option<Id>, e: Event)
  {
    loadingId == Some(e.id) || IsRegistered(userId, e)
  }

  /** The button's text. */
  function ButtonLabel(loadingId: Option<Id>, userId: Option<Id>, e: Event): (t: string)
    ensures t == "Register" <==> !RegisterDisabled(loadingId, userId, e)
    ensures t == "Registered" <==> IsRegistered(userId, e)
  {
    if IsRegistered(userId, e) then "Registered"
    else if loadingId == Some(e.id) then "Registering..."
    else "Register"
  }

  /** For an event the store holds, the button is marked registered
      exactly when the server would refuse the registration as a repeat;
      an enabled button is one whose request the server accepts. */
  lemma ButtonAgreesWithServer(st: State, loadingId: Option<Id>, userId: Id, e: Event)
    requires IdsDistinct(st) && e in st.events
    ensures IsRegistered(Some(userId), e) <==> RegisterForEvent(st, userId, e.id).0 == Err(400, "Already registered")
    ensures !RegisterDisabled(loadingId, Some(userId), e) ==> RegisterForEvent(st, userId, e.id).0.Ok?
  {
    StoredEventIsFound(st, e);
  }

  /** An event of a store with distinct ids is found at its own place. */
  lemma StoredEventIsFound(st: State, e: Event)
    requires IdsDistinct(st) && e in st.events
    ensures FindEvent(st.events, e.id).Some? && st.events[FindEvent(st.events, e.id).value] == e
  {
    var j :| 0 <= j < |st.events| && st.events[j] == e;
    var k := FindEvent(st.events, e.id).value;
    assert st.events[k].id == st.events[j].id;
  }

  // ---------------------------------------------------------------- local update

  /** The update `handleRegister` makes after the server accepted: the
      user is appended to the participants of the event with that id. The
      server only accepts a request carrying a valid token, from which the
      page read `userId`. */
  function LocalRegister(events: seq<Event>, eventId: Id, userId: Id): (r: seq<Event>)
    ensures |r| == |events|
    ensures forall i :: 0 <= i < |events| && events[i].id != eventId ==> r[i] == events[i]
    ensures forall i :: 0 <= i < |events| && events[i].id == eventId ==>
      r[i] == events[i].(participants := events[i].participants + [userId])
  {
    seq(|events|, i requires 0 <= i < |events| =>
      if events[i].id == eventId then events[i].(participants := events[i].participants + [userId]) else events[i])
  }

  /** Applied to the store's own list, the local update is exactly the
      server's registration. */
  lemma LocalRegisterIsServerRegister(st: State, userId: Id, id: Id)
    requires IdsDistinct(st) && RegisterForEvent(st, userId, id).0.Ok?
    ensures LocalRegister(st.events, id, userId) == RegisterForEvent(st, userId, id).1.events
  {
    var k := FindEvent(st.events, id).value;
    var l := LocalRegister(st.events, id, userId);
    var s := RegisterForEvent(st, userId, id).1.events;
    forall j | 0 <= j < |st.events| ensures l[j] == s[j] {
      if j != k {
        assert st.events[j].id != st.events[k].id;
      }
    }
  }

  /** Whatever subset and order of the store's events the page holds, after
      the local update every event it shows is one the server now stores. */
  lemma LocalViewMatchesServer(st: State, shown: seq<Event>, userId: Id, id: Id)
    requires IdsDistinct(st) && RegisterForEvent(st, userId, id).0.Ok?
    requires forall e :: e in shown ==> e in st.events
    ensures forall e :: e in LocalRegister(shown, id, userId) ==> e in RegisterForEvent(st, userId, id).1.events
  {
    var k := FindEvent(st.events, id).value;
    var s := RegisterForEvent(st, userId, id).1.events;
    var l := LocalRegister(shown, id, userId);
    forall i | 0 <= i < |l| ensures l[i] in s {
      var e := shown[i];
      StoredEventIsFound(st, e);
      var j := FindEvent(st.events, e.id).value;
      if e.id == id {
        assert j == k && s[k] == l[i];
      } else {
        assert j != k && s[j] == l[i];
      }
    }
  }

  /** After the local update the event's button reads "Registered" and is
      disabled, which matches the server refusing a second request. */
  lemma RegisteredAfterUpdate(st: State, shown: seq<Event>, userId: Id, id: Id, i: nat)
    requires RegisterForEvent(st, userId, id).0.Ok?
    requires i < |shown| && shown[i].id == id
    ensures ButtonLabel(None, Some(userId), LocalRegister(shown, id, userId)[i]) == "Registered"
    ensures RegisterForEvent(RegisterForEvent(st, userId, id).1, userId, id).0 == Err(400, "Already registered")
  {
    var e := LocalRegister(shown, id, userId)[i];
    assert e.participants[|e.participants| - 1] == userId;
    RegisterTwiceFails(st, userId, id);
  }
}

=== FILE: events.dfy ===
/** The event handlers (`eventController.js`, schema `event.model.js`): club
    chairmen post events, students register for them, the creator may edit
    or delete an event, and any chairman may export the participant list of
    any event. Events are kept in
    creation order; every handler is one atomic step from a state to a reply
    and a new state. */
module Events {
  import opened Common
  import opened Sorting
  import Accounts

  /** A stored event; `date` is an instant in milliseconds. */
  datatype Event = Event(id: Id, title: string, date: int, description: string, poster: string,
                         createdBy: Id, participants: seq<Id>)

  datatype State = State(events: seq<Event>, nextId: nat)

  /** `Event.findById`: the position of the event with that id. */
  function FindEvent(events: seq<Event>, id: Id): (r: Option<nat>)
    ensures r.Some? ==> r.value < |events| && events[r.value].id == id
    ensures r.None? <==> forall k :: 0 <= k < |events| ==> events[k].id != id
  {
    FirstWhere(events, (e: Event) => e.id == id)
  }

  /** The schema's required strings reject both a missing and an empty
      value. */
  predicate Given(s: Option<string>) { s.Some? && s.value != "" }

  /** Mongoose's error message, which the handlers pass through verbatim;
      its wording is not modelled. */
  const ValidationFailed: string := "Event validation failed"

  /** `createEvent`: the poster is the uploaded file's URL or empty. */
  function CreateEvent(st: State, caller: Id, title: Option<string>, date: DateField, description: Option<string>,
                       posterUrl: Option<string>): (r: (Reply<Id>, State))
    ensures r.0.Ok? <==> Given(title) && date.DateAt? && Given(description)
    ensures r.0.Err? ==> r == (Err(500, ValidationFailed), st)
    ensures r.0.Ok? && WellFormed(st) ==> FindEvent(st.events, r.0.value).None?
    ensures r.0.Ok? ==> (r.0.value == st.nextId && r.1.nextId == st.nextId + 1
      && r.1.events == st.events + [Event(st.nextId, title.value, date.ms, description.value,
                                          if posterUrl.Some? then posterUrl.value else "", caller, [])])
  {
    if !Given(title) || !date.DateAt? || !Given(description) then (Err(500, ValidationFailed), st)
    else
      var e := Event(st.nextId, title.value, date.ms, description.value,
                     if posterUrl.Some? then posterUrl.value else "", caller, []);
      (Ok(st.nextId), State(st.events + [e], st.nextId + 1))
  }

  // ---------------------------------------------------------------- registration

  /** `registerForEvent`: the caller joins the event's participants once. */
  function RegisterForEvent(st: State, caller: Id, id: Id): (r: (Reply<()>, State))
    ensures FindEvent(st.events, id).None? ==> r == (Err(404, "Event not found"), st)
    ensures FindEvent(st.events, id).Some? && caller in st.events[FindEvent(st.events, id).value].participants ==>
      r == (Err(400, "Already registered"), st)
    ensures r.0.Ok? <==> FindEvent(st.events, id).Some? && caller !in st.events[FindEvent(st.events, id).value].participants
    ensures r.0.Err? ==> r.1 == st
    ensures r.0.Ok? ==> (var k := FindEvent(st.events, id).value;
      && |r.1.events| == |st.events| && r.1.nextId == st.nextId
      && r.1.events[k] == st.events[k].(participants := st.events[k].participants + [caller])
      && forall j :: 0 <= j < |st.events| && j != k ==> r.1.events[j] == st.events[j])
  {
    match FindEvent(st.events, id)
    case None => (Err(404, "Event not found"), st)
    case Some(k) =>
      var e := st.events[k];
      if caller in e.participants then (Err(400, "Already registered"), st)
      else (Ok(()), st.(events := st.events[k := e.(participants := e.participants + [caller])]))
  }

  /** Every participant list is free of duplicates. */
  ghost predicate ParticipantsDistinct(st: State)
  {
    forall k :: 0 <= k < |st.events| ==> NoDup(st.events[k].participants)
  }

  lemma AppendKeepsNoDup(s: seq<Id>, x: Id)
    requires NoDup(s) && x !in s
    ensures NoDup(s + [x])
  {
    var t := s + [x];
    forall i, j | 0 <= i < j < |t| ensures t[i] != t[j] {
      if j == |s| { assert t[i] == s[i]; }
    }
  }

  /** Registration keeps every participant list free of duplicates, and a
      successful one adds the caller exactly once. */
  lemma RegisterKeepsParticipantsDistinct(st: State, caller: Id, id: Id)
    requires ParticipantsDistinct(st)
    ensures ParticipantsDistinct(RegisterForEvent(st, caller, id).1)
    ensures RegisterForEvent(st, caller, id).0.Ok? ==>
      caller in RegisterForEvent(st, caller, id).1.events[FindEvent(st.events, id).value].participants
  {
    var r := RegisterForEvent(st, caller, id);
    if r.0.Ok? {
      var k := FindEvent(st.events, id).value;
      var p := st.events[k].participants;
      AppendKeepsNoDup(p, caller);
      assert (p + [caller])[|p|] == caller;
    }
  }

  /** A second registration by the same caller is refused. */
  lemma RegisterTwiceFails(st: State, caller: Id, id: Id)
    requires RegisterForEvent(st, caller, id).0.Ok?
    ensures RegisterForEvent(RegisterForEvent(st, caller, id).1, caller, id).0 == Err(400, "Already registered")
  {
    var k := FindEvent(st.events, id).value;
    var st' := RegisterForEvent(st, caller, id).1;
    assert forall j :: 0 <= j < |st'.events| ==> st'.events[j].id == st.events[j].id;
    assert FindEvent(st'.events, id) == Some(k);
    assert st'.events[k].participants[|st.events[k].participants|] == caller;
  }

  // ---------------------------------------------------------------- update and delete

  /** `updateEvent`: only the creator may edit; non-empty fields overwrite,
      and the poster changes only when a new file is uploaded. */
  function UpdateEvent(st: State, caller: Id, id: Id, title: Option<string>, date: DateField, description: Option<string>,
                       posterUrl: Option<string>): (r: (Reply<Event>, State))
    ensures FindEvent(st.events, id).None? ==> r == (Err(404, "Event not found"), st)
    ensures FindEvent(st.events, id).Some? && st.events[FindEvent(st.events, id).value].createdBy != caller ==>
      r == (Err(403, "You can only update your own events"), st)
    ensures r.0.Ok? <==> FindEvent(st.events, id).Some? && st.events[FindEvent(st.events, id).value].createdBy == caller
                         && !date.BadDate?
    ensures r.0.Err? ==> r.1 == st
    ensures r.0.Ok? ==> (var k := FindEvent(st.events, id).value; var old_ := st.events[k]; var e := r.0.value;
      && r.1 == st.(events := st.events[k := e])
      && e.id == old_.id && e.createdBy == old_.createdBy && e.participants == old_.participants
      && e.title == (if Given(title) then title.value else old_.title)
      && e.description == (if Given(description) then description.value else old_.description)
      && e.date == (if date.DateAt? then date.ms else old_.date)
      && e.poster == (if posterUrl.Some? then posterUrl.value else old_.poster))
  {
    match FindEvent(st.events, id)
    case None => (Err(404, "Event not found"), st)
    case Some(k) =>
      var e := st.events[k];
      if e.createdBy != caller then (Err(403, "You can only update your own events"), st)
      else if date.BadDate? then (Err(500, ValidationFailed), st)
      else
        var e' := e.(title := if Given(title) then title.value else e.title,
                     date := if date.DateAt? then date.ms else e.date,
                     description := if Given(description) then description.value else e.description,
                     poster := if posterUrl.Some? then posterUrl.value else e.poster);
        (Ok(e'), st.(events := st.events[k := e']))
  }

  /** `deleteEvent`: only the creator may delete. */
  function DeleteEvent(st: State, caller: Id, id: Id): (r: (Reply<()>, State))
    ensures FindEvent(st.events, id).None? ==> r == (Err(404, "Event not found"), st)
    ensures FindEvent(st.events, id).Some? && st.events[FindEvent(st.events, id).value].createdBy != caller ==>
      r == (Err(403, "You can only delete your own events"), st)
    ensures r.0.Ok? <==> FindEvent(st.events, id).Some? && st.events[FindEvent(st.events, id).value].createdBy == caller
    ensures r.0.Err? ==> r.1 == st
    ensures r.0.Ok? ==> r.1 == st.(events := RemoveAt(st.events, FindEvent(st.events, id).value))
  {
    match FindEvent(st.events, id)
    case None => (Err(404, "Event not found"), st)
    case Some(k) =>
      if st.events[k].createdBy != caller then (Err(403, "You can only delete your own events"), st)
      else (Ok(()), st.(events := RemoveAt(st.events, k)))
  }

  /** Event ids are never shared. */
  ghost predicate IdsDistinct(st: State)
  {
    KeysDistinct(st.events, (e: Event) => e.id)
  }

  /** Standing facts about the store: ids come from one counter, so every
      stored id is below the next one and no two events share one. */
  ghost predicate WellFormed(st: State)
  {
    IdsDistinct(st) && forall k :: 0 <= k < |st.events| ==> st.events[k].id < st.nextId
  }

  /** Posting keeps the store well formed, and the new event is found under
      its id at the end of the list. */
  lemma CreateEventPreserves(st: State, caller: Id, title: Option<string>, date: DateField, description: Option<string>,
                             posterUrl: Option<string>)
    requires WellFormed(st)
    ensures var (r, st') := CreateEvent(st, caller, title, date, description, posterUrl);
      WellFormed(st') && (r.Ok? ==> FindEvent(st'.events, r.value) == Some(|st.events|))
  {
    var (r, st') := CreateEvent(st, caller, title, date, description, posterUrl);
    if r.Ok? {
      assert forall k :: 0 <= k < |st.events| ==> st'.events[k] == st.events[k];
      forall i, j | 0 <= i < j < |st'.events| ensures st'.events[i].id != st'.events[j].id {
        assert st'.events[i] == st.events[i];
      }
      assert FindEvent(st'.events, r.value) == Some(|st.events|) by {
        assert forall k :: 0 <= k < |st.events| ==> st'.events[k].id != r.value;
        assert st'.events[|st.events|].id == r.value;
      }
    }
  }

  /** Registration changes no id, so it keeps the store well formed. */
  lemma RegisterPreserves(st: State, caller: Id, id: Id)
    requires WellFormed(st)
    ensures WellFormed(RegisterForEvent(st, caller, id).1)
  {
    var st' := RegisterForEvent(st, caller, id).1;
    assert forall k :: 0 <= k < |st'.events| ==> st'.events[k].id == st.events[k].id;
  }

  /** An update keeps the event's id, so it keeps the store well formed. */
  lemma UpdatePreserves(st: State, caller: Id, id: Id, title: Option<string>, date: DateField,
                        description: Option<string>, posterUrl: Option<string>)
    requires WellFormed(st)
    ensures WellFormed(UpdateEvent(st, caller, id, title, date, description, posterUrl).1)
  {
    var st' := UpdateEvent(st, caller, id, title, date, description, posterUrl).1;
    assert forall k :: 0 <= k < |st'.events| ==> st'.events[k].id == st.events[k].id;
  }

  /** Deletion keeps the store well formed. */
  lemma DeletePreserves(st: State, caller: Id, id: Id)
    requires WellFormed(st)
    ensures WellFormed(DeleteEvent(st, caller, id).1)
  {
    var r := DeleteEvent(st, caller, id);
    if r.0.Ok? {
      RemoveAtKeepsKeysDistinct(st.events, FindEvent(st.events, id).value, (e: Event) => e.id);
    }
  }

  /** Only the creator changes an event: whoever else calls update or
      delete leaves the store as it was, and after the creator's delete the
      event is gone. */
  lemma OnlyCreatorChanges(st: State, caller: Id, id: Id, title: Option<string>, date: DateField,
                           description: Option<string>, posterUrl: Option<string>)
    requires FindEvent(st.events, id).Some? ==> st.events[FindEvent(st.events, id).value].createdBy != caller
    ensures UpdateEvent(st, caller, id, title, date, description, posterUrl).1 == st
    ensures DeleteEvent(st, caller, id).1 == st
  {
  }

  lemma DeleteRemovesEvent(st: State, caller: Id, id: Id)
    requires IdsDistinct(st) && DeleteEvent(st, caller, id).0.Ok?
    ensures FindEvent(DeleteEvent(st, caller, id).1.events, id).None?
    ensures IdsDistinct(DeleteEvent(st, caller, id).1)
    ensures |DeleteEvent(st, caller, id).1.events| == |st.events| - 1
  {
    var k := FindEvent(st.events, id).value;
    var st' := DeleteEvent(st, caller, id).1;
    RemoveAtKeepsKeysDistinct(st.events, k, (e: Event) => e.id);
    forall j | 0 <= j < |st'.events| ensures st'.events[j].id != id {
      var j' := if j < k then j else j + 1;
      assert st'.events[j] == st.events[j'] && j' != k;
    }
  }

  // ---------------------------------------------------------------- listings

  /** `getmyevents`: the caller's events, in store order. */
  function GetMyEvents(st: State, caller: Id): (r: seq<Event>)
    ensures forall e :: e in r <==> e in st.events && e.createdBy == caller
    ensures Subseq(r, st.events)
  {
    FilterIsSubseq(st.events, (e: Event) => e.createdBy == caller);
    Filter(st.events, (e: Event) => e.createdBy == caller)
  }

  /** A posted event joins the end of its creator's own listing, and every
      other user's listing stays as it was. */
  lemma CreatedEventIsMine(st: State, caller: Id, title: Option<string>, date: DateField, description: Option<string>,
                           posterUrl: Option<string>, other: Id)
    requires CreateEvent(st, caller, title, date, description, posterUrl).0.Ok?
    ensures var st' := CreateEvent(st, caller, title, date, description, posterUrl).1;
      && GetMyEvents(st', caller) == GetMyEvents(st, caller) + [st'.events[|st.events|]]
      && (other != caller ==> GetMyEvents(st', other) == GetMyEvents(st, other))
  {
    var st' := CreateEvent(st, caller, title, date, description, posterUrl).1;
    var posted := st'.events[|st.events|];
    assert st'.events == st.events + [posted];
    FilterAppend(st.events, posted, (e: Event) => e.createdBy == caller);
    FilterAppend(st.events, posted, (e: Event) => e.createdBy == other);
  }

  function DateOf(e: Event): int { e.date }

  /** `getEvents`: `find().sort({ date: -1 })`, every event, latest date
      first. */
  function GetEvents(st: State): (r: seq<Event>)
    ensures Descending(r, DateOf) && multiset(r) == multiset(st.events)
  {
    SortDescending(st.events, DateOf)
  }

  /** The listing holds each stored event exactly as often as the store
      does, so nothing is lost or duplicated, and its order does not depend
      on the order the events were stored in. */
  lemma GetEventsIgnoresStoreOrder(a: State, b: State)
    requires multiset(a.events) == multiset(b.events)
    ensures |GetEvents(a)| == |GetEvents(b)|
    ensures forall i :: 0 <= i < |GetEvents(a)| ==> GetEvents(a)[i].date == GetEvents(b)[i].date
  {
    var ra := GetEvents(a);
    var rb := GetEvents(b);
    SortedKeysAgree(ra, rb, DateOf);
    assert forall i :: 0 <= i < |ra| ==> DateOf(ra[i]) == DateOf(rb[i]);
  }

  // ---------------------------------------------------------------- export

  /** One spreadsheet row. */
  datatype Row = Row(name: string, email: string, usn: string)

  /** `populate("participants")` followed by the row mapping: participants
      whose account is gone are dropped by the populate, the rest become
      one row each, in participant order. */
  function ParticipantRows(users: seq<Accounts.User>, participants: seq<Id>): (r: seq<Row>)
    ensures |r| <= |participants|
    ensures (forall i :: 0 <= i < |participants| ==> Accounts.FindById(users, participants[i]).Some?) ==>
      |r| == |participants|
      && forall i :: 0 <= i < |r| ==>
           var u := users[Accounts.FindById(users, participants[i]).value];
           r[i] == Row(u.name, u.email, u.usn)
    decreases |participants|
  {
    if |participants| == 0 then []
    else
      var rest := ParticipantRows(users, participants[1..]);
      match Accounts.FindById(users, participants[0])
      case None => rest
      case Some(i) => [Row(users[i].name, users[i].email, users[i].usn)] + rest
  }

  /** `exportParticipants`: the rows of the event's participants. */
  function ExportParticipants(st: State, users: seq<Accounts.User>, id: Id): (r: Reply<seq<Row>>)
    ensures FindEvent(st.events, id).None? <==> r == Err(404, "Event not found")
    ensures r.Ok? ==> r.value == ParticipantRows(users, st.events[FindEvent(st.events, id).value].participants)
  {
    match FindEvent(st.events, id)
    case None => Err(404, "Event not found")
    case Some(k) => Ok(ParticipantRows(users, st.events[k].participants))
  }

  /** Registering a student with an account adds that student's row at the
      end of the export. */
  lemma RegisterAddsRow(st: State, users: seq<Accounts.User>, caller: Id, id: Id)
    requires RegisterForEvent(st, caller, id).0.Ok? && Accounts.FindById(users, caller).Some?
    ensures var u := users[Accounts.FindById(users, caller).value];
      ExportParticipants(RegisterForEvent(st, caller, id).1, users, id)
        == Ok(ExportParticipants(st, users, id).value + [Row(u.name, u.email, u.usn)])
  {
    var k := FindEvent(st.events, id).value;
    var st' := RegisterForEvent(st, caller, id).1;
    assert forall j :: 0 <= j < |st'.events| ==> st'.events[j].id == st.events[j].id;
    assert FindEvent(st'.events, id) == Some(k);
    RowsOfAppend(users, st.events[k].participants, caller);
  }

  lemma {:induction false} RowsOfAppend(users: seq<Accounts.User>, ps: seq<Id>, p: Id)
    requires Accounts.FindById(users, p).Some?
    ensures var u := users[Accounts.FindById(users, p).value];
      ParticipantRows(users, ps + [p]) == ParticipantRows(users, ps) + [Row(u.name, u.email, u.usn)]
    decreases |ps|
  {
    if |ps| == 0 {
      assert ([] + [p])[1..] == [];
    } else {
      assert (ps + [p])[1..] == ps[1..] + [p];
      RowsOfAppend(users, ps[1..], p);
    }
  }
}

=== FILE: login.dfy ===
/** `userLogin` (`login.controller.js`): an approved account with the right
    password receives a token naming its id and role. */
module Login {
  import opened Common
  import opened Text
  import opened Accounts
  import Admin

  /** The claims the signed token carries. Signing and the seven-day expiry
      are not modelled. */
  datatype Token = Token(id: Id, role: Role)

  function UserLogin(users: seq<User>, email: Option<string>, password: Option<string>): (r: Reply<Token>)
    ensures !Present(email) || !Present(password) ==> r == Err(400, "Email and password are required")
    ensures r.Ok? <==>
      Present(email) && Present(password) && FindByEmail(users, Lower(email.value)).Some?
      && users[FindByEmail(users, Lower(email.value)).value].status == UserStatus.Approved
      && Matches(password.value, users[FindByEmail(users, Lower(email.value)).value].password)
    ensures r.Ok? ==> exists k :: 0 <= k < |users| && users[k].email == Lower(email.value)
                                 && r.value == Token(users[k].id, users[k].role)
    ensures Present(email) && Present(password) && FindByEmail(users, Lower(email.value)).None? ==>
      r == Err(401, "Invalid email or password")
    ensures Present(email) && Present(password) && FindByEmail(users, Lower(email.value)).Some? ==>
      var u := users[FindByEmail(users, Lower(email.value)).value];
      && (u.status != UserStatus.Approved ==> r == Err(403, "User not approved by admin yet"))
      && (u.status == UserStatus.Approved && !Matches(password.value, u.password) ==>
            r == Err(401, "Invalid email or password"))
    ensures r.Err? ==> r.status in {400, 401, 403}
  {
    if !Present(email) || !Present(password) then Err(400, "Email and password are required")
    else
      match FindByEmail(users, Lower(email.value))
      case None => Err(401, "Invalid email or password")
      case Some(i) =>
        if users[i].status != UserStatus.Approved then Err(403, "User not approved by admin yet")
        else if !Matches(password.value, users[i].password) then Err(401, "Invalid email or password")
        else Ok(Token(users[i].id, users[i].role))
  }

  /** An unknown e-mail and a wrong password for an approved account get the
      same answer: the reply does not tell which one was wrong. */
  lemma UnknownAndWrongPasswordLookAlike(users: seq<User>, unknown: string, known: string, pw: string)
    requires unknown != "" && known != "" && pw != ""
    requires FindByEmail(users, Lower(unknown)).None?
    requires FindByEmail(users, Lower(known)).Some?
    requires var u := users[FindByEmail(users, Lower(known)).value];
      u.status == UserStatus.Approved && !Matches(pw, u.password)
    ensures UserLogin(users, Some(unknown), Some(pw)) == UserLogin(users, Some(known), Some(pw))
  {
  }

  /** A pending or rejected account is told so whatever password it sends,
      so the 403 reveals that the account exists. */
  lemma UnapprovedIsToldSo(users: seq<User>, email: string, pw: string)
    requires email != "" && pw != ""
    requires FindByEmail(users, Lower(email)).Some?
    requires users[FindByEmail(users, Lower(email)).value].status != UserStatus.Approved
    ensures UserLogin(users, Some(email), Some(pw)) == Err(403, "User not approved by admin yet")
  {
  }

  /** Approval is what opens the door: once an administrator approves an
      account, its own password logs it in with its id and role; once one
      rejects it, the e-mail is unknown. */
  lemma ApprovalDecidesLogin(s: Store, email: string, pw: string, mailOk: bool)
    requires WellFormed(s) && email != "" && pw != ""
    requires FindByEmail(s.users, Lower(email)).Some?
    requires Matches(pw, s.users[FindByEmail(s.users, Lower(email)).value].password)
    ensures var u := s.users[FindByEmail(s.users, Lower(email)).value];
      var s1 := Admin.HandleUserApproval(s, Some(email), Some("approve"), mailOk).1;
      UserLogin(s1.users, Some(email), Some(pw)) == Ok(Token(u.id, u.role))
    ensures var s2 := Admin.HandleUserApproval(s, Some(email), Some("reject"), mailOk).1;
      UserLogin(s2.users, Some(email), Some(pw)) == Err(401, "Invalid email or password")
  {
    var e := Lower(email);
    var i := FindByEmail(s.users, e).value;
    var s1 := Admin.HandleUserApproval(s, Some(email), Some("approve"), mailOk).1;
    assert s1.users[i].email == e;
    FindByEmailUnique(s1.users, e, i);
  }

  /** Once an administrator deletes an account, its e-mail no longer logs
      in, whatever password is sent: the reply is the unknown-account 401. */
  lemma DeletedUserCannotLogin(s: Store, email: string, pw: string, mailOk: bool)
    requires WellFormed(s) && email != "" && pw != ""
    ensures var s1 := Admin.DeleteUser(s, Some(email), mailOk).1;
      UserLogin(s1.users, Some(email), Some(pw)) == Err(401, "Invalid email or password")
  {
  }
}

=== FILE: lostfound.dfy ===
/** The lost-and-found handlers (`lostfound.controller.js`): students post
    lost or found items, others claim them, and the poster (or an
    administrator) accepts one claim, which resolves the item and turns the
    remaining pending claims down. Items are kept in the order stored; claims
    are a map from id to record. Every handler is one atomic step from a
    state to a reply and a new state. */
module LostFound {
  import opened Common
  import opened Sorting
  import opened Text
  import opened LostFoundModel
  import Accounts

  datatype State = State(items: seq<Item>, claims: map<Id, Claim>, nextId: nat)

  /** `LostFound.findById`: the position of the item with that id. */
  function FindItem(st: State, id: Id): (r: Option<nat>)
    ensures r.Some? ==> r.value < |st.items| && st.items[r.value].id == id
    ensures r.None? <==> forall k :: 0 <= k < |st.items| ==> st.items[k].id != id
  {
    FirstWhere(st.items, (it: Item) => it.id == id)
  }

  /** Standing facts about the store: ids come from one counter and are never
      shared, every stored item passes the schema, and the unique index
      allows one claim per (item, claimer). */
  ghost predicate WellFormed(st: State)
  {
    && KeysDistinct(st.items, (it: Item) => it.id)
    && (forall k :: 0 <= k < |st.items| ==> st.items[k].id < st.nextId && ValidItem(st.items[k]))
    && (forall c :: c in st.claims ==> c < st.nextId && st.claims[c].item < st.nextId)
    && (forall a, b :: a in st.claims && b in st.claims && a != b ==>
          st.claims[a].item != st.claims[b].item || st.claims[a].claimer != st.claims[b].claimer)
  }

  /** The claim invariant: an item has at most one accepted claim, an item
      with an accepted claim is resolved, and no claim on it is still
      pending. */
  ghost predicate Settled(st: State)
  {
    OneAccepted(st) && AcceptedResolved(st) && NoPendingBesideAccepted(st)
  }

  ghost predicate OneAccepted(st: State)
  {
    forall a, b :: (a in st.claims && b in st.claims && st.claims[a].item == st.claims[b].item
                    && st.claims[a].status == ClaimAccepted && st.claims[b].status == ClaimAccepted) ==> a == b
  }

  ghost predicate AcceptedResolved(st: State)
  {
    forall c, k :: (c in st.claims && 0 <= k < |st.items| && st.claims[c].status == ClaimAccepted
                    && st.items[k].id == st.claims[c].item) ==> st.items[k].isResolved
  }

  ghost predicate NoPendingBesideAccepted(st: State)
  {
    forall a, b :: (a in st.claims && b in st.claims && st.claims[a].status == ClaimAccepted
                    && st.claims[b].status == ClaimPending) ==> st.claims[a].item != st.claims[b].item
  }

  // ---------------------------------------------------------------- createLostFound

  /** The fields of the request body; absent fields are `None`. */
  datatype PostForm = PostForm(title: Option<string>, description: Option<string>, location: Option<string>,
                               status: Option<string>, contact: Option<string>)

  /** An uploaded picture: its URL and the storage id used to delete it. */
  datatype Upload = Upload(url: string, publicId: string)

  /** `createLostFound`. The required strings are trimmed by the schema, so a
      title of spaces passes the handler's test and fails validation. */
  function CreateLostFound(st: State, caller: Caller, f: PostForm, upload: Option<Upload>, now: int): (r: (Reply<Id>, State))
    ensures !(Present(f.title) && Present(f.description) && Present(f.location) && Present(f.status) && Present(f.contact)) ==>
      r == (Err(400, "Required fields missing"), st)
    ensures r.0.Ok? <==>
      Present(f.title) && Present(f.description) && Present(f.location) && Present(f.status) && Present(f.contact)
      && ParseItemStatus(f.status.value).Some?
      && Trim(f.title.value) != "" && Trim(f.description.value) != "" && Trim(f.location.value) != ""
    ensures r.0.Err? ==> r.1 == st && r.0.status in {400, 500}
    ensures r.0.Ok? ==> (r.0.value == st.nextId && r.1.claims == st.claims && r.1.nextId == st.nextId + 1
      && |r.1.items| == |st.items| + 1 && r.1.items[..|st.items|] == st.items)
    ensures r.0.Ok? ==> (var it := r.1.items[|st.items|];
         it.id == st.nextId && it.uploadedBy == caller.id && !it.isResolved && it.resolvedBy.None? && it.createdAt == now
         && it.title == Trim(f.title.value) && it.description == Trim(f.description.value)
         && it.location == Trim(f.location.value) && it.contact == f.contact.value
         && ItemStatusName(it.status) == f.status.value && ValidItem(it)
         && (upload.Some? ==> it.imageUrl == upload.value.url && it.imagePublicId == upload.value.publicId)
         && (upload.None? ==> it.imageUrl == "" && it.imagePublicId == ""))
  {
    if !(Present(f.title) && Present(f.description) && Present(f.location) && Present(f.status) && Present(f.contact)) then
      (Err(400, "Required fields missing"), st)
    else
      var status := ParseItemStatus(f.status.value);
      var it := Item(st.nextId, Trim(f.title.value), Trim(f.description.value), Trim(f.location.value),
                     if status.Some? then status.value else Lost, f.contact.value,
                     if upload.Some? then upload.value.url else "", if upload.Some? then upload.value.publicId else "",
                     caller.id, false, None, None, now);
      if status.None? || !ValidItem(it) then (Err(500, "Server error"), st)
      else (Ok(st.nextId), st.(items := st.items + [it], nextId := st.nextId + 1))
  }

  // ---------------------------------------------------------------- listLostFound

  /** The listing's filter: a `lost`/`found` status narrows it (any other
      status is ignored), and a non-empty query must occur, ignoring case,
      in the title, the description or the location. */
  predicate Matches(it: Item, status: Option<string>, q: Option<string>)
  {
    && (Present(status) && ParseItemStatus(status.value).Some? ==> it.status == ParseItemStatus(status.value).value)
    && (Present(q) ==> ContainsIgnoringCase(it.title, q.value) || ContainsIgnoringCase(it.description, q.value)
                       || ContainsIgnoringCase(it.location, q.value))
  }

  function CreatedAtOf(it: Item): int { it.createdAt }

  /** The matching items, newest first (`sort({ createdAt: -1 })`). */
  function Newest(st: State, status: Option<string>, q: Option<string>): (r: seq<Item>)
    ensures Descending(r, CreatedAtOf)
    ensures multiset(r) == multiset(Filter(st.items, (it: Item) => Matches(it, status, q)))
    ensures forall it :: it in r <==> it in st.items && Matches(it, status, q)
  {
    var m := Filter(st.items, (it: Item) => Matches(it, status, q));
    var r := SortDescending(m, CreatedAtOf);
    assert forall it :: it in r <==> it in multiset(r);
    assert forall it :: it in m <==> it in multiset(m);
    r
  }

  /** One page of the listing, the number of matches, and the page count
      (`None` for the `Infinity` a zero limit produces). */
  datatype Listing = Listing(items: seq<Item>, total: nat, page: int, pages: Option<int>)

  /** `listLostFound`, with `page` defaulting to 1 and `limit` to 20. A
      negative skip (page 0 or less) is refused by the store. */
  function ListLostFound(st: State, status: Option<string>, q: Option<string>, page: Option<int>, limit: Option<int>): (r: Reply<Listing>)
    ensures var p := if page.Some? then page.value else 1;
      var l := if limit.Some? then limit.value else 20;
      && (r.Err? <==> Skip(p, l) < 0)
      && (r.Err? ==> r == Err(500, "Server error"))
      && (r.Ok? ==>
           && r.value.total == |Newest(st, status, q)|
           && r.value.page == p
           && r.value.pages == Pages(r.value.total, l)
           && r.value.items == Window(Newest(st, status, q), Skip(p, l), l)
           && (l > 0 ==> |r.value.items| <= l)
           && (forall it :: it in r.value.items ==> it in st.items && Matches(it, status, q)))
  {
    var p := if page.Some? then page.value else 1;
    var l := if limit.Some? then limit.value else 20;
    var skip := Skip(p, l);
    if skip < 0 then Err(500, "Server error")
    else
      var all := Newest(st, status, q);
      var w := Window(all, skip, l);
      assert forall it :: it in w ==> it in all by {
        if skip <= |all| { assert w == all[skip..skip + |w|]; }
      }
      Ok(Listing(w, |all|, p, Pages(|all|, l)))
  }

  /** Paging through the listing with a positive limit meets every matching
      item: it is on one of the pages the listing announces. */
  lemma EveryMatchIsListed(st: State, status: Option<string>, q: Option<string>, limit: int, it: Item)
    requires limit > 0 && it in st.items && Matches(it, status, q)
    ensures exists p :: 1 <= p <= ListLostFound(st, status, q, Some(1), Some(limit)).value.pages.value
                        && ListLostFound(st, status, q, Some(p), Some(limit)).Ok?
                        && it in ListLostFound(st, status, q, Some(p), Some(limit)).value.items
  {
    var all := Newest(st, status, q);
    assert it in all;
    var k :| 0 <= k < |all| && all[k] == it;
    PagesCoverList(all, limit, k);
    var p := PageOf(k, limit);
    var skip := Skip(p, limit);
    assert skip >= 0;
    var first := ListLostFound(st, status, q, Some(1), Some(limit));
    assert Skip(1, limit) == 0;
    assert first.Ok? && first.value.pages == Pages(|all|, limit);
    var r := ListLostFound(st, status, q, Some(p), Some(limit));
    assert r.Ok? && r.value.items == Window(all, skip, limit);
    assert r.value.items[k - skip] == it;
    assert 1 <= p <= first.value.pages.value && r.Ok? && it in r.value.items;
  }

  /** Every page lists its items newest first. */
  lemma ListingIsNewestFirst(st: State, status: Option<string>, q: Option<string>, page: Option<int>, limit: Option<int>)
    requires ListLostFound(st, status, q, page, limit).Ok?
    ensures Descending(ListLostFound(st, status, q, page, limit).value.items, CreatedAtOf)
  {
    var all := Newest(st, status, q);
    var p := if page.Some? then page.value else 1;
    var l := if limit.Some? then limit.value else 20;
    var w := Window(all, Skip(p, l), l);
    if Skip(p, l) <= |all| {
      SliceDescending(all, Skip(p, l), Skip(p, l) + |w|, CreatedAtOf);
    }
  }

  /** Two stores holding the same items answer every listing request alike:
      the same count, the same page count, and pages holding the same
      creation instants in the same places, whatever order the items were
      stored in. */
  lemma ListingIgnoresStoreOrder(a: State, b: State, status: Option<string>, q: Option<string>,
                                 page: Option<int>, limit: Option<int>)
    requires multiset(a.items) == multiset(b.items)
    ensures var ra := ListLostFound(a, status, q, page, limit);
      var rb := ListLostFound(b, status, q, page, limit);
      && (ra.Ok? <==> rb.Ok?)
      && (ra.Ok? ==>
           && ra.value.total == rb.value.total && ra.value.pages == rb.value.pages
           && |ra.value.items| == |rb.value.items|
           && forall i :: 0 <= i < |ra.value.items| ==> ra.value.items[i].createdAt == rb.value.items[i].createdAt)
  {
    var na := Newest(a, status, q);
    var nb := Newest(b, status, q);
    NewestIgnoresStoreOrder(a, b, status, q);
    var p := if page.Some? then page.value else 1;
    var l := if limit.Some? then limit.value else 20;
    if Skip(p, l) >= 0 {
      WindowKeysAgree(na, nb, Skip(p, l), l, CreatedAtOf);
    }
  }

  /** Two stores holding the same items sort their matches into the same
      sequence of creation instants. */
  lemma NewestIgnoresStoreOrder(a: State, b: State, status: Option<string>, q: Option<string>)
    requires multiset(a.items) == multiset(b.items)
    ensures var na := Newest(a, status, q);
      var nb := Newest(b, status, q);
      |na| == |nb| && forall i :: 0 <= i < |na| ==> CreatedAtOf(na[i]) == CreatedAtOf(nb[i])
  {
    FilterKeepsMultiset(a.items, b.items, (it: Item) => Matches(it, status, q));
    SortedKeysAgree(Newest(a, status, q), Newest(b, status, q), CreatedAtOf);
  }

  // ---------------------------------------------------------------- updateLostFound

  /** `isResolved` as sent: a JSON boolean or a form field's text. */
  datatype Flag = FlagBool(b: bool) | FlagText(s: string)

  /** `isResolved === true || isResolved === "true"`. */
  predicate Truth(f: Flag)
  {
    f == FlagBool(true) || f == FlagText("true")
  }

  datatype PostUpdate = PostUpdate(title: Option<string>, description: Option<string>, location: Option<string>,
                                   status: Option<string>, contact: Option<string>, isResolved: Option<Flag>)

  /** The item after the update's field assignments: non-empty strings
      overwrite (the schema trims three of them), a valid status
      overwrites. */
  function Assigned(it: Item, u: PostUpdate): (p: Item)
    ensures p.id == it.id && p.uploadedBy == it.uploadedBy && p.createdAt == it.createdAt
    ensures p.isResolved == it.isResolved && p.resolvedBy == it.resolvedBy && p.resolvedAt == it.resolvedAt
    ensures p.imageUrl == it.imageUrl && p.imagePublicId == it.imagePublicId
    ensures p.title == (if Present(u.title) then Trim(u.title.value) else it.title)
    ensures p.description == (if Present(u.description) then Trim(u.description.value) else it.description)
    ensures p.location == (if Present(u.location) then Trim(u.location.value) else it.location)
    ensures p.contact == (if Present(u.contact) then u.contact.value else it.contact)
    ensures Present(u.status) && ParseItemStatus(u.status.value).Some? ==> ItemStatusName(p.status) == u.status.value
    ensures !Present(u.status) || ParseItemStatus(u.status.value).None? ==> p.status == it.status
  {
    var status := if Present(u.status) then ParseItemStatus(u.status.value) else None;
    it.(title := if Present(u.title) then Trim(u.title.value) else it.title,
        description := if Present(u.description) then Trim(u.description.value) else it.description,
        location := if Present(u.location) then Trim(u.location.value) else it.location,
        status := if status.Some? then status.value else it.status,
        contact := if Present(u.contact) then u.contact.value else it.contact)
  }

  /** A given `isResolved` sets the resolution to the caller and `now`, or
      clears it. */
  function Resolution(it: Item, flag: Option<Flag>, caller: Caller, now: int): (p: Item)
    ensures p.(isResolved := it.isResolved, resolvedBy := it.resolvedBy, resolvedAt := it.resolvedAt) == it
    ensures flag.None? ==> p == it
    ensures flag.Some? ==> (p.isResolved <==> Truth(flag.value))
    ensures flag.Some? ==> (p.resolvedBy.Some? <==> p.isResolved) && (p.resolvedAt.Some? <==> p.isResolved)
    ensures flag.Some? && p.isResolved ==> p.resolvedBy == Some(caller.id) && p.resolvedAt == Some(now)
  {
    if flag.None? then it
    else if Truth(flag.value) then it.(isResolved := true, resolvedBy := Some(caller.id), resolvedAt := Some(now))
    else it.(isResolved := false, resolvedBy := None, resolvedAt := None)
  }

  /** The item after the whole update: assignments, resolution, picture. */
  function Patched(it: Item, u: PostUpdate, caller: Caller, upload: Option<Upload>, now: int): Item
  {
    var p := Resolution(Assigned(it, u), u.isResolved, caller, now);
    if upload.Some? then p.(imageUrl := upload.value.url, imagePublicId := upload.value.publicId) else p
  }

  /** `updateLostFound`. */
  function UpdateLostFound(st: State, caller: Caller, id: Id, u: PostUpdate, upload: Option<Upload>, now: int): (r: (Reply<Item>, State))
    ensures FindItem(st, id).None? ==> r == (Err(404, "Item not found"), st)
    ensures FindItem(st, id).Some? && !OwnerOrAdmin(st.items[FindItem(st, id).value].uploadedBy, caller) ==>
      r == (Err(403, "Not authorized"), st)
    ensures r.0.Err? ==> r.1 == st
    ensures r.0.Ok? <==> FindItem(st, id).Some? && OwnerOrAdmin(st.items[FindItem(st, id).value].uploadedBy, caller)
                         && ValidItem(Patched(st.items[FindItem(st, id).value], u, caller, upload, now))
    ensures r.0.Ok? ==> var k := FindItem(st, id).value;
      && r.1 == st.(items := st.items[k := r.0.value])
      && r.0.value == Patched(st.items[k], u, caller, upload, now)
  {
    match FindItem(st, id)
    case None => (Err(404, "Item not found"), st)
    case Some(k) =>
      if !OwnerOrAdmin(st.items[k].uploadedBy, caller) then (Err(403, "Not authorized"), st)
      else
        var p := Patched(st.items[k], u, caller, upload, now);
        if !ValidItem(p) then (Err(500, "Server error"), st)
        else (Ok(p), st.(items := st.items[k := p]))
  }

  // ---------------------------------------------------------------- deleteLostFound

  /** The claims that do not concern item `id`. */
  function ClaimsWithout(claims: map<Id, Claim>, id: Id): (m: map<Id, Claim>)
    ensures forall c :: c in m <==> c in claims && claims[c].item != id
    ensures forall c :: c in m ==> m[c] == claims[c]
  {
    map c | c in claims && claims[c].item != id :: claims[c]
  }

  /** `deleteLostFound`: the item goes, and with it every claim on it. */
  function DeleteLostFound(st: State, caller: Caller, id: Id): (r: (Reply<()>, State))
    ensures FindItem(st, id).None? ==> r == (Err(404, "Item not found"), st)
    ensures FindItem(st, id).Some? && !OwnerOrAdmin(st.items[FindItem(st, id).value].uploadedBy, caller) ==>
      r == (Err(403, "Not authorized"), st)
    ensures r.0.Ok? <==> FindItem(st, id).Some? && OwnerOrAdmin(st.items[FindItem(st, id).value].uploadedBy, caller)
    ensures r.0.Err? ==> r.1 == st
    ensures r.0.Ok? ==> r.1.items == RemoveAt(st.items, FindItem(st, id).value) && r.1.nextId == st.nextId
    ensures r.0.Ok? ==> r.1.claims == ClaimsWithout(st.claims, id)
    ensures r.0.Ok? && WellFormed(st) ==> FindItem(r.1, id).None?
  {
    match FindItem(st, id)
    case None => (Err(404, "Item not found"), st)
    case Some(k) =>
      if !OwnerOrAdmin(st.items[k].uploadedBy, caller) then (Err(403, "Not authorized"), st)
      else
        var st' := State(RemoveAt(st.items, k), ClaimsWithout(st.claims, id), st.nextId);
        assert WellFormed(st) ==> FindItem(st', id).None? by {
          if WellFormed(st) {
            forall j | 0 <= j < |st'.items| ensures st'.items[j].id != id {
              var j' := if j < k then j else j + 1;
              assert st'.items[j] == st.items[j'] && j' != k;
            }
          }
        }
        (Ok(()), st')
  }

  // ---------------------------------------------------------------- expiry

  /** The TTL monitor's pass at `now`: expired items vanish, their claims
      stay behind. */
  function Sweep(st: State, now: int): (r: State)
    ensures forall it :: it in r.items <==> it in st.items && !ItemExpired(it, now)
    ensures Subseq(r.items, st.items)
    ensures r.claims == st.claims && r.nextId == st.nextId
  {
    FilterIsSubseq(st.items, (it: Item) => !ItemExpired(it, now));
    st.(items := Filter(st.items, (it: Item) => !ItemExpired(it, now)))
  }

  // ---------------------------------------------------------------- claims

  /** The caller already has a claim on the item (the unique index). */
  predicate HasClaimed(st: State, id: Id, claimer: Id)
  {
    exists c :: c in st.claims && st.claims[c].item == id && st.claims[c].claimer == claimer
  }

  /** `createClaim`: the item must exist, be unresolved and belong to
      someone else; a second claim by the same user hits the unique index.
      The mail to the poster is best effort. */
  function CreateClaim(st: State, caller: Caller, id: Id, message: Option<string>): (r: (Reply<Id>, State))
    ensures FindItem(st, id).None? ==> r == (Err(404, "Item not found"), st)
    ensures FindItem(st, id).Some? && st.items[FindItem(st, id).value].isResolved ==>
      r == (Err(400, "Item already resolved"), st)
    ensures FindItem(st, id).Some? && !st.items[FindItem(st, id).value].isResolved
            && st.items[FindItem(st, id).value].uploadedBy == caller.id ==>
      r == (Err(400, "You cannot claim your own item"), st)
    ensures r.0.Ok? <==> FindItem(st, id).Some? && !st.items[FindItem(st, id).value].isResolved
                         && st.items[FindItem(st, id).value].uploadedBy != caller.id && !HasClaimed(st, id, caller.id)
    ensures FindItem(st, id).Some? && !r.0.Ok? && r.0.status == 409 <==>
            FindItem(st, id).Some? && !st.items[FindItem(st, id).value].isResolved
            && st.items[FindItem(st, id).value].uploadedBy != caller.id && HasClaimed(st, id, caller.id)
    ensures r.0.Err? ==> r.1 == st
    ensures r.0.Ok? ==> (r.0.value == st.nextId && r.1.items == st.items && r.1.nextId == st.nextId + 1
      && r.1.claims == st.claims[st.nextId := Claim(id, caller.id, Trim(if Present(message) then message.value else ""), ClaimPending)])
  {
    match FindItem(st, id)
    case None => (Err(404, "Item not found"), st)
    case Some(k) =>
      if st.items[k].isResolved then (Err(400, "Item already resolved"), st)
      else if st.items[k].uploadedBy == caller.id then (Err(400, "You cannot claim your own item"), st)
      else if HasClaimed(st, id, caller.id) then (Err(409, "You already claimed this item"), st)
      else
        var c := Claim(id, caller.id, Trim(if Present(message) then message.value else ""), ClaimPending);
        (Ok(st.nextId), st.(claims := st.claims[st.nextId := c], nextId := st.nextId + 1))
  }

  /** `listClaimsForItem`: the ids of the item's claims. */
  function ListClaimsForItem(st: State, caller: Caller, id: Id): (r: Reply<set<Id>>)
    ensures FindItem(st, id).None? ==> r == Err(404, "Item not found")
    ensures r.Ok? <==> FindItem(st, id).Some? && OwnerOrAdmin(st.items[FindItem(st, id).value].uploadedBy, caller)
    ensures r.Err? && FindItem(st, id).Some? ==> r == Err(403, "Not authorized")
    ensures r.Ok? ==> forall c :: c in r.value <==> c in st.claims && st.claims[c].item == id
  {
    match FindItem(st, id)
    case None => Err(404, "Item not found")
    case Some(k) =>
      if !OwnerOrAdmin(st.items[k].uploadedBy, caller) then Err(403, "Not authorized")
      else Ok(set c | c in st.claims && st.claims[c].item == id)
  }

  /** A claim just stored is listed to the item's owner and to every
      administrator. */
  lemma ClaimIsListedToOwner(st: State, caller: Caller, id: Id, message: Option<string>, viewer: Caller)
    requires CreateClaim(st, caller, id, message).0.Ok?
    requires OwnerOrAdmin(st.items[FindItem(st, id).value].uploadedBy, viewer)
    ensures var (r, st1) := CreateClaim(st, caller, id, message);
      ListClaimsForItem(st1, viewer, id).Ok? && r.value in ListClaimsForItem(st1, viewer, id).value
  {
  }

  /** The claims after claim `claimId` on item `itemId` is accepted: it is
      accepted, the item's other pending claims are rejected, the rest stay. */
  function AcceptClaim(claims: map<Id, Claim>, claimId: Id, itemId: Id): (m: map<Id, Claim>)
    ensures m.Keys == claims.Keys
    ensures forall c :: c in m ==> m[c].item == claims[c].item && m[c].claimer == claims[c].claimer
                                   && m[c].message == claims[c].message
    ensures claimId in claims ==> m[claimId].status == ClaimAccepted
    ensures forall c :: c in m && c != claimId && claims[c].item == itemId && claims[c].status == ClaimPending ==>
      m[c].status == ClaimRejected
    ensures forall c :: c in m && c != claimId && (claims[c].item != itemId || claims[c].status != ClaimPending) ==>
      m[c] == claims[c]
    ensures forall c :: c in m && m[c].item == itemId ==> m[c].status != ClaimPending
  {
    map c | c in claims ::
      if c == claimId then claims[c].(status := ClaimAccepted)
      else if claims[c].item == itemId && claims[c].status == ClaimPending then claims[c].(status := ClaimRejected)
      else claims[c]
  }

  /** The part of `decideClaim` after the item is found at position `k` and
      the caller is admitted. */
  function Settle(st: State, k: nat, caller: Caller, claimId: Id, action: Option<string>, now: int): (r: (Reply<string>, State))
    requires k < |st.items|
    ensures claimId !in st.claims || st.claims[claimId].item != st.items[k].id ==> r == (Err(404, "Claim not found"), st)
    ensures claimId in st.claims && st.claims[claimId].item == st.items[k].id && st.claims[claimId].status != ClaimPending ==>
      r == (Err(400, "Claim already decided"), st)
    ensures r.0.Ok? <==> Decidable(st, k, claimId) && (action == Some("accept") || action == Some("reject"))
    ensures Decidable(st, k, claimId) && action != Some("accept") && action != Some("reject") ==>
      r == (Err(400, "Invalid action"), st)
    ensures r.0.Err? ==> r.1 == st
    ensures r.0.Ok? && action == Some("accept") ==> r == (Ok("Claim accepted. Item marked as resolved."), Accepted(st, k, claimId, caller, now))
    ensures r.0.Ok? && action == Some("reject") ==> r == (Ok("Claim rejected."), Rejected(st, claimId))
  {
    if claimId !in st.claims || st.claims[claimId].item != st.items[k].id then (Err(404, "Claim not found"), st)
    else if st.claims[claimId].status != ClaimPending then (Err(400, "Claim already decided"), st)
    else if action == Some("accept") then (Ok("Claim accepted. Item marked as resolved."), Accepted(st, k, claimId, caller, now))
    else if action == Some("reject") then (Ok("Claim rejected."), Rejected(st, claimId))
    else (Err(400, "Invalid action"), st)
  }

  /** Claim `claimId` is a pending claim on the item at position `k`. */
  predicate Decidable(st: State, k: nat, claimId: Id)
    requires k < |st.items|
  {
    claimId in st.claims && st.claims[claimId].item == st.items[k].id && st.claims[claimId].status == ClaimPending
  }

  /** The state after an accepted claim: the item is resolved by the caller
      at `now`, and the claims are settled by `AcceptClaim`. */
  function Accepted(st: State, k: nat, claimId: Id, caller: Caller, now: int): State
    requires k < |st.items|
  {
    State(st.items[k := st.items[k].(isResolved := true, resolvedBy := Some(caller.id), resolvedAt := Some(now))],
          AcceptClaim(st.claims, claimId, st.items[k].id), st.nextId)
  }

  /** The state after a rejected claim: only that claim changes. */
  function Rejected(st: State, claimId: Id): State
    requires claimId in st.claims
  {
    st.(claims := st.claims[claimId := st.claims[claimId].(status := ClaimRejected)])
  }

  /** `decideClaim` with the owner-or-admin test on ids, as the other
      handlers apply it. */
  function DecideClaim(st: State, caller: Caller, itemId: Id, claimId: Id, action: Option<string>, now: int): (r: (Reply<string>, State))
    ensures FindItem(st, itemId).None? ==> r == (Err(404, "Item not found"), st)
    ensures FindItem(st, itemId).Some? && !OwnerOrAdmin(st.items[FindItem(st, itemId).value].uploadedBy, caller) ==>
      r == (Err(403, "Not authorized"), st)
    ensures FindItem(st, itemId).Some? && OwnerOrAdmin(st.items[FindItem(st, itemId).value].uploadedBy, caller) ==>
      r == Settle(st, FindItem(st, itemId).value, caller, claimId, action, now)
  {
    match FindItem(st, itemId)
    case None => (Err(404, "Item not found"), st)
    case Some(k) =>
      if !OwnerOrAdmin(st.items[k].uploadedBy, caller) then (Err(403, "Not authorized"), st)
      else Settle(st, k, caller, claimId, action, now)
  }

  /** `decideClaim` as written: the item's `uploadedBy` has been populated
      with the poster's e-mail before the owner-or-admin test compares its
      text with the caller's id. */
  function DecideClaimAsWritten(st: State, caller: Caller, itemId: Id, claimId: Id, action: Option<string>, now: int,
                                posterEmail: string): (r: (Reply<string>, State))
    ensures FindItem(st, itemId).None? ==> r == (Err(404, "Item not found"), st)
    ensures FindItem(st, itemId).Some? && caller.role != Accounts.Admin ==> r == (Err(403, "Not authorized"), st)
    ensures caller.role == Accounts.Admin ==> r == DecideClaim(st, caller, itemId, claimId, action, now)
  {
    match FindItem(st, itemId)
    case None => (Err(404, "Item not found"), st)
    case Some(k) =>
      var text := PopulatedText(st.items[k].uploadedBy, posterEmail);
      PopulatedReferenceAdmitsOnlyAdmin(st.items[k].uploadedBy, posterEmail, caller);
      if !OwnerOrAdminText(text, caller) then (Err(403, "Not authorized"), st)
      else Settle(st, k, caller, claimId, action, now)
  }

  // ---------------------------------------------------------------- invariant

  lemma CreateLostFoundPreserves(st: State, caller: Caller, f: PostForm, upload: Option<Upload>, now: int)
    requires WellFormed(st) && Settled(st)
    ensures var st' := CreateLostFound(st, caller, f, upload, now).1; WellFormed(st') && Settled(st')
  {
    var st' := CreateLostFound(st, caller, f, upload, now).1;
    if st' != st {
      var n := |st.items|;
      assert forall j :: 0 <= j < n ==> st'.items[j] == st.items[j];
      assert KeysDistinct(st'.items, (it: Item) => it.id) by {
        forall i, j | 0 <= i < j < |st'.items| ensures st'.items[i].id != st'.items[j].id {
          if j == n { assert st.items[i].id < st.nextId; }
        }
      }
    }
  }

  lemma DeleteLostFoundPreserves(st: State, caller: Caller, id: Id)
    requires WellFormed(st) && Settled(st)
    ensures var st' := DeleteLostFound(st, caller, id).1; WellFormed(st') && Settled(st')
  {
    var st' := DeleteLostFound(st, caller, id).1;
    if st' != st {
      var k := FindItem(st, id).value;
      RemoveAtKeepsKeysDistinct(st.items, k, (it: Item) => it.id);
      assert forall j :: 0 <= j < |st'.items| ==> st'.items[j] == st.items[if j < k then j else j + 1];
    }
  }

  lemma SweepPreserves(st: State, now: int)
    requires WellFormed(st) && Settled(st)
    ensures WellFormed(Sweep(st, now)) && Settled(Sweep(st, now))
  {
    var st' := Sweep(st, now);
    FilterKeepsKeysDistinct(st.items, (it: Item) => !ItemExpired(it, now), (it: Item) => it.id);
    forall j | 0 <= j < |st'.items| ensures st'.items[j].id < st'.nextId && ValidItem(st'.items[j]) {
      assert st'.items[j] in st.items;
    }
    forall c, j | c in st'.claims && 0 <= j < |st'.items| && st'.claims[c].status == ClaimAccepted
                  && st'.items[j].id == st'.claims[c].item
      ensures st'.items[j].isResolved
    {
      assert st'.items[j] in st.items;
    }
  }

  lemma CreateClaimPreserves(st: State, caller: Caller, id: Id, message: Option<string>)
    requires WellFormed(st) && Settled(st)
    ensures var st' := CreateClaim(st, caller, id, message).1; WellFormed(st') && Settled(st')
  {
    var r := CreateClaim(st, caller, id, message);
    if r.0.Ok? {
      var k := FindItem(st, id).value;
      var c := Claim(id, caller.id, Trim(if Present(message) then message.value else ""), ClaimPending);
      assert r.1 == Claimed(st, c);
      ClaimedWellFormed(st, k, c);
      ClaimedSettled(st, k, c);
    }
  }

  /** The state with claim `c` stored under the next id. */
  function Claimed(st: State, c: Claim): State
  {
    st.(claims := st.claims[st.nextId := c], nextId := st.nextId + 1)
  }

  lemma ClaimedWellFormed(st: State, k: nat, c: Claim)
    requires WellFormed(st) && k < |st.items| && c.item == st.items[k].id && !HasClaimed(st, c.item, c.claimer)
    ensures WellFormed(Claimed(st, c))
  {
    var st' := Claimed(st, c);
    var n := st.nextId;
    forall a, b | a in st'.claims && b in st'.claims && a != b
      ensures st'.claims[a].item != st'.claims[b].item || st'.claims[a].claimer != st'.claims[b].claimer
    {
      if a == n {
        assert b in st.claims && st'.claims[b] == st.claims[b];
      } else if b == n {
        assert a in st.claims && st'.claims[a] == st.claims[a];
      }
    }
  }

  lemma ClaimedSettled(st: State, k: nat, c: Claim)
    requires WellFormed(st) && Settled(st) && k < |st.items|
    requires c.item == st.items[k].id && !st.items[k].isResolved && c.status == ClaimPending
    ensures Settled(Claimed(st, c))
  {
    var st' := Claimed(st, c);
    var n := st.nextId;
    assert forall x :: x in st.claims ==> x != n && st'.claims[x] == st.claims[x];
    forall a, b | a in st'.claims && b in st'.claims && st'.claims[a].status == ClaimAccepted
                  && st'.claims[b].status == ClaimPending
      ensures st'.claims[a].item != st'.claims[b].item
    {
      assert a != n && a in st.claims;
    }
  }

  lemma AcceptedOneAccepted(st: State, k: nat, claimId: Id, caller: Caller, now: int)
    requires k < |st.items| && Decidable(st, k, claimId)
    requires WellFormed(st) && Settled(st)
    ensures OneAccepted(Accepted(st, k, claimId, caller, now))
  {
    var st' := Accepted(st, k, claimId, caller, now);
    var id := st.items[k].id;
    forall a, b | a in st'.claims && b in st'.claims && st'.claims[a].item == st'.claims[b].item
                  && st'.claims[a].status == ClaimAccepted && st'.claims[b].status == ClaimAccepted
      ensures a == b
    {
      assert a != claimId ==> st.claims[a].status == ClaimAccepted;
      assert b != claimId ==> st.claims[b].status == ClaimAccepted;
      assert a != claimId ==> st.claims[a].item != id;
      assert b != claimId ==> st.claims[b].item != id;
    }
  }

  lemma AcceptedAcceptedResolved(st: State, k: nat, claimId: Id, caller: Caller, now: int)
    requires k < |st.items| && Decidable(st, k, claimId)
    requires WellFormed(st) && Settled(st)
    ensures AcceptedResolved(Accepted(st, k, claimId, caller, now))
  {
    var st' := Accepted(st, k, claimId, caller, now);
    forall c, j | c in st'.claims && 0 <= j < |st'.items| && st'.claims[c].status == ClaimAccepted
                  && st'.items[j].id == st'.claims[c].item
      ensures st'.items[j].isResolved
    {
      if j != k {
        assert st'.items[j] == st.items[j];
        assert st.items[j].id != st.items[k].id;
        assert c != claimId;
      }
    }
  }

  lemma AcceptedNoPending(st: State, k: nat, claimId: Id, caller: Caller, now: int)
    requires k < |st.items| && Decidable(st, k, claimId)
    requires WellFormed(st) && Settled(st)
    ensures NoPendingBesideAccepted(Accepted(st, k, claimId, caller, now))
  {
    var st' := Accepted(st, k, claimId, caller, now);
    var id := st.items[k].id;
    forall a, b | a in st'.claims && b in st'.claims && st'.claims[a].status == ClaimAccepted
                  && st'.claims[b].status == ClaimPending
      ensures st'.claims[a].item != st'.claims[b].item
    {
      assert b != claimId && st.claims[b].status == ClaimPending && st.claims[b].item != id;
      assert a != claimId ==> st.claims[a].status == ClaimAccepted;
    }
  }

  lemma AcceptedWellFormed(st: State, k: nat, claimId: Id, caller: Caller, now: int)
    requires k < |st.items| && WellFormed(st)
    ensures WellFormed(Accepted(st, k, claimId, caller, now))
  {
    var st' := Accepted(st, k, claimId, caller, now);
    assert forall j :: 0 <= j < |st'.items| ==> st'.items[j].id == st.items[j].id && ValidItem(st'.items[j]);
    assert KeysDistinct(st'.items, (it: Item) => it.id) by {
      forall i, j | 0 <= i < j < |st'.items| ensures st'.items[i].id != st'.items[j].id {
        assert st'.items[i].id == st.items[i].id && st'.items[j].id == st.items[j].id;
      }
    }
  }

  lemma RejectedPreserves(st: State, claimId: Id)
    requires claimId in st.claims && WellFormed(st) && Settled(st)
    ensures WellFormed(Rejected(st, claimId)) && Settled(Rejected(st, claimId))
  {
    var st' := Rejected(st, claimId);
    assert forall c :: c in st'.claims && c != claimId ==> st'.claims[c] == st.claims[c];
    assert st'.claims[claimId].item == st.claims[claimId].item && st'.claims[claimId].claimer == st.claims[claimId].claimer;
  }

  /** Deciding a claim keeps the store well formed and the claims settled. */
  lemma DecideClaimPreserves(st: State, caller: Caller, itemId: Id, claimId: Id, action: Option<string>, now: int)
    requires WellFormed(st) && Settled(st)
    ensures var st' := DecideClaim(st, caller, itemId, claimId, action, now).1; WellFormed(st') && Settled(st')
  {
    var r := DecideClaim(st, caller, itemId, claimId, action, now);
    if r.0.Ok? {
      var k := FindItem(st, itemId).value;
      if action == Some("accept") {
        AcceptedWellFormed(st, k, claimId, caller, now);
        AcceptedOneAccepted(st, k, claimId, caller, now);
        AcceptedAcceptedResolved(st, k, claimId, caller, now);
        AcceptedNoPending(st, k, claimId, caller, now);
      } else {
        RejectedPreserves(st, claimId);
      }
    }
  }

  /** An update keeps the store well formed, and one that does not clear
      `isResolved` keeps the claims settled. */
  lemma UpdatePreserves(st: State, caller: Caller, id: Id, u: PostUpdate, upload: Option<Upload>, now: int)
    requires WellFormed(st) && Settled(st)
    ensures WellFormed(UpdateLostFound(st, caller, id, u, upload, now).1)
    ensures u.isResolved.None? || Truth(u.isResolved.value) ==> Settled(UpdateLostFound(st, caller, id, u, upload, now).1)
  {
    var r := UpdateLostFound(st, caller, id, u, upload, now);
    if r.0.Ok? {
      var k := FindItem(st, id).value;
      var st' := r.1;
      assert st'.items[k].id == st.items[k].id;
      assert forall j :: 0 <= j < |st'.items| ==> st'.items[j].id == st.items[j].id;
      assert KeysDistinct(st'.items, (it: Item) => it.id) by {
        forall i, j | 0 <= i < j < |st'.items| ensures st'.items[i].id != st'.items[j].id {
          assert st'.items[i].id == st.items[i].id && st'.items[j].id == st.items[j].id;
        }
      }
      if u.isResolved.None? || Truth(u.isResolved.value) {
        assert st.items[k].isResolved ==> st'.items[k].isResolved;
      }
    }
  }

  /** An update that clears `isResolved` on an item whose claim was
      accepted leaves an accepted claim on an unresolved item, which a new
      claim can then join as pending. */
  lemma UpdateBreaksSettled()
    ensures var owner := Caller(1, Accounts.Student);
      var it := Item(0, "Bag", "Blue", "Gate", Lost, "555", "", "", 1, true, Some(1), Some(5), 0);
      var st := State([it], map[2 := Claim(0, 3, "", ClaimAccepted)], 3);
      var u := PostUpdate(None, None, None, None, None, Some(FlagBool(false)));
      var st' := UpdateLostFound(st, owner, 0, u, None, 9).1;
      WellFormed(st) && Settled(st) && !Settled(st')
  {
    var owner := Caller(1, Accounts.Student);
    var it := Item(0, "Bag", "Blue", "Gate", Lost, "555", "", "", 1, true, Some(1), Some(5), 0);
    var st := State([it], map[2 := Claim(0, 3, "", ClaimAccepted)], 3);
    var u := PostUpdate(None, None, None, None, None, Some(FlagBool(false)));
    assert FindItem(st, 0) == Some(0);
    assert OwnerOrAdmin(it.uploadedBy, owner);
    var p := it.(isResolved := false, resolvedBy := None, resolvedAt := None);
    assert Patched(it, u, owner, None, 9) == p;
    assert ValidItem(p);
    var st' := UpdateLostFound(st, owner, 0, u, None, 9).1;
    assert st' == st.(items := [p]);
    assert WellFormed(st);
    assert Settled(st);
    assert st'.claims[2].status == ClaimAccepted && st'.items[0].id == st'.claims[2].item;
    assert !AcceptedResolved(st');
  }

  // ---------------------------------------------------------------- consequences

  /** A claim can be decided once: a second decision on it is refused. */
  lemma DecideTwiceFails(st: State, caller: Caller, itemId: Id, claimId: Id, a1: Option<string>, a2: Option<string>, now: int)
    requires DecideClaim(st, caller, itemId, claimId, a1, now).0.Ok?
    ensures var st' := DecideClaim(st, caller, itemId, claimId, a1, now).1;
      DecideClaim(st', caller, itemId, claimId, a2, now).0 == Err(400, "Claim already decided")
  {
    var k := FindItem(st, itemId).value;
    var st' := DecideClaim(st, caller, itemId, claimId, a1, now).1;
    assert forall j :: 0 <= j < |st'.items| ==> st'.items[j].id == st.items[j].id && st'.items[j].uploadedBy == st.items[j].uploadedBy;
    assert FindItem(st', itemId) == Some(k);
  }

  /** Accepting a claim closes the item: no claim on it is left pending and
      a fresh claim is turned away as already resolved. */
  lemma AcceptClosesItem(st: State, caller: Caller, itemId: Id, claimId: Id, now: int, other: Caller, msg: Option<string>)
    requires DecideClaim(st, caller, itemId, claimId, Some("accept"), now).0.Ok?
    ensures var st' := DecideClaim(st, caller, itemId, claimId, Some("accept"), now).1;
      && (forall c :: c in st'.claims && st'.claims[c].item == itemId ==> st'.claims[c].status != ClaimPending)
      && CreateClaim(st', other, itemId, msg).0 == Err(400, "Item already resolved")
  {
    var k := FindItem(st, itemId).value;
    var st' := DecideClaim(st, caller, itemId, claimId, Some("accept"), now).1;
    assert forall j :: 0 <= j < |st'.items| ==> st'.items[j].id == st.items[j].id;
    assert FindItem(st', itemId) == Some(k);
  }

  /** A second claim by the same user on the same item is a conflict. */
  lemma SecondClaimConflicts(st: State, caller: Caller, id: Id, m1: Option<string>, m2: Option<string>)
    requires CreateClaim(st, caller, id, m1).0.Ok?
    ensures CreateClaim(CreateClaim(st, caller, id, m1).1, caller, id, m2).0 == Err(409, "You already claimed this item")
  {
    var st' := CreateClaim(st, caller, id, m1).1;
    assert st'.claims[st.nextId].item == id && st'.claims[st.nextId].claimer == caller.id;
  }

  /** The poster who is not an administrator is turned away by the handler
      as written, where the test on ids would let them accept the claim. */
  lemma OwnerCannotDecide()
    ensures var owner := Caller(1, Accounts.Student);
      var it := Item(0, "Bag", "Blue", "Gate", Lost, "555", "", "", 1, false, None, None, 0);
      var st := State([it], map[2 := Claim(0, 3, "mine", ClaimPending)], 3);
      && DecideClaimAsWritten(st, owner, 0, 2, Some("accept"), 9, "p@x.edu").0 == Err(403, "Not authorized")
      && DecideClaim(st, owner, 0, 2, Some("accept"), 9).0 == Ok("Claim accepted. Item marked as resolved.")
  {
    var owner := Caller(1, Accounts.Student);
    var it := Item(0, "Bag", "Blue", "Gate", Lost, "555", "", "", 1, false, None, None, 0);
    var st := State([it], map[2 := Claim(0, 3, "mine", ClaimPending)], 3);
    assert FindItem(st, 0) == Some(0);
  }
}

=== FILE: lostfound_model.dfy ===
/** The lost-and-found schemas (`LostFound.model.js`, `lostfoundClaim.model.js`)
    and the pure parts of their controller: the owner-or-admin test, the
    seven-day expiry, and the pagination arithmetic of the public listing. */
module LostFoundModel {
  import opened Common
  import opened Text
  import Accounts

  datatype ItemStatus = Lost | Found

  function ItemStatusName(s: ItemStatus): string
  {
    match s
    case Lost => "lost"
    case Found => "found"
  }

  /** The enum check `["lost", "found"].includes(status)`. */
  function ParseItemStatus(s: string): (r: Option<ItemStatus>)
    ensures r.Some? <==> s == "lost" || s == "found"
    ensures r.Some? ==> ItemStatusName(r.value) == s
  {
    if s == "lost" then Some(Lost) else if s == "found" then Some(Found) else None
  }

  /** A stored post. `createdAt` is the creation instant in milliseconds. */
  datatype Item = Item(id: Id, title: string, description: string, location: string, status: ItemStatus,
                       contact: string, imageUrl: string, imagePublicId: string, uploadedBy: Id,
                       isResolved: bool, resolvedBy: Option<Id>, resolvedAt: Option<int>, createdAt: int)

  /** The schema's required strings, after the `trim` setters. */
  predicate ValidItem(it: Item)
  {
    it.title != "" && it.description != "" && it.location != "" && it.contact != ""
  }

  datatype ClaimStatus = ClaimPending | ClaimAccepted | ClaimRejected

  /** A stored claim; the message is trimmed on store. */
  datatype Claim = Claim(item: Id, claimer: Id, message: string, status: ClaimStatus)

  /** The authenticated caller: the account's id and role. */
  datatype Caller = Caller(id: Id, role: Accounts.Role)

  /** `ensureOwnerOrAdmin`. */
  predicate OwnerOrAdmin(uploadedBy: Id, caller: Caller)
  {
    caller.role == Accounts.Admin || uploadedBy == caller.id
  }

  /** `toString()` of a stored reference: the id's text. */
  function IdText(id: Id): (t: string)
    ensures t != "" && AllDigits(t)
  {
    NatToDecimal(id)
  }

  /** `toString()` of a reference that has been populated with the user's
      e-mail: the document's printed form, which opens with a brace. */
  function PopulatedText(id: Id, email: string): (t: string)
    ensures t != "" && t[0] == '{'
  {
    "{ _id: " + IdText(id) + ", email: '" + email + "' }"
  }

  /** `ensureOwnerOrAdmin` as written: it compares the texts of the two
      references. */
  predicate OwnerOrAdminText(uploadedByText: string, caller: Caller)
  {
    caller.role == Accounts.Admin || uploadedByText == IdText(caller.id)
  }

  /** On a plain reference the textual test is the test on ids. */
  lemma PlainReferenceComparesIds(uploadedBy: Id, caller: Caller)
    ensures OwnerOrAdminText(IdText(uploadedBy), caller) <==> OwnerOrAdmin(uploadedBy, caller)
  {
    if IdText(uploadedBy) == IdText(caller.id) {
      DecimalRoundTrip(uploadedBy);
      DecimalRoundTrip(caller.id);
    }
  }

  /** On a populated reference only the administrator passes: the printed
      document never reads like an id. */
  lemma PopulatedReferenceAdmitsOnlyAdmin(uploadedBy: Id, email: string, caller: Caller)
    ensures OwnerOrAdminText(PopulatedText(uploadedBy, email), caller) <==> caller.role == Accounts.Admin
  {
    var t := IdText(caller.id);
    assert IsDigit(t[0]);
  }

  /** Administrators may act on every post; anyone else only on their own. */
  lemma OwnerOrAdminCases(uploadedBy: Id, caller: Caller)
    ensures caller.role == Accounts.Admin ==> OwnerOrAdmin(uploadedBy, caller)
    ensures caller.role != Accounts.Admin ==> (OwnerOrAdmin(uploadedBy, caller) <==> uploadedBy == caller.id)
  {
  }

  // ---------------------------------------------------------------- expiry

  /** The TTL index: `expireAfterSeconds` of seven days, in milliseconds. */
  const ItemLifetimeMs: int := 7 * 24 * 60 * 60 * 1000

  /** The store removes a post once seven days have passed since its
      creation. */
  predicate ItemExpired(it: Item, now: int)
  {
    it.createdAt + ItemLifetimeMs < now
  }

  // ---------------------------------------------------------------- pagination

  /** `(Number(page) - 1) * Number(limit)`. */
  function Skip(page: int, limit: int): int
  {
    (page - 1) * limit
  }

  /** `Math.ceil(a / b)` for a natural `a` and a positive `b`. */
  function CeilDiv(a: nat, b: int): (q: nat)
    requires b > 0
    ensures (q - 1) * b < a <= q * b || (a == 0 && q == 0)
    ensures a > 0 ==> q >= 1
  {
    if a % b == 0 then a / b else a / b + 1
  }

  /** `Math.ceil(total / limit) || 1`. A zero limit divides a positive total
      into infinitely many pages (`None`); `0 / 0` is `NaN` and, like a
      quotient that rounds up to zero, becomes 1. */
  function Pages(total: nat, limit: int): (p: Option<int>)
    ensures p.None? <==> limit == 0 && total > 0
    ensures p.Some? ==> p.value != 0
    ensures limit > 0 ==> p.Some? && p.value >= 1
    ensures limit > 0 && total > 0 ==> (p.value - 1) * limit < total <= p.value * limit
    ensures limit > 0 && total == 0 ==> p == Some(1)
  {
    if limit > 0 then
      var q := CeilDiv(total, limit);
      Some(if q == 0 then 1 else q)
    else if limit == 0 then
      if total == 0 then Some(1) else None
    else
      var q := -(total / -limit);
      Some(if q == 0 then 1 else q)
  }

  /** The page the `k`-th item of the sorted list falls on. */
  function PageOf(k: nat, limit: int): (p: int)
    requires limit > 0
    ensures p >= 1 && Skip(p, limit) <= k < Skip(p, limit) + limit
  {
    k / limit + 1
  }

  /** The slice `.skip(skip).limit(limit)` returns: a zero limit means no
      limit, a negative one counts like its absolute value. */
  function Window<T>(xs: seq<T>, skip: nat, limit: int): (r: seq<T>)
    ensures |r| <= |xs|
    ensures limit != 0 ==> |r| <= if limit > 0 then limit else -limit
    ensures skip <= |xs| ==> skip + |r| <= |xs| && r == xs[skip..skip + |r|]
    ensures skip <= |xs| && limit == 0 ==> |r| == |xs| - skip
    ensures skip <= |xs| && limit != 0 ==>
      var n := if limit > 0 then limit else -limit;
      |r| == if n < |xs| - skip then n else |xs| - skip
    ensures skip >= |xs| ==> r == []
  {
    var n := if limit > 0 then limit else -limit;
    var start := if skip <= |xs| then skip else |xs|;
    var end := if limit == 0 || start + n > |xs| then |xs| else start + n;
    xs[start..end]
  }

  /** Two lists of the same length whose keys agree place by place give
      windows whose keys agree place by place. */
  lemma WindowKeysAgree<T>(x: seq<T>, y: seq<T>, skip: nat, limit: int, key: T -> int)
    requires |x| == |y| && forall i :: 0 <= i < |x| ==> key(x[i]) == key(y[i])
    ensures |Window(x, skip, limit)| == |Window(y, skip, limit)|
    ensures forall i :: 0 <= i < |Window(x, skip, limit)| ==> key(Window(x, skip, limit)[i]) == key(Window(y, skip, limit)[i])
  {
    var wx := Window(x, skip, limit);
    var wy := Window(y, skip, limit);
    if skip <= |x| {
      forall i | 0 <= i < |wx| ensures key(wx[i]) == key(wy[i]) {
        assert wx[i] == x[skip + i] && wy[i] == y[skip + i];
      }
    }
  }

  /** With a positive limit the pages partition the list: the `k`-th item
      appears on page `PageOf(k)`, which is one of the pages announced, at
      its place within that page. */
  lemma PagesCoverList<T>(xs: seq<T>, limit: int, k: nat)
    requires limit > 0 && k < |xs|
    ensures 1 <= PageOf(k, limit) <= Pages(|xs|, limit).value
    ensures var skip := Skip(PageOf(k, limit), limit);
      skip >= 0 && k - skip < |Window(xs, skip, limit)| && Window(xs, skip, limit)[k - skip] == xs[k]
  {
    var p := PageOf(k, limit);
    var q := Pages(|xs|, limit).value;
    assert (k / limit) * limit <= k < q * limit;
    MulCancel(k / limit, q, limit);
  }

  lemma MulCancel(a: int, b: int, c: int)
    requires c > 0 && a * c < b * c
    ensures a < b
  {
  }

  /** Page zero asks for a negative skip, which the store refuses. */
  lemma PageZeroSkipsBackwards(limit: int)
    requires limit > 0
    ensures Skip(0, limit) < 0
  {
  }
}

=== FILE: lostfound_page.dfy ===
/** The logic of the lost-and-found page (`LostFound.jsx`): the search and
    status filter over the loaded items, the claim message sent, and the
    form fields posted for a new item. Each is related to what the
    lost-and-found handlers do with it. */
module LostFoundPage {
  import opened Common
  import opened Text
  import opened LostFoundModel
  import LostFound

  /** The search box matches, ignoring case, the title, the description or
      the location. */
  predicate SearchMatches(it: Item, query: string)
  {
    ContainsIgnoringCase(it.title, query) || ContainsIgnoringCase(it.description, query)
    || ContainsIgnoringCase(it.location, query)
  }

  /** The status menu: `all`, or one status name. */
  predicate StatusMatches(it: Item, statusFilter: string)
  {
    statusFilter == "all" || ItemStatusName(it.status) == statusFilter
  }

  /** `filteredItems`: the loaded items passing both tests, in order. */
  function FilteredItems(items: seq<Item>, query: string, statusFilter: string): (r: seq<Item>)
    ensures forall it :: it in r <==> it in items && SearchMatches(it, query) && StatusMatches(it, statusFilter)
    ensures Subseq(r, items)
  {
    FilterIsSubseq(items, (it: Item) => SearchMatches(it, query) && StatusMatches(it, statusFilter));
    Filter(items, (it: Item) => SearchMatches(it, query) && StatusMatches(it, statusFilter))
  }

  /** With an empty search and `all`, the page shows everything it loaded. */
  lemma EmptySearchShowsAll(items: seq<Item>)
    ensures FilteredItems(items, "", "all") == items
  {
    forall i | 0 <= i < |items| ensures SearchMatches(items[i], "") && StatusMatches(items[i], "all") {
      EmptyQueryMatches(items[i].title);
    }
    FilterAll(items, (it: Item) => SearchMatches(it, "") && StatusMatches(it, "all"));
  }

  /** For a non-empty search and a status the server knows, the page's
      filter is the server listing's filter, with the query read as
      literal text. */
  lemma PageFilterIsServerFilter(it: Item, query: string, statusFilter: string)
    requires query != "" && (statusFilter == "lost" || statusFilter == "found")
    ensures SearchMatches(it, query) && StatusMatches(it, statusFilter)
            <==> LostFound.Matches(it, Some(statusFilter), Some(query))
  {
    if statusFilter == "lost" {
      assert ParseItemStatus(statusFilter) == Some(Lost);
    } else {
      assert ParseItemStatus(statusFilter) == Some(Found);
    }
  }

  // ---------------------------------------------------------------- claims

  /** `handleClaim`: the prompt's answer (`None` when dismissed) is sent
      trimmed, and nothing is sent when it is blank. */
  function ClaimMessage(answer: Option<string>): (r: Option<string>)
    ensures r.None? <==> answer.None? || Trim(answer.value) == ""
    ensures r.Some? ==> r.value == Trim(answer.value) && r.value != ""
  {
    if answer.None? || Trim(answer.value) == "" then None else Some(Trim(answer.value))
  }

  /** The claim the server stores carries the message exactly as the page
      sent it: trimming it again changes nothing. */
  lemma StoredMessageIsSent(st: LostFound.State, caller: Caller, id: Id, answer: Option<string>)
    requires ClaimMessage(answer).Some?
    requires LostFound.CreateClaim(st, caller, id, ClaimMessage(answer)).0.Ok?
    ensures var r := LostFound.CreateClaim(st, caller, id, ClaimMessage(answer));
      r.1.claims[r.0.value].message == ClaimMessage(answer).value
  {
    TrimIdempotent(answer.value);
  }

  // ---------------------------------------------------------------- new item

  /** The form's inputs; `image` is the chosen file, if any. */
  datatype ItemDraft = ItemDraft(title: string, description: string, location: string, status: string,
                                 contact: string, image: Option<string>)

  /** The entry for a field: present only when its input is non-empty. */
  function Slot(key: string, value: string): (r: seq<(string, string)>)
    ensures forall i :: 0 <= i < |r| ==> r[i] == (key, value) && value != ""
  {
    if value != "" then [(key, value)] else []
  }

  /** The form's fields in form order, each as its slot. */
  function FormSlots(d: ItemDraft): seq<seq<(string, string)>>
  {
    [Slot("title", d.title), Slot("description", d.description), Slot("location", d.location),
     Slot("status", d.status), Slot("contact", d.contact), Slot("image", if d.image.Some? then d.image.value else "")]
  }

  /** The entries of consecutive slots, in order. */
  function Flatten(ss: seq<seq<(string, string)>>): seq<(string, string)>
    decreases |ss|
  {
    if |ss| == 0 then [] else ss[0] + Flatten(ss[1..])
  }

  /** The form data posted: one entry per non-empty field, in form order. */
  function FormEntries(d: ItemDraft): seq<(string, string)>
  {
    Flatten(FormSlots(d))
  }

  /** The value the server reads for `key`: the first entry with that key. */
  function Lookup(entries: seq<(string, string)>, key: string): (r: Option<string>)
    ensures r.Some? <==> exists i :: 0 <= i < |entries| && entries[i].0 == key
    ensures r.Some? ==> exists i :: 0 <= i < |entries| && entries[i] == (key, r.value)
  {
    match FirstWhere(entries, (e: (string, string)) => e.0 == key)
    case None => None
    case Some(i) => Some(entries[i].1)
  }

  /** The request body the server sees. */
  function ServerForm(entries: seq<(string, string)>): LostFound.PostForm
  {
    LostFound.PostForm(Lookup(entries, "title"), Lookup(entries, "description"), Lookup(entries, "location"),
                       Lookup(entries, "status"), Lookup(entries, "contact"))
  }

  /** A non-empty input as the value of its field; an empty one as
      absent. */
  function NonEmpty(s: string): Option<string>
  {
    if s != "" then Some(s) else None
  }

  /** No entry of `s` has key `key`. */
  predicate NoKey(s: seq<(string, string)>, key: string)
  {
    forall i :: 0 <= i < |s| ==> s[i].0 != key
  }

  lemma NoKeyConcat(a: seq<(string, string)>, b: seq<(string, string)>, key: string)
    requires NoKey(a, key) && NoKey(b, key)
    ensures NoKey(a + b, key)
  {
    forall i | 0 <= i < |a + b| ensures (a + b)[i].0 != key {
      if i < |a| { assert (a + b)[i] == a[i]; } else { assert (a + b)[i] == b[i - |a|]; }
    }
  }

  /** A field's value is read from its own entry, whatever entries with
      other keys surround it. */
  lemma LookupSlot(pre: seq<(string, string)>, key: string, value: string, post: seq<(string, string)>)
    requires NoKey(pre, key) && NoKey(post, key)
    ensures Lookup(pre + Slot(key, value) + post, key) == NonEmpty(value)
  {
    var e := pre + Slot(key, value) + post;
    var p := (x: (string, string)) => x.0 == key;
    if value != "" {
      assert e[|pre|] == (key, value);
      assert forall k :: 0 <= k < |pre| ==> e[k] == pre[k];
      assert FirstWhere(e, p) == Some(|pre|);
    } else {
      assert e == pre + post;
      NoKeyConcat(pre, post, key);
    }
  }

  lemma {:induction false} FlattenSplit(ss: seq<seq<(string, string)>>, i: nat)
    requires i < |ss|
    ensures Flatten(ss) == Flatten(ss[..i]) + ss[i] + Flatten(ss[i + 1..])
    decreases i
  {
    if i > 0 {
      FlattenSplit(ss[1..], i - 1);
      assert ss[1..][..i - 1] == ss[1..i] && ss[1..][i - 1] == ss[i] && ss[1..][i..] == ss[i + 1..];
      assert Flatten(ss[..i]) == ss[0] + Flatten(ss[1..i]) by { assert ss[..i][1..] == ss[1..i]; }
    } else {
      assert ss[1..] == ss[i + 1..];
    }
  }

  lemma {:induction false} FlattenNoKey(ss: seq<seq<(string, string)>>, key: string)
    requires forall j :: 0 <= j < |ss| ==> NoKey(ss[j], key)
    ensures NoKey(Flatten(ss), key)
    decreases |ss|
  {
    if |ss| > 0 {
      FlattenNoKey(ss[1..], key);
      NoKeyConcat(ss[0], Flatten(ss[1..]), key);
    }
  }

  /** A field whose key no other slot uses is read from its own slot. */
  lemma SlotReachesServer(ss: seq<seq<(string, string)>>, i: nat, key: string, v: string)
    requires i < |ss| && ss[i] == Slot(key, v)
    requires forall j :: 0 <= j < |ss| && j != i ==> NoKey(ss[j], key)
    ensures Lookup(Flatten(ss), key) == NonEmpty(v)
  {
    FlattenSplit(ss, i);
    FlattenNoKey(ss[..i], key);
    FlattenNoKey(ss[i + 1..], key);
    LookupSlot(Flatten(ss[..i]), key, v, Flatten(ss[i + 1..]));
  }

  /** A slot holds no entry for a key other than its own. */
  lemma SlotHasOneKey(key: string, value: string, other: string)
    requires key != other
    ensures NoKey(Slot(key, value), other)
  {
  }

  /** Each of the five fields reaches the server as the input's value when
      it is non-empty, and as absent otherwise. */
  lemma FieldsReachServer(d: ItemDraft)
    ensures ServerForm(FormEntries(d)) ==
      LostFound.PostForm(NonEmpty(d.title), NonEmpty(d.description), NonEmpty(d.location), NonEmpty(d.status), NonEmpty(d.contact))
  {
    var ss := FormSlots(d);
    var keys := ["title", "description", "location", "status", "contact", "image"];
    var values := [d.title, d.description, d.location, d.status, d.contact];
    forall i | 0 <= i < 5 ensures Lookup(Flatten(ss), keys[i]) == NonEmpty(values[i]) {
      forall j | 0 <= j < |ss| && j != i ensures NoKey(ss[j], keys[i]) {
        assert ss[j] == Slot(keys[j], if j < 5 then values[j] else if d.image.Some? then d.image.value else "");
        SlotHasOneKey(keys[j], if j < 5 then values[j] else if d.image.Some? then d.image.value else "", keys[i]);
      }
      SlotReachesServer(ss, i, keys[i], values[i]);
    }
    assert Lookup(Flatten(ss), keys[0]) == NonEmpty(values[0]);
    assert Lookup(Flatten(ss), keys[1]) == NonEmpty(values[1]);
    assert Lookup(Flatten(ss), keys[2]) == NonEmpty(values[2]);
    assert Lookup(Flatten(ss), keys[3]) == NonEmpty(values[3]);
    assert Lookup(Flatten(ss), keys[4]) == NonEmpty(values[4]);
  }

  /** Empty inputs reach the server as absent fields, so a draft with an
      empty required input is refused with 400, and a complete one is not. */
  lemma EmptyInputsAreRefused(st: LostFound.State, caller: Caller, d: ItemDraft, upload: Option<LostFound.Upload>, now: int)
    ensures LostFound.CreateLostFound(st, caller, ServerForm(FormEntries(d)), upload, now).0 == Err(400, "Required fields missing")
            <==> d.title == "" || d.description == "" || d.location == "" || d.status == "" || d.contact == ""
  {
    FieldsReachServer(d);
  }
}

=== FILE: middleware.dfy ===
/** `auth.middleware.js`: the bearer-token gate every protected route passes,
    and the three role gates behind it. */
module Middleware {
  import opened Common
  import opened Text
  import opened Accounts

  const BearerPrefix: string := "Bearer "

  predicate StartsWith(s: string, prefix: string)
  {
    |prefix| <= |s| && s[..|prefix|] == prefix
  }

  /** The token of an `Authorization` header: the header must start with
      `Bearer ` (case and the single space matter), and the token is the
      second space-separated field, which may be empty. */
  function BearerToken(header: Option<string>): (r: Option<string>)
    ensures r.Some? <==> header.Some? && StartsWith(header.value, BearerPrefix)
    ensures r.Some? ==> ' ' !in r.value
    ensures r.Some? ==> r.value == Split(header.value[|BearerPrefix|..], ' ')[0]
  {
    if header.None? || !StartsWith(header.value, BearerPrefix) then None
    else
      var h := header.value;
      var rest := h[|BearerPrefix|..];
      assert h == "Bearer" + [' '] + rest;
      assert ' ' !in "Bearer" && ' ' in h;
      assert IndexOf(h, ' ') == 6 by {
        assert h[6] == ' ';
        assert ' ' !in h[..6];
      }
      assert h[7..] == rest;
      Some(Split(h, ' ')[1])
  }

  /** The header the pages build, `Bearer ${token}`, gives the token back when
      the token has no space in it. */
  lemma BearerRoundTrip(token: string)
    requires ' ' !in token
    ensures BearerToken(Some(BearerPrefix + token)) == Some(token)
  {
    var h := BearerPrefix + token;
    assert h[..|BearerPrefix|] == BearerPrefix;
    assert h[|BearerPrefix|..] == token;
  }

  /** `authMiddleware`. `verify` stands for checking the token's signature
      and expiry and reading the id out of it. The id must still name an
      account: a deleted account's token is refused. */
  function Authenticate(users: seq<User>, header: Option<string>, verify: string -> Option<Id>): (r: Reply<User>)
    ensures BearerToken(header).None? ==> r == Err(401, "No token provided")
    ensures BearerToken(header).Some? && verify(BearerToken(header).value).None? ==> r == Err(401, "Invalid token")
    ensures r.Ok? <==>
      BearerToken(header).Some? && verify(BearerToken(header).value).Some?
      && FindById(users, verify(BearerToken(header).value).value).Some?
    ensures r.Ok? ==> r.value in users && r.value.id == verify(BearerToken(header).value).value
    ensures r.Err? ==> r.status == 401
  {
    match BearerToken(header)
    case None => Err(401, "No token provided")
    case Some(token) =>
      match verify(token)
      case None => Err(401, "Invalid token")
      case Some(id) =>
        match FindById(users, id)
        case None => Err(401, "User not found")
        case Some(i) => Ok(users[i])
  }

  /** The role gate: the account's stored role, read on every request, must be
      the required one. */
  function RequireRole(u: User, role: Role): (r: Reply<()>)
    ensures r.Ok? <==> u.role == role
    ensures r.Err? ==> r.status == 403
  {
    if u.role == role then Ok(())
    else Err(403, match role
                  case Admin => "Admin access required"
                  case ClubChairman => "Chairman access required"
                  case Student => "student access required")
  }

  function AdminGate(u: User): Reply<()> { RequireRole(u, Admin) }
  function ChairmanGate(u: User): Reply<()> { RequireRole(u, ClubChairman) }
  function StudentGate(u: User): Reply<()> { RequireRole(u, Student) }

  /** Every account passes exactly one of the three gates. */
  lemma ExactlyOneGate(u: User)
    ensures AdminGate(u).Ok? || ChairmanGate(u).Ok? || StudentGate(u).Ok?
    ensures !(AdminGate(u).Ok? && ChairmanGate(u).Ok?)
    ensures !(AdminGate(u).Ok? && StudentGate(u).Ok?)
    ensures !(ChairmanGate(u).Ok? && StudentGate(u).Ok?)
  {
  }

  /** Authentication does not look at the approval status: a token stays good
      after its account is demoted to pending, and only deleting the account
      revokes it. */
  lemma StatusIsNotChecked(users: seq<User>, header: Option<string>, verify: string -> Option<Id>, i: nat, st: UserStatus)
    requires i < |users| && KeysDistinct(users, IdOf)
    requires Authenticate(users, header, verify) == Ok(users[i])
    ensures Authenticate(users[i := users[i].(status := st)], header, verify) == Ok(users[i].(status := st))
  {
    var users' := users[i := users[i].(status := st)];
    var id := verify(BearerToken(header).value).value;
    var j := FindById(users, id).value;
    assert IdOf(users[j]) == IdOf(users[i]);
    assert j == i;
    assert FindById(users', id) == Some(i) by {
      forall k | 0 <= k < i ensures users'[k].id != id { assert users'[k] == users[k]; }
      assert users'[i].id == id;
      assert FindById(users', id).Some?;
    }
  }
}

=== FILE: otp.dfy ===
/** One-time-code tickets (the `OtpRequest` collection) and the operations the
    signup, password-reset and account-deletion handlers perform on them.
    Tickets are keyed by e-mail alone: there is no purpose tag. */
module Otp {
  import opened Common
  import opened Text

  /** What a ticket carries: the signup form for `sendOtp`, an empty object
      for `sendPasswordOtp` and `sendDeleteOtp`. */
  datatype TicketData =
    | SignupData(name: string, email: string, usn: string, password: string, role: string)
    | NoData

  /** A stored ticket; `otpExpiry` is an instant in milliseconds. */
  datatype Ticket = Ticket(email: string, otp: string, otpExpiry: int, data: TicketData)

  /** Every handler issues tickets that live five minutes. */
  const TicketLifetimeMs: int := 5 * 60 * 1000

  /** The smallest code and the number of distinct codes. */
  const OtpLow: nat := 100000
  const OtpSpan: nat := 900000

  /** `generateOtp`: the decimal form of `100000 + floor(random * 900000)`,
      where `draw` stands for `floor(random * 900000)`. */
  function GenerateOtp(draw: nat): (code: string)
    requires draw < OtpSpan
    ensures |code| == 6 && AllDigits(code) && code[0] != '0'
    ensures ParseInt(code) == Some(OtpLow + draw)
  {
    assert Pow10(5) == 100000 && Pow10(6) == 1000000;
    DecimalLength(OtpLow + draw, 6);
    ParseDecimal(OtpLow + draw);
    NatToDecimal(OtpLow + draw)
  }

  /** Two draws give the same code only when they are the same draw. */
  lemma GenerateOtpInjective(d1: nat, d2: nat)
    requires d1 < OtpSpan && d2 < OtpSpan
    ensures GenerateOtp(d1) == GenerateOtp(d2) <==> d1 == d2
  {
    if GenerateOtp(d1) == GenerateOtp(d2) {
      assert ParseInt(GenerateOtp(d1)) == Some(OtpLow + d1);
      assert ParseInt(GenerateOtp(d2)) == Some(OtpLow + d2);
    }
  }

  function EmailOf(t: Ticket): string { t.email }

  /** At most one ticket per e-mail. The schema does not enforce it; the
      handlers keep it by deleting before they create. */
  ghost predicate OnePerEmail(ts: seq<Ticket>)
  {
    KeysDistinct(ts, EmailOf)
  }

  /** `OtpRequest.findOne({ email })`: the first ticket for the e-mail. */
  function FindTicket(ts: seq<Ticket>, email: string): (r: Option<nat>)
    ensures r.Some? ==> r.value < |ts| && ts[r.value].email == email
    ensures r.Some? ==> forall k :: 0 <= k < r.value ==> ts[k].email != email
    ensures r.None? <==> forall k :: 0 <= k < |ts| ==> ts[k].email != email
  {
    FirstWhere(ts, (t: Ticket) => t.email == email)
  }

  /** `OtpRequest.deleteMany({ email })`. */
  function DeleteMany(ts: seq<Ticket>, email: string): (r: seq<Ticket>)
    ensures forall t :: t in r <==> t in ts && t.email != email
    ensures Subseq(r, ts)
  {
    FilterIsSubseq(ts, (t: Ticket) => t.email != email);
    Filter(ts, (t: Ticket) => t.email != email)
  }

  /** `OtpRequest.deleteOne({ email })`: removes the first ticket for the
      e-mail, if any. */
  function DeleteOne(ts: seq<Ticket>, email: string): (r: seq<Ticket>)
    ensures forall t :: t in ts && t.email != email ==> t in r
    ensures forall t :: t in r ==> t in ts
    ensures OnePerEmail(ts) ==> OnePerEmail(r) && FindTicket(r, email).None?
  {
    match FindTicket(ts, email)
    case None => ts
    case Some(i) =>
      var r := RemoveAt(ts, i);
      assert OnePerEmail(ts) ==> OnePerEmail(r) by {
        if OnePerEmail(ts) { RemoveAtKeepsKeysDistinct(ts, i, EmailOf); }
      }
      r
  }

  /** Issuing: delete every ticket for the e-mail, then store exactly one new
      ticket expiring `TicketLifetimeMs` after `now`. */
  function Issue(ts: seq<Ticket>, email: string, otp: string, now: int, data: TicketData): (r: seq<Ticket>)
    ensures forall t :: t in r && t.email != email <==> t in ts && t.email != email
    ensures FindTicket(r, email) == Some(|r| - 1)
    ensures r[|r| - 1] == Ticket(email, otp, now + TicketLifetimeMs, data)
    ensures forall k :: 0 <= k < |r| - 1 ==> r[k].email != email
    ensures OnePerEmail(ts) ==> OnePerEmail(r)
  {
    var kept := DeleteMany(ts, email);
    assert OnePerEmail(ts) ==> OnePerEmail(kept) by {
      if OnePerEmail(ts) {
        FilterKeepsKeysDistinct(ts, (t: Ticket) => t.email != email, EmailOf);
      }
    }
    assert forall k :: 0 <= k < |kept| ==> kept[k] in kept;
    var r := kept + [Ticket(email, otp, now + TicketLifetimeMs, data)];
    assert r[|r| - 1].email == email;
    assert FindTicket(r, email).Some?;
    r
  }

  /** The outcome of checking a submitted code, in the order every handler
      checks: a ticket exists, the code matches, the ticket has not expired. */
  datatype Check = NoTicket | WrongCode | Expired | Valid(ticket: Ticket)

  /** A ticket is expired once its expiry instant lies strictly in the past. */
  predicate IsExpired(t: Ticket, now: int)
  {
    t.otpExpiry < now
  }

  function CheckCode(ts: seq<Ticket>, email: string, otp: string, now: int): (c: Check)
    ensures c == NoTicket <==> FindTicket(ts, email).None?
    ensures c == WrongCode <==> FindTicket(ts, email).Some? && ts[FindTicket(ts, email).value].otp != otp
    ensures c.Valid? <==>
      FindTicket(ts, email).Some? && ts[FindTicket(ts, email).value].otp == otp
      && !IsExpired(ts[FindTicket(ts, email).value], now)
    ensures c.Valid? ==> c.ticket in ts && c.ticket.email == email && c.ticket.otp == otp
  {
    match FindTicket(ts, email)
    case None => NoTicket
    case Some(i) =>
      if ts[i].otp != otp then WrongCode
      else if IsExpired(ts[i], now) then Expired
      else Valid(ts[i])
  }

  /** The TTL index (`expires: 0`): the store drops every ticket whose expiry
      has passed. */
  function Sweep(ts: seq<Ticket>, now: int): (r: seq<Ticket>)
    ensures forall t :: t in r <==> t in ts && !IsExpired(t, now)
    ensures OnePerEmail(ts) ==> OnePerEmail(r)
  {
    assert OnePerEmail(ts) ==> OnePerEmail(Filter(ts, (t: Ticket) => !IsExpired(t, now))) by {
      if OnePerEmail(ts) {
        FilterKeepsKeysDistinct(ts, (t: Ticket) => !IsExpired(t, now), EmailOf);
      }
    }
    Filter(ts, (t: Ticket) => !IsExpired(t, now))
  }

  /** The sweep and the handlers agree on expiry: a sweep at the instant of a
      check removes exactly the ticket the check would call expired, and
      leaves the check's verdict otherwise unchanged. */
  lemma SweepAgreesWithCheck(ts: seq<Ticket>, email: string, otp: string, now: int)
    requires OnePerEmail(ts)
    ensures CheckCode(ts, email, otp, now) != Expired ==>
      CheckCode(Sweep(ts, now), email, otp, now) == CheckCode(ts, email, otp, now)
      || (CheckCode(ts, email, otp, now) == WrongCode && CheckCode(Sweep(ts, now), email, otp, now) == NoTicket)
    ensures CheckCode(ts, email, otp, now) == Expired ==> CheckCode(Sweep(ts, now), email, otp, now) == NoTicket
  {
    var sw := Sweep(ts, now);
    match FindTicket(ts, email)
    case None =>
      forall k | 0 <= k < |sw| ensures sw[k].email != email {
        assert sw[k] in ts;
      }
    case Some(i) =>
      var t := ts[i];
      forall k | 0 <= k < |sw| && sw[k] != t ensures sw[k].email != email {
        var j :| 0 <= j < |ts| && ts[j] == sw[k];
        assert j != i;
      }
      if !IsExpired(t, now) {
        assert t in sw;
        var m := FindTicket(sw, email);
        assert sw[m.value] == t;
      } else {
        assert t !in sw;
      }
  }
}

=== FILE: ride_model.dfy ===
/** The ride and ride-booking schemas (`ride.model.js`, `rideBooking.model.js`):
    the status enums, the numeric bounds, the 20:00 expiry cutoff with its
    deletion timer, the booking record's required fields, and the price a
    passenger pays for a destination. */
module RideModel {
  import opened Common
  import opened Text

  datatype RideStatus = Listed | BookingAccepted | Cancelled

  function RideStatusName(s: RideStatus): string
  {
    match s
    case Listed => "listed"
    case BookingAccepted => "booking_accepted"
    case Cancelled => "cancelled"
  }

  /** The schema's enum check on a ride status. */
  function ParseRideStatus(s: string): (r: Option<RideStatus>)
    ensures r.Some? ==> RideStatusName(r.value) == s
  {
    if s == "listed" then Some(Listed)
    else if s == "booking_accepted" then Some(BookingAccepted)
    else if s == "cancelled" then Some(Cancelled)
    else None
  }

  /** Every status name parses back to its status, and nothing else parses. */
  lemma ParseRideStatusName(st: RideStatus, s: string)
    ensures ParseRideStatus(RideStatusName(st)) == Some(st)
    ensures ParseRideStatus(s).Some? <==> s == "listed" || s == "booking_accepted" || s == "cancelled"
  {
  }

  /** An intermediate stop and the fare to it. */
  datatype ViaStop = ViaStop(location: string, price: int)

  const DefaultSeats: int := 4
  const MinSeats: int := 1
  const MaxSeats: int := 8

  /** A stored ride; `departure` is an instant in milliseconds. */
  datatype Ride = Ride(driver: Id, departure: int, from: string, to: string, price: int,
                       via: seq<ViaStop>, status: RideStatus, seatsAvailable: int)

  /** What the schema's validators demand of a ride once its strings are
      trimmed: the required strings are non-empty, the fares are not
      negative, and the seat count lies in 1..8. */
  predicate ValidRide(r: Ride)
  {
    && r.from != "" && r.to != "" && r.price >= 0
    && (forall i :: 0 <= i < |r.via| ==> r.via[i].location != "" && r.via[i].price >= 0)
    && MinSeats <= r.seatsAvailable <= MaxSeats
  }

  /** The `trim: true` setters on the ride's strings. */
  function TrimStop(v: ViaStop): ViaStop { ViaStop(Trim(v.location), v.price) }

  function TrimVia(via: seq<ViaStop>): (r: seq<ViaStop>)
    ensures |r| == |via|
    ensures forall i :: 0 <= i < |r| ==> r[i] == TrimStop(via[i])
  {
    seq(|via|, i requires 0 <= i < |via| => TrimStop(via[i]))
  }

  // ---------------------------------------------------------------- expiry

  const DayMs: int := 24 * 60 * 60 * 1000
  const EightPmMs: int := 20 * 60 * 60 * 1000

  /** The local calendar day an instant falls on, for a fixed offset from UTC
      in milliseconds (the server's time zone). */
  function LocalDay(t: int, tzOffsetMs: int): int
  {
    (t + tzOffsetMs) / DayMs
  }

  /** The local time of day of an instant, in milliseconds since midnight. */
  function LocalTime(t: int, tzOffsetMs: int): (m: int)
    ensures 0 <= m < DayMs
  {
    (t + tzOffsetMs) % DayMs
  }

  /** `setHours(20, 0, 0, 0)` on the departure: 20:00:00.000 local time on the
      departure's local day. */
  function Cutoff(departure: int, tzOffsetMs: int): (c: int)
    ensures LocalDay(c, tzOffsetMs) == LocalDay(departure, tzOffsetMs)
    ensures LocalTime(c, tzOffsetMs) == EightPmMs
  {
    var local := departure + tzOffsetMs;
    var c := local / DayMs * DayMs + EightPmMs - tzOffsetMs;
    assert c + tzOffsetMs == local / DayMs * DayMs + EightPmMs;
    DivModOfDayPlus(local / DayMs, EightPmMs);
    c
  }

  lemma DivModOfDayPlus(d: int, m: int)
    requires 0 <= m < DayMs
    ensures (d * DayMs + m) / DayMs == d && (d * DayMs + m) % DayMs == m
  {
  }

  /** The cutoff is the only instant of the departure's local day at 20:00. */
  lemma CutoffUnique(departure: int, tzOffsetMs: int, c: int)
    requires LocalDay(c, tzOffsetMs) == LocalDay(departure, tzOffsetMs)
    requires LocalTime(c, tzOffsetMs) == EightPmMs
    ensures c == Cutoff(departure, tzOffsetMs)
  {
    var c0 := Cutoff(departure, tzOffsetMs);
    assert c + tzOffsetMs == LocalDay(c, tzOffsetMs) * DayMs + LocalTime(c, tzOffsetMs);
    assert c0 + tzOffsetMs == LocalDay(c0, tzOffsetMs) * DayMs + LocalTime(c0, tzOffsetMs);
  }

  /** The cutoff lies at most 20 hours after the departure and less than
      4 hours before it. */
  lemma CutoffNearDeparture(departure: int, tzOffsetMs: int)
    ensures departure - 4 * 60 * 60 * 1000 < Cutoff(departure, tzOffsetMs) <= departure + EightPmMs
  {
    var c := Cutoff(departure, tzOffsetMs);
    var d := LocalDay(departure, tzOffsetMs);
    assert departure + tzOffsetMs == d * DayMs + LocalTime(departure, tzOffsetMs);
    assert c + tzOffsetMs == d * DayMs + EightPmMs;
  }

  /** The `isExpired` virtual: the clock is strictly past the cutoff. */
  predicate IsExpired(departure: int, now: int, tzOffsetMs: int)
  {
    now > Cutoff(departure, tzOffsetMs)
  }

  /** The pre-save hook: when the ride is new or its departure changed, and
      the cutoff is still ahead, a deletion is scheduled that many
      milliseconds from now. */
  function DeletionDelay(isNew: bool, departureModified: bool, departure: int, now: int, tzOffsetMs: int): (d: Option<int>)
    ensures d.Some? <==> (isNew || departureModified) && now < Cutoff(departure, tzOffsetMs)
    ensures d.Some? ==> d.value > 0 && now + d.value == Cutoff(departure, tzOffsetMs)
  {
    var c := Cutoff(departure, tzOffsetMs);
    if (isNew || departureModified) && c > now then Some(c - now) else None
  }

  /** The largest delay Node's `setTimeout` honours (2^31 - 1 ms, about 24.8
      days). */
  const MaxTimerDelay: int := 2147483647

  /** The delay after which Node runs a `setTimeout` callback: a requested
      delay outside 1 .. MaxTimerDelay is replaced by 1 ms. */
  function NodeTimerDelay(requested: int): (d: int)
    ensures 1 <= d <= MaxTimerDelay
    ensures 1 <= requested <= MaxTimerDelay <==> d == requested
    ensures d != requested ==> d == 1
  {
    if 1 <= requested <= MaxTimerDelay then requested else 1
  }

  /** When the hook's timer actually fires: at the cutoff itself, one
      millisecond before the ride reads as expired, exactly when the cutoff
      is at most MaxTimerDelay ahead; for a cutoff farther ahead Node clamps
      the delay and the timer fires one millisecond after the save, while
      the ride is still open. */
  lemma TimerFiresAtCutoff(isNew: bool, modified: bool, departure: int, now: int, tz: int)
    requires DeletionDelay(isNew, modified, departure, now, tz).Some?
    ensures var at := now + NodeTimerDelay(DeletionDelay(isNew, modified, departure, now, tz).value);
      (Cutoff(departure, tz) - now <= MaxTimerDelay ==> !IsExpired(departure, at, tz) && IsExpired(departure, at + 1, tz))
      && (Cutoff(departure, tz) - now > MaxTimerDelay ==> at == now + 1 && !IsExpired(departure, at, tz))
  {
  }

  /** A ride saved more than MaxTimerDelay before its cutoff (for example a
      ride posted a month ahead) is scheduled, but its deletion runs one
      millisecond later, long before the ride is expired. */
  lemma FarRideIsDeletedAtOnce(departure: int, now: int, tz: int)
    requires Cutoff(departure, tz) - now > MaxTimerDelay
    ensures DeletionDelay(true, false, departure, now, tz).Some?
    ensures var d := DeletionDelay(true, false, departure, now, tz).value;
      d > MaxTimerDelay && NodeTimerDelay(d) == 1 && !IsExpired(departure, now + NodeTimerDelay(d), tz)
  {
  }

  /** The total of a list of delays. */
  function TotalDelay(ds: seq<int>): int
  {
    if ds == [] then 0 else ds[0] + TotalDelay(ds[1..])
  }

  /** The evident intent of the hook, for any distance to the cutoff: re-arm
      the timer in steps Node honours unchanged until the cutoff is reached.
      Every step is used as given and the steps add up to the cutoff. */
  function RearmedDelays(now: int, cutoff: int): (ds: seq<int>)
    requires now < cutoff
    ensures |ds| > 0
    ensures forall i :: 0 <= i < |ds| ==> NodeTimerDelay(ds[i]) == ds[i]
    ensures now + TotalDelay(ds) == cutoff
    decreases cutoff - now
  {
    if cutoff - now <= MaxTimerDelay then [cutoff - now]
    else
      var rest := RearmedDelays(now + MaxTimerDelay, cutoff);
      assert ([MaxTimerDelay] + rest)[1..] == rest;
      [MaxTimerDelay] + rest
  }

  /** With re-arming, the last timer fires at the cutoff itself, one
      millisecond before the ride reads as expired, however far ahead the
      ride was saved. */
  lemma RearmedTimerFiresAtCutoff(isNew: bool, modified: bool, departure: int, now: int, tz: int)
    requires DeletionDelay(isNew, modified, departure, now, tz).Some?
    ensures var at := now + TotalDelay(RearmedDelays(now, Cutoff(departure, tz)));
      !IsExpired(departure, at, tz) && IsExpired(departure, at + 1, tz)
  {
  }

  /** A ride saved once its cutoff has arrived gets no timer: nothing ever
      deletes it, though it reads as expired from the next millisecond on. */
  lemma LateRideIsNeverScheduled(departure: int, now: int, tz: int)
    requires now >= Cutoff(departure, tz)
    ensures DeletionDelay(true, true, departure, now, tz).None?
    ensures IsExpired(departure, now + 1, tz)
  {
  }

  // ---------------------------------------------------------------- fares

  /** The fare `bookRide` charges for a destination: for the ride's final
      stop, the fare of the last intermediate stop if there is one and the
      ride's own price otherwise; for an intermediate stop, the fare of the
      first stop with that name; `None` for anything else. */
  function PriceFor(r: Ride, destn: Option<string>): (p: Option<int>)
    ensures p.Some? <==> destn.Some? && (destn.value == r.to || exists i :: 0 <= i < |r.via| && r.via[i].location == destn.value)
    ensures p.Some? && destn.value == r.to && |r.via| > 0 ==> p.value == r.via[|r.via| - 1].price
    ensures p.Some? && destn.value == r.to && |r.via| == 0 ==> p.value == r.price
    ensures p.Some? && destn.value != r.to ==>
      exists i :: 0 <= i < |r.via| && r.via[i].location == destn.value && p.value == r.via[i].price
              && forall k :: 0 <= k < i ==> r.via[k].location != destn.value
  {
    if destn.None? then None
    else if r.to == destn.value then
      Some(if |r.via| > 0 then r.via[|r.via| - 1].price else r.price)
    else
      match FirstWhere(r.via, (v: ViaStop) => v.location == destn.value)
      case None => None
      case Some(i) => Some(r.via[i].price)
  }

  /** Every fare charged is one the ride offers: its own price or one of its
      stops' fares, so a valid ride never charges a negative fare. */
  lemma PriceIsOffered(r: Ride, destn: Option<string>)
    requires PriceFor(r, destn).Some?
    ensures PriceFor(r, destn).value == r.price
            || exists i :: 0 <= i < |r.via| && PriceFor(r, destn).value == r.via[i].price
    ensures ValidRide(r) ==> PriceFor(r, destn).value >= 0
  {
  }

  // ---------------------------------------------------------------- bookings

  datatype BookingStatus = Pending | Accepted | Rejected | BookingCancelled

  function BookingStatusName(s: BookingStatus): string
  {
    match s
    case Pending => "pending"
    case Accepted => "accepted"
    case Rejected => "rejected"
    case BookingCancelled => "cancelled"
  }

  /** A stored booking: the ride, the passenger, the destination chosen and
      its fare. */
  datatype Booking = Booking(ride: Id, passenger: Id, destination: string, price: int, status: BookingStatus)

  /** The object a handler hands to `new RideBooking(...)`. Fields the schema
      does not declare (`seatsBooked`, `totalPrice`) are accepted here and
      dropped by the cast, as strict mode does. */
  datatype BookingInput = BookingInput(ride: Id, passenger: Id, seatsBooked: Option<int>, totalPrice: Option<int>,
                                       destination: Option<string>, price: Option<int>, status: BookingStatus)

  /** Casting and validating the input: the record when the required
      `destination` and `price` are there, `None` (a validation error)
      otherwise. */
  function CastBooking(b: BookingInput): (r: Option<Booking>)
    ensures b.destination.None? || b.price.None? || b.destination == Some("") ==> r.None?
    ensures r.Some? ==> r.value.destination != "" && Some(r.value.destination) == b.destination
                        && Some(r.value.price) == b.price
    ensures r.Some? ==> r.value.ride == b.ride && r.value.passenger == b.passenger && r.value.status == b.status
  {
    if b.destination.Some? && b.destination.value != "" && b.price.Some? then
      Some(Booking(b.ride, b.passenger, b.destination.value, b.price.value, b.status))
    else None
  }

  /** Every record with a destination is what the cast makes of the input
      carrying its fields, whatever undeclared fields come with it. */
  lemma CastRoundTrip(bk: Booking, seats: Option<int>, total: Option<int>)
    requires bk.destination != ""
    ensures CastBooking(BookingInput(bk.ride, bk.passenger, seats, total, Some(bk.destination), Some(bk.price), bk.status))
            == Some(bk)
  {
  }

  /** Undeclared fields make no difference to the cast. */
  lemma CastIgnoresUndeclared(b: BookingInput, seats: Option<int>, total: Option<int>)
    ensures CastBooking(b.(seatsBooked := seats, totalPrice := total)) == CastBooking(b)
  {
  }
}

=== FILE: rides.dfy ===
/** The ride-sharing handlers (`rides.controller.js`): drivers list rides,
    passengers request seats, drivers accept or reject the requests. Rides and
    bookings are maps from id to record; every handler is one atomic step from
    a state to a reply and a new state. The caller is the authenticated
    account's id; the routes admit students only. */
module Rides {
  import opened Common
  import opened Text
  import opened RideModel

  datatype State = State(rides: map<Id, Ride>, bookings: map<Id, Booking>, nextId: nat)

  /** Standing facts about the store: ids come from one counter (rides and
      bookings never share or reuse one), every booking names a ride id that
      was handed out, every stored ride passes the schema, and the unique
      index allows one booking per (ride, passenger). */
  ghost predicate WellFormed(st: State)
  {
    && (forall id :: id in st.rides ==> id < st.nextId && ValidRide(st.rides[id]))
    && (forall id :: id in st.bookings ==> id < st.nextId && st.bookings[id].ride < st.nextId)
    && (forall a, b :: a in st.bookings && b in st.bookings && a != b ==>
          st.bookings[a].ride != st.bookings[b].ride || st.bookings[a].passenger != st.bookings[b].passenger)
  }

  /** The ride has a booking in status `s`. */
  predicate HasBooking(st: State, rideId: Id, s: BookingStatus)
  {
    exists b :: b in st.bookings && st.bookings[b].ride == rideId && st.bookings[b].status == s
  }

  /** The single-winner invariant: a ride has at most one pending and at most
      one accepted booking, a pending booking's ride (if it still exists) is
      listed, and a ride is `booking_accepted` exactly when one of its
      bookings is accepted. */
  ghost predicate SingleWinner(st: State)
  {
    AtMostOne(st, Pending) && AtMostOne(st, Accepted) && PendingRideListed(st) && AcceptedMatchesStatus(st)
  }

  /** No ride has two bookings in status `s`. */
  ghost predicate AtMostOne(st: State, s: BookingStatus)
  {
    forall a, b :: (a in st.bookings && b in st.bookings && st.bookings[a].ride == st.bookings[b].ride
                    && st.bookings[a].status == s && st.bookings[b].status == s) ==> a == b
  }

  ghost predicate PendingRideListed(st: State)
  {
    forall b :: b in st.bookings && st.bookings[b].status == Pending && st.bookings[b].ride in st.rides ==>
      st.rides[st.bookings[b].ride].status == Listed
  }

  ghost predicate AcceptedMatchesStatus(st: State)
  {
    forall r :: r in st.rides ==> (st.rides[r].status == BookingAccepted <==> HasBooking(st, r, Accepted))
  }

  // ---------------------------------------------------------------- CreateRide

  /** The request body of `CreateRide`. */
  datatype RideForm = RideForm(departure: DateField, from: Option<string>, to: Option<string>,
                               via: Option<seq<ViaStop>>, price: Option<int>)

  /** A number JavaScript treats as truthy: given and not zero. */
  predicate Truthy(n: Option<int>) { n.Some? && n.value != 0 }

  predicate FieldsGiven(f: RideForm)
  {
    !f.departure.NoDate? && Present(f.from) && Present(f.to) && Truthy(f.price)
  }

  /** The ride `Ride.create` would store: strings trimmed, `via` defaulting
      to the empty list, status `listed`, the default seat count. */
  function NewRide(driver: Id, f: RideForm): Ride
    requires FieldsGiven(f) && f.departure.DateAt?
  {
    Ride(driver, f.departure.ms, Trim(f.from.value), Trim(f.to.value), f.price.value,
         TrimVia(if f.via.Some? then f.via.value else []), Listed, DefaultSeats)
  }

  /** Mongoose's validation message, which `CreateRide` passes through
      verbatim; its wording is not modelled. */
  const RideValidationFailed: string := "Ride validation failed"

  /** `CreateRide`: a missing field (a zero price counts as missing) is a 400;
      a departure that is not a date, or a ride the schema refuses, is a 500
      carrying the validation message. */
  function CreateRide(st: State, driver: Id, f: RideForm): (r: (Reply<Id>, State))
    ensures !FieldsGiven(f) ==> r == (Err(400, "Fields missing"), st)
    ensures FieldsGiven(f) && f.departure.BadDate? ==> r == (Err(500, RideValidationFailed), st)
    ensures r.0.Ok? <==> FieldsGiven(f) && f.departure.DateAt? && ValidRide(NewRide(driver, f))
    ensures r.0.Err? ==> r.1 == st
    ensures r.0.Ok? && WellFormed(st) ==> r.0.value !in st.rides
    ensures r.0.Ok? ==>
      && r.0.value == st.nextId
      && r.1 == State(st.rides[r.0.value := NewRide(driver, f)], st.bookings, st.nextId + 1)
      && r.1.rides[r.0.value].driver == driver && r.1.rides[r.0.value].status == Listed
      && r.1.rides[r.0.value].price > 0 && r.1.rides[r.0.value].departure == f.departure.ms
  {
    if !FieldsGiven(f) then (Err(400, "Fields missing"), st)
    else if !f.departure.DateAt? then (Err(500, RideValidationFailed), st)
    else
      var ride := NewRide(driver, f);
      if !ValidRide(ride) then (Err(500, RideValidationFailed), st)
      else (Ok(st.nextId), State(st.rides[st.nextId := ride], st.bookings, st.nextId + 1))
  }

  // ---------------------------------------------------------------- updateRide

  /** The body of `updateRide`; `status` is the raw string sent. */
  datatype RideUpdate = RideUpdate(departure: DateField, from: Option<string>, to: Option<string>,
                                   via: Option<seq<ViaStop>>, price: Option<int>, status: Option<string>)

  /** The ride after `updateRide`'s assignments: only truthy fields overwrite
      (an empty `via` list is truthy, a zero price is not), and the status
      only when it names a ride status. A departure that is not a date is
      not assigned here; `UpdateRide` refuses it. */
  function Patched(ride: Ride, u: RideUpdate): (p: Ride)
    ensures p.driver == ride.driver && p.seatsAvailable == ride.seatsAvailable
    ensures p.departure == if u.departure.DateAt? then u.departure.ms else ride.departure
    ensures p.from == if Present(u.from) then Trim(u.from.value) else ride.from
    ensures p.to == if Present(u.to) then Trim(u.to.value) else ride.to
    ensures p.via == if u.via.Some? then TrimVia(u.via.value) else ride.via
    ensures p.price == if Truthy(u.price) then u.price.value else ride.price
    ensures u.status.None? || ParseRideStatus(u.status.value).None? ==> p.status == ride.status
    ensures u.status.Some? && ParseRideStatus(u.status.value).Some? ==> RideStatusName(p.status) == u.status.value
  {
    Ride(ride.driver,
         if u.departure.DateAt? then u.departure.ms else ride.departure,
         if Present(u.from) then Trim(u.from.value) else ride.from,
         if Present(u.to) then Trim(u.to.value) else ride.to,
         if Truthy(u.price) then u.price.value else ride.price,
         if u.via.Some? then TrimVia(u.via.value) else ride.via,
         if u.status.Some? && ParseRideStatus(u.status.value).Some? then ParseRideStatus(u.status.value).value else ride.status,
         ride.seatsAvailable)
  }

  /** `updateRide`: only the ride's driver may change it (the administrator
      test reads a field accounts do not have, so it never passes). A
      departure that is not a date fails the save, as does a ride the schema
      refuses: both are a 500. */
  function UpdateRide(st: State, caller: Id, rideId: Id, u: RideUpdate): (r: (Reply<Ride>, State))
    ensures rideId !in st.rides ==> r == (Err(404, "Ride not found"), st)
    ensures rideId in st.rides && st.rides[rideId].driver != caller ==> r == (Err(403, "Not authorized"), st)
    ensures rideId in st.rides && st.rides[rideId].driver == caller && u.departure.BadDate? ==>
      r == (Err(500, "Server error"), st)
    ensures r.0.Ok? <==> rideId in st.rides && st.rides[rideId].driver == caller && !u.departure.BadDate?
                         && ValidRide(Patched(st.rides[rideId], u))
    ensures r.0.Err? ==> r.1 == st
    ensures r.0.Ok? ==> r.1 == st.(rides := st.rides[rideId := r.0.value]) && r.0.value == Patched(st.rides[rideId], u)
    ensures WellFormed(st) ==> WellFormed(r.1)
  {
    if rideId !in st.rides then (Err(404, "Ride not found"), st)
    else
      var ride := st.rides[rideId];
      if ride.driver != caller then (Err(403, "Not authorized"), st)
      else
        var p := Patched(ride, u);
        if u.departure.BadDate? || !ValidRide(p) then (Err(500, "Server error"), st)
        else (Ok(p), st.(rides := st.rides[rideId := p]))
  }

  // ---------------------------------------------------------------- deleteRide

  /** `deleteRide`: the driver removes the ride and every booking on it. */
  function DeleteRide(st: State, caller: Id, rideId: Id): (r: (Reply<()>, State))
    ensures rideId !in st.rides ==> r == (Err(404, "Ride not found"), st)
    ensures rideId in st.rides && st.rides[rideId].driver != caller ==> r == (Err(403, "Not authorized"), st)
    ensures r.0.Ok? <==> rideId in st.rides && st.rides[rideId].driver == caller
    ensures r.0.Err? ==> r.1 == st
    ensures r.0.Ok? ==>
      && r.1.rides.Keys == st.rides.Keys - {rideId}
      && (forall id :: id in r.1.rides ==> r.1.rides[id] == st.rides[id])
      && (forall b :: b in r.1.bookings <==> b in st.bookings && st.bookings[b].ride != rideId)
      && (forall b :: b in r.1.bookings ==> r.1.bookings[b] == st.bookings[b])
      && r.1.nextId == st.nextId
  {
    if rideId !in st.rides then (Err(404, "Ride not found"), st)
    else if st.rides[rideId].driver != caller then (Err(403, "Not authorized"), st)
    else
      var bookings := map b | b in st.bookings && st.bookings[b].ride != rideId :: st.bookings[b];
      (Ok(()), State(st.rides - {rideId}, bookings, st.nextId))
  }

  /** The deletion timer of `ride.model.js` firing: the ride goes, its
      bookings stay behind. */
  function AutoDeleteRide(st: State, rideId: Id): (r: State)
    ensures rideId !in r.rides && r.bookings == st.bookings && r.nextId == st.nextId
    ensures forall id :: id in r.rides <==> id in st.rides && id != rideId
    ensures forall id :: id in r.rides ==> r.rides[id] == st.rides[id]
  {
    st.(rides := st.rides - {rideId})
  }

  // ---------------------------------------------------------------- listings

  /** `viewAllride`: the ids of the listed rides, or a 404 when there are
      none. */
  function ViewAllRide(st: State): (r: Reply<set<Id>>)
    ensures r.Err? <==> forall id :: id in st.rides ==> st.rides[id].status != Listed
    ensures r.Err? ==> r == Err(404, "No rides listed")
    ensures r.Ok? ==> forall id :: id in r.value <==> id in st.rides && st.rides[id].status == Listed
  {
    var ids := set id | id in st.rides && st.rides[id].status == Listed;
    assert forall id :: id in st.rides && st.rides[id].status == Listed ==> id in ids;
    if ids == {} then Err(404, "No rides listed")
    else Ok(ids)
  }

  /** `mylistedRides`: the ids of the caller's rides in any status. */
  function MyListedRides(st: State, caller: Id): (r: Reply<set<Id>>)
    ensures r.Err? <==> forall id :: id in st.rides ==> st.rides[id].driver != caller
    ensures r.Err? ==> r == Err(404, "You have no listed rides")
    ensures r.Ok? ==> forall id :: id in r.value <==> id in st.rides && st.rides[id].driver == caller
  {
    var ids := set id | id in st.rides && st.rides[id].driver == caller;
    assert forall id :: id in st.rides && st.rides[id].driver == caller ==> id in ids;
    if ids == {} then Err(404, "You have no listed rides")
    else Ok(ids)
  }

  /** A pending booking on one of the caller's rides. */
  predicate PendingRequestTo(st: State, caller: Id, b: Id)
  {
    b in st.bookings && st.bookings[b].status == Pending
    && st.bookings[b].ride in st.rides && st.rides[st.bookings[b].ride].driver == caller
  }

  /** `viewBookingReq`: the pending bookings on the caller's rides. */
  function ViewBookingReq(st: State, caller: Id): (r: Reply<set<Id>>)
    ensures (forall id :: id in st.rides ==> st.rides[id].driver != caller) ==> r == Err(404, "You have no rides listed")
    ensures (exists id :: id in st.rides && st.rides[id].driver == caller) && r.Err? ==>
      r == Err(404, "No pending booking requests")
    ensures r.Ok? <==> exists b :: PendingRequestTo(st, caller, b)
    ensures r.Ok? ==> r.value != {}
    ensures r.Ok? ==> forall b :: b in r.value <==> PendingRequestTo(st, caller, b)
    ensures r.Err? ==> r.status == 404
  {
    var mine := set id | id in st.rides && st.rides[id].driver == caller;
    assert forall id :: id in st.rides && st.rides[id].driver == caller ==> id in mine;
    if mine == {} then Err(404, "You have no rides listed")
    else
      var pending := set b | b in st.bookings && st.bookings[b].status == Pending && st.bookings[b].ride in mine;
      assert forall b :: PendingRequestTo(st, caller, b) <==> b in pending;
      if pending == {} then
        assert forall b :: !PendingRequestTo(st, caller, b) by {
          forall b ensures !PendingRequestTo(st, caller, b) { assert b !in pending; }
        }
        Err(404, "No pending booking requests")
      else Ok(pending)
  }

  // ---------------------------------------------------------------- bookRide

  /** `bookRide`'s checks, in order, and the fare when all pass. */
  function BookingCheck(st: State, passenger: Id, rideId: Id, destn: Option<string>): (r: Reply<int>)
    ensures rideId !in st.rides ==> r == Err(404, "Ride not found")
    ensures rideId in st.rides ==>
      var ride := st.rides[rideId];
      && (ride.driver == passenger ==> r == Err(400, "You cannot book your own ride"))
      && (ride.driver != passenger && ride.status != Listed ==> r == Err(400, "Ride already booked or unavailable"))
      && (ride.driver != passenger && ride.status == Listed && HasBooking(st, rideId, Pending) ==>
            r == Err(400, "This ride already has a pending booking"))
      && ((ride.driver != passenger && ride.status == Listed && !HasBooking(st, rideId, Pending)
           && PriceFor(ride, destn).None?) ==> r == Err(400, "Invalid destination"))
    ensures r.Ok? <==>
      && rideId in st.rides && st.rides[rideId].driver != passenger && st.rides[rideId].status == Listed
      && !HasBooking(st, rideId, Pending) && PriceFor(st.rides[rideId], destn).Some?
    ensures r.Ok? ==> Some(r.value) == PriceFor(st.rides[rideId], destn)
  {
    if rideId !in st.rides then Err(404, "Ride not found")
    else
      var ride := st.rides[rideId];
      if ride.driver == passenger then Err(400, "You cannot book your own ride")
      else if ride.status != Listed then Err(400, "Ride already booked or unavailable")
      else if HasBooking(st, rideId, Pending) then Err(400, "This ride already has a pending booking")
      else match PriceFor(ride, destn)
        case None => Err(400, "Invalid destination")
        case Some(p) => Ok(p)
  }

  /** The passenger already has a booking on the ride, in any status. */
  predicate HasRequested(st: State, rideId: Id, passenger: Id)
  {
    exists b :: b in st.bookings && st.bookings[b].ride == rideId && st.bookings[b].passenger == passenger
  }

  /** `booking.save()`: the cast and validation first (a failure is caught as
      a 500), then the unique index on (ride, passenger) (error 11000, which
      the handler turns into a 400). */
  function SaveBooking(st: State, input: BookingInput): (r: (Reply<Id>, State))
    ensures CastBooking(input).None? ==> r == (Err(500, "Error while booking ride"), st)
    ensures CastBooking(input).Some? && HasRequested(st, input.ride, input.passenger) ==>
      r == (Err(400, "You have already requested this ride"), st)
    ensures r.0.Ok? <==> CastBooking(input).Some? && !HasRequested(st, input.ride, input.passenger)
    ensures r.0.Ok? ==>
      r.0.value == st.nextId && r.1 == State(st.rides, st.bookings[st.nextId := CastBooking(input).value], st.nextId + 1)
  {
    match CastBooking(input)
    case None => (Err(500, "Error while booking ride"), st)
    case Some(b) =>
      if HasRequested(st, input.ride, input.passenger) then (Err(400, "You have already requested this ride"), st)
      else (Ok(st.nextId), State(st.rides, st.bookings[st.nextId := b], st.nextId + 1))
  }

  /** The object `bookRide` builds: one seat and a total price, the fields
      the booking schema does not declare. */
  function ControllerInput(rideId: Id, passenger: Id, price: int): BookingInput
  {
    BookingInput(rideId, passenger, Some(1), Some(price), None, None, Pending)
  }

  /** `bookRide` as written. */
  function BookRideAsWritten(st: State, passenger: Id, rideId: Id, destn: Option<string>): (r: (Reply<Id>, State))
    ensures r.1 == st
    ensures BookingCheck(st, passenger, rideId, destn).Err? ==>
      r.0 == Err(BookingCheck(st, passenger, rideId, destn).status, BookingCheck(st, passenger, rideId, destn).message)
    ensures BookingCheck(st, passenger, rideId, destn).Ok? ==> r.0 == Err(500, "Error while booking ride")
  {
    match BookingCheck(st, passenger, rideId, destn)
    case Err(code, msg) => (Err(code, msg), st)
    case Ok(price) => SaveBooking(st, ControllerInput(rideId, passenger, price))
  }

  /** The object the booking schema asks for: the destination chosen and its
      fare. */
  function IntendedInput(rideId: Id, passenger: Id, destination: string, price: int): BookingInput
  {
    BookingInput(rideId, passenger, None, None, Some(destination), Some(price), Pending)
  }

  /** `bookRide` storing the record its schema describes. */
  function BookRide(st: State, passenger: Id, rideId: Id, destn: Option<string>): (r: (Reply<Id>, State))
    ensures BookingCheck(st, passenger, rideId, destn).Err? ==>
      r == (Err(BookingCheck(st, passenger, rideId, destn).status, BookingCheck(st, passenger, rideId, destn).message), st)
    ensures r.0.Err? ==> r.1 == st
    ensures WellFormed(st) ==>
      (r.0.Ok? <==> BookingCheck(st, passenger, rideId, destn).Ok? && !HasRequested(st, rideId, passenger))
    ensures r.0.Ok? ==>
      && r.0.value == st.nextId && r.1.rides == st.rides && r.1.nextId == st.nextId + 1
      && r.1.bookings == st.bookings[st.nextId := Booking(rideId, passenger, destn.value,
                                                          PriceFor(st.rides[rideId], destn).value, Pending)]
  {
    match BookingCheck(st, passenger, rideId, destn)
    case Err(code, msg) => (Err(code, msg), st)
    case Ok(price) =>
      assert WellFormed(st) ==> destn.value != "" by {
        if WellFormed(st) {
          var ride := st.rides[rideId];
          assert ValidRide(ride);
          if destn.value != ride.to {
            var i :| 0 <= i < |ride.via| && ride.via[i].location == destn.value;
          }
        }
      }
      SaveBooking(st, IntendedInput(rideId, passenger, destn.value, price))
  }

  // ---------------------------------------------------------------- decideBookingReq

  /** `decideBookingReq`. A booking whose ride the deletion timer removed
      cannot be decided: reading the ride's driver throws, which the handler
      reports as a 500. */
  function DecideBookingReq(st: State, caller: Id, bookingId: Id, decision: Option<string>): (r: (Reply<Booking>, State))
    ensures decision != Some("accepted") && decision != Some("rejected") ==>
      r == (Err(400, "Decision must be 'accepted' or 'rejected'"), st)
    ensures (decision == Some("accepted") || decision == Some("rejected")) ==>
      && (bookingId !in st.bookings ==> r == (Err(404, "Booking not found"), st))
      && (bookingId in st.bookings && st.bookings[bookingId].ride !in st.rides ==>
            r == (Err(500, "Error while deciding booking request"), st))
      && (bookingId in st.bookings && st.bookings[bookingId].ride in st.rides
          && st.rides[st.bookings[bookingId].ride].driver != caller ==>
            r == (Err(403, "You are not authorized to decide this booking"), st))
      && (bookingId in st.bookings && st.bookings[bookingId].ride in st.rides
          && st.rides[st.bookings[bookingId].ride].driver == caller && st.bookings[bookingId].status != Pending ==>
            r == (Err(400, "Booking has already been decided"), st))
    ensures r.0.Ok? <==>
      && (decision == Some("accepted") || decision == Some("rejected"))
      && bookingId in st.bookings && st.bookings[bookingId].ride in st.rides
      && st.rides[st.bookings[bookingId].ride].driver == caller
      && st.bookings[bookingId].status == Pending
    ensures r.0.Err? ==> r.1 == st
    ensures r.0.Ok? ==>
      var b := st.bookings[bookingId];
      var ride := st.rides[b.ride];
      && r.0.value == b.(status := if decision == Some("accepted") then Accepted else Rejected)
      && r.1 == State(st.rides[b.ride := ride.(status := if decision == Some("accepted") then BookingAccepted else Listed)],
                      st.bookings[bookingId := r.0.value], st.nextId)
  {
    if decision != Some("accepted") && decision != Some("rejected") then
      (Err(400, "Decision must be 'accepted' or 'rejected'"), st)
    else if bookingId !in st.bookings then (Err(404, "Booking not found"), st)
    else
      var b := st.bookings[bookingId];
      if b.ride !in st.rides then (Err(500, "Error while deciding booking request"), st)
      else if st.rides[b.ride].driver != caller then (Err(403, "You are not authorized to decide this booking"), st)
      else if b.status != Pending then (Err(400, "Booking has already been decided"), st)
      else
        var accepted := decision == Some("accepted");
        (Ok(b.(status := if accepted then Accepted else Rejected)), Decided(st, bookingId, accepted))
  }

  // ---------------------------------------------------------------- invariants

  lemma CreateRidePreserves(st: State, driver: Id, f: RideForm)
    requires WellFormed(st) && SingleWinner(st)
    ensures WellFormed(CreateRide(st, driver, f).1) && SingleWinner(CreateRide(st, driver, f).1)
  {
    var r := CreateRide(st, driver, f);
    if r.0.Ok? {
      var id := r.0.value;
      var st' := r.1;
      assert !HasBooking(st', id, Accepted);
      forall x | x in st'.rides
        ensures st'.rides[x].status == BookingAccepted <==> HasBooking(st', x, Accepted)
      {
        if x != id { assert HasBooking(st', x, Accepted) == HasBooking(st, x, Accepted); }
      }
    }
  }

  lemma UpdateRideKeepsWellFormed(st: State, caller: Id, rideId: Id, u: RideUpdate)
    requires WellFormed(st)
    ensures WellFormed(UpdateRide(st, caller, rideId, u).1)
  {
  }

  lemma DeleteRidePreserves(st: State, caller: Id, rideId: Id)
    requires WellFormed(st) && SingleWinner(st)
    ensures WellFormed(DeleteRide(st, caller, rideId).1) && SingleWinner(DeleteRide(st, caller, rideId).1)
  {
    var r := DeleteRide(st, caller, rideId);
    if r.0.Ok? {
      var st' := r.1;
      forall x | x in st'.rides
        ensures st'.rides[x].status == BookingAccepted <==> HasBooking(st', x, Accepted)
      {
        if HasBooking(st, x, Accepted) {
          var b :| b in st.bookings && st.bookings[b].ride == x && st.bookings[b].status == Accepted;
          assert b in st'.bookings;
        }
      }
    }
  }

  lemma AutoDeleteRidePreserves(st: State, rideId: Id)
    requires WellFormed(st) && SingleWinner(st)
    ensures WellFormed(AutoDeleteRide(st, rideId)) && SingleWinner(AutoDeleteRide(st, rideId))
  {
    var st' := AutoDeleteRide(st, rideId);
    forall x | x in st'.rides
      ensures st'.rides[x].status == BookingAccepted <==> HasBooking(st', x, Accepted)
    {
      assert HasBooking(st', x, Accepted) == HasBooking(st, x, Accepted);
    }
  }

  lemma BookRidePreserves(st: State, passenger: Id, rideId: Id, destn: Option<string>)
    requires WellFormed(st) && SingleWinner(st)
    ensures WellFormed(BookRide(st, passenger, rideId, destn).1) && SingleWinner(BookRide(st, passenger, rideId, destn).1)
  {
    var r := BookRide(st, passenger, rideId, destn);
    if r.0.Ok? {
      var st' := r.1;
      var id := st.nextId;
      assert id !in st.bookings;
      assert !HasBooking(st, rideId, Pending);
      forall x | x in st'.rides
        ensures st'.rides[x].status == BookingAccepted <==> HasBooking(st', x, Accepted)
      {
        if HasBooking(st', x, Accepted) {
          var b :| b in st'.bookings && st'.bookings[b].ride == x && st'.bookings[b].status == Accepted;
          assert b != id && b in st.bookings;
        }
        if HasBooking(st, x, Accepted) {
          var b :| b in st.bookings && st.bookings[b].ride == x && st.bookings[b].status == Accepted;
          assert b in st'.bookings && st'.bookings[b] == st.bookings[b];
        }
      }
      forall a, b | a in st'.bookings && b in st'.bookings && a != b
        ensures st'.bookings[a].ride != st'.bookings[b].ride || st'.bookings[a].passenger != st'.bookings[b].passenger
      {
        if a == id { assert b in st.bookings; }
        else if b == id { assert a in st.bookings; }
      }
    }
  }

  /** What a successful decision does to the store. */
  function Decided(st: State, bookingId: Id, accepted: bool): State
    requires bookingId in st.bookings && st.bookings[bookingId].ride in st.rides
  {
    var b := st.bookings[bookingId];
    State(st.rides[b.ride := st.rides[b.ride].(status := if accepted then BookingAccepted else Listed)],
          st.bookings[bookingId := b.(status := if accepted then Accepted else Rejected)], st.nextId)
  }

  /** The facts a successful decision starts from. */
  ghost predicate Decidable(st: State, bookingId: Id)
  {
    && WellFormed(st) && SingleWinner(st)
    && bookingId in st.bookings && st.bookings[bookingId].ride in st.rides
    && st.bookings[bookingId].status == Pending
  }

  lemma DecidedAtMostOne(st: State, bookingId: Id, accepted: bool, s: BookingStatus)
    requires Decidable(st, bookingId) && (s == Pending || s == Accepted)
    ensures AtMostOne(Decided(st, bookingId, accepted), s)
  {
    var st' := Decided(st, bookingId, accepted);
    var rid := st.bookings[bookingId].ride;
    assert !HasBooking(st, rid, Accepted);
    forall a, c | a in st'.bookings && c in st'.bookings && st'.bookings[a].ride == st'.bookings[c].ride
                  && st'.bookings[a].status == s && st'.bookings[c].status == s
      ensures a == c
    {
      assert a != bookingId ==> st.bookings[a] == st'.bookings[a];
      assert c != bookingId ==> st.bookings[c] == st'.bookings[c];
    }
  }

  lemma DecidedPendingRideListed(st: State, bookingId: Id, accepted: bool)
    requires Decidable(st, bookingId)
    ensures PendingRideListed(Decided(st, bookingId, accepted))
  {
    var st' := Decided(st, bookingId, accepted);
    var rid := st.bookings[bookingId].ride;
    forall x | x in st'.bookings && st'.bookings[x].status == Pending && st'.bookings[x].ride in st'.rides
      ensures st'.rides[st'.bookings[x].ride].status == Listed
    {
      assert x != bookingId && st.bookings[x] == st'.bookings[x];
    }
  }

  lemma DecidedAcceptedMatchesStatus(st: State, bookingId: Id, accepted: bool)
    requires Decidable(st, bookingId)
    ensures AcceptedMatchesStatus(Decided(st, bookingId, accepted))
  {
    var st' := Decided(st, bookingId, accepted);
    var rid := st.bookings[bookingId].ride;
    assert st.rides[rid].status == Listed;
    assert !HasBooking(st, rid, Accepted);
    forall x | x in st'.rides
      ensures st'.rides[x].status == BookingAccepted <==> HasBooking(st', x, Accepted)
    {
      if x == rid {
        if accepted {
          assert st'.bookings[bookingId].ride == rid && st'.bookings[bookingId].status == Accepted;
        } else {
          forall c | c in st'.bookings && st'.bookings[c].ride == rid ensures st'.bookings[c].status != Accepted {
            if c != bookingId { assert st.bookings[c] == st'.bookings[c]; }
          }
        }
      } else {
        if HasBooking(st', x, Accepted) {
          var c :| c in st'.bookings && st'.bookings[c].ride == x && st'.bookings[c].status == Accepted;
          assert c in st.bookings && st.bookings[c] == st'.bookings[c];
        }
        if HasBooking(st, x, Accepted) {
          var c :| c in st.bookings && st.bookings[c].ride == x && st.bookings[c].status == Accepted;
          assert c in st'.bookings && st'.bookings[c] == st.bookings[c];
        }
      }
    }
  }

  lemma DecidePreserves(st: State, caller: Id, bookingId: Id, decision: Option<string>)
    requires WellFormed(st) && SingleWinner(st)
    ensures WellFormed(DecideBookingReq(st, caller, bookingId, decision).1)
    ensures SingleWinner(DecideBookingReq(st, caller, bookingId, decision).1)
  {
    var r := DecideBookingReq(st, caller, bookingId, decision);
    if r.0.Ok? {
      var accepted := decision == Some("accepted");
      assert r.1 == Decided(st, bookingId, accepted);
      DecidedAtMostOne(st, bookingId, accepted, Pending);
      DecidedAtMostOne(st, bookingId, accepted, Accepted);
      DecidedPendingRideListed(st, bookingId, accepted);
      DecidedAcceptedMatchesStatus(st, bookingId, accepted);
      var st' := r.1;
      forall a, c | a in st'.bookings && c in st'.bookings && a != c
        ensures st'.bookings[a].ride != st'.bookings[c].ride || st'.bookings[a].passenger != st'.bookings[c].passenger
      {
        assert st'.bookings[a].ride == st.bookings[a].ride && st'.bookings[a].passenger == st.bookings[a].passenger;
        assert st'.bookings[c].ride == st.bookings[c].ride && st'.bookings[c].passenger == st.bookings[c].passenger;
      }
    }
  }

  // ---------------------------------------------------------------- consequences

  /** Deciding twice fails the second time, whatever the second decision. */
  lemma DecideTwiceFails(st: State, caller: Id, bookingId: Id, d1: Option<string>, d2: Option<string>)
    requires DecideBookingReq(st, caller, bookingId, d1).0.Ok?
    requires d2 == Some("accepted") || d2 == Some("rejected")
    ensures var st1 := DecideBookingReq(st, caller, bookingId, d1).1;
      DecideBookingReq(st1, caller, bookingId, d2) == (Err(400, "Booking has already been decided"), st1)
  {
  }

  /** A passenger whose request was rejected cannot ask again: the unique
      index still holds the rejected booking. */
  lemma RejectedPassengerCannotRebook(st: State, caller: Id, bookingId: Id, destn: Option<string>)
    requires WellFormed(st)
    requires DecideBookingReq(st, caller, bookingId, Some("rejected")).0.Ok?
    ensures var b := st.bookings[bookingId];
      var st1 := DecideBookingReq(st, caller, bookingId, Some("rejected")).1;
      BookRide(st1, b.passenger, b.ride, destn).0.Ok? == false
  {
    var b := st.bookings[bookingId];
    var st1 := DecideBookingReq(st, caller, bookingId, Some("rejected")).1;
    assert st1.bookings[bookingId].ride == b.ride && st1.bookings[bookingId].passenger == b.passenger;
    assert HasRequested(st1, b.ride, b.passenger);
  }

  /** Once a booking is accepted nobody else can book the ride, and rejecting
      a request opens the ride to others again. */
  lemma AcceptClosesRejectReopens(st: State, caller: Id, bookingId: Id, other: Id, destn: Option<string>)
    requires WellFormed(st) && SingleWinner(st)
    requires DecideBookingReq(st, caller, bookingId, Some("accepted")).0.Ok?
    ensures var st1 := DecideBookingReq(st, caller, bookingId, Some("accepted")).1;
      BookRide(st1, other, st.bookings[bookingId].ride, destn).0 == Err(400, "You cannot book your own ride")
      || BookRide(st1, other, st.bookings[bookingId].ride, destn).0 == Err(400, "Ride already booked or unavailable")
    ensures var st2 := DecideBookingReq(st, caller, bookingId, Some("rejected")).1;
      st2.rides[st.bookings[bookingId].ride].status == Listed && !HasBooking(st2, st.bookings[bookingId].ride, Pending)
  {
    var rid := st.bookings[bookingId].ride;
    var st2 := DecideBookingReq(st, caller, bookingId, Some("rejected")).1;
    forall c | c in st2.bookings && st2.bookings[c].ride == rid ensures st2.bookings[c].status != Pending {
      if c != bookingId { assert st.bookings[c] == st2.bookings[c]; }
    }
  }

  /** A ride just created appears among its driver's rides and among the
      listed rides; once its driver deletes it, it appears in neither. */
  lemma CreatedRideIsListed(st: State, driver: Id, f: RideForm)
    requires CreateRide(st, driver, f).0.Ok?
    ensures var (r, st1) := CreateRide(st, driver, f);
      && MyListedRides(st1, driver).Ok? && r.value in MyListedRides(st1, driver).value
      && ViewAllRide(st1).Ok? && r.value in ViewAllRide(st1).value
      && DeleteRide(st1, driver, r.value).0.Ok?
  {
    var (r, st1) := CreateRide(st, driver, f);
    assert r.value in st1.rides && st1.rides[r.value].driver == driver && st1.rides[r.value].status == Listed;
  }

  /** After a deletion the ride is gone from every listing. */
  lemma DeletedRideIsUnlisted(st: State, caller: Id, rideId: Id)
    requires DeleteRide(st, caller, rideId).0.Ok?
    ensures var st1 := DeleteRide(st, caller, rideId).1;
      && (MyListedRides(st1, caller).Ok? ==> rideId !in MyListedRides(st1, caller).value)
      && (ViewAllRide(st1).Ok? ==> rideId !in ViewAllRide(st1).value)
  {
  }

  /** A booking just stored is shown to the ride's driver as a request. */
  lemma BookedRequestIsShown(st: State, passenger: Id, rideId: Id, destn: Option<string>)
    requires BookRide(st, passenger, rideId, destn).0.Ok?
    ensures var (r, st1) := BookRide(st, passenger, rideId, destn);
      var driver := st.rides[rideId].driver;
      ViewBookingReq(st1, driver).Ok? && r.value in ViewBookingReq(st1, driver).value
  {
    var (r, st1) := BookRide(st, passenger, rideId, destn);
    assert PendingRequestTo(st1, st.rides[rideId].driver, r.value);
  }

  /** The listing shows exactly the rides whose status lets a booking
      through. */
  lemma ListedIsBookable(st: State, rideId: Id)
    requires rideId in st.rides
    ensures ViewAllRide(st).Ok? && rideId in ViewAllRide(st).value <==>
      BookingCheck(st, st.rides[rideId].driver + 1, rideId, Some(st.rides[rideId].to)) != Err(400, "Ride already booked or unavailable")
  {
  }

  /** Every request the driver is shown can be decided by that driver. */
  lemma ShownRequestsAreDecidable(st: State, caller: Id, bookingId: Id, decision: string)
    requires ViewBookingReq(st, caller).Ok? && bookingId in ViewBookingReq(st, caller).value
    requires decision == "accepted" || decision == "rejected"
    ensures DecideBookingReq(st, caller, bookingId, Some(decision)).0.Ok?
  {
  }

  /** `updateRide` is outside the invariant: a driver can mark a ride
      `booking_accepted` with no accepted booking. */
  lemma UpdateRideBreaksSingleWinner()
    ensures var ride := Ride(1, 0, "A", "B", 10, [], Listed, DefaultSeats);
      var st := State(map[0 := ride], map[], 1);
      var u := RideUpdate(NoDate, None, None, None, None, Some("booking_accepted"));
      && WellFormed(st) && SingleWinner(st)
      && UpdateRide(st, 1, 0, u).0.Ok?
      && !SingleWinner(UpdateRide(st, 1, 0, u).1)
  {
    var ride := Ride(1, 0, "A", "B", 10, [], Listed, DefaultSeats);
    var st := State(map[0 := ride], map[], 1);
    var u := RideUpdate(NoDate, None, None, None, None, Some("booking_accepted"));
    var st1 := UpdateRide(st, 1, 0, u).1;
    assert st1.rides[0].status == BookingAccepted;
    assert !HasBooking(st1, 0, Accepted);
  }

  /** The booking record `bookRide` builds lacks the schema's required
      `destination` and `price`: on a listed ride with no requests, a
      passenger asking for the final stop gets a 500 and nothing is stored,
      where the record the schema describes is stored as a pending request. */
  lemma BookingRecordMismatch()
    ensures var ride := Ride(1, 0, "A", "B", 10, [], Listed, DefaultSeats);
      var st := State(map[0 := ride], map[], 1);
      && WellFormed(st) && SingleWinner(st)
      && BookRideAsWritten(st, 2, 0, Some("B")) == (Err(500, "Error while booking ride"), st)
      && BookRide(st, 2, 0, Some("B")).0 == Ok(1)
      && BookRide(st, 2, 0, Some("B")).1.bookings[1] == Booking(0, 2, "B", 10, Pending)
  {
    var ride := Ride(1, 0, "A", "B", 10, [], Listed, DefaultSeats);
    var st := State(map[0 := ride], map[], 1);
    assert !HasBooking(st, 0, Pending);
    assert !HasRequested(st, 0, 2);
    assert PriceFor(ride, Some("B")) == Some(10);
  }
}

=== FILE: rides_page.dfy ===
/** The logic of the rides page (`Rides.jsx`): the request a new ride sends,
    the destination menu and the choice read from it, the fare label on a
    ride card, the booking status badge, and when the cancel button shows.
    Each is related to what the ride handlers do with it. */
module RidesPage {
  import opened Common
  import opened Text
  import opened RideModel
  import Rides

  // ---------------------------------------------------------------- new ride

  /** The form's text inputs. */
  datatype RideDraft = RideDraft(from: string, to: string, via: string, departure: string, price: string)

  /** A stop as sent: `parseInt` of the price text, `None` for `NaN`. */
  datatype SentStop = SentStop(location: string, price: Option<int>)

  /** The JSON body `createRide` posts. */
  datatype RidePayload = RidePayload(from: string, to: string, via: seq<SentStop>, departure: string, price: Option<int>)

  /** `createRide`: nothing is sent while a required input is empty; a
      filled-in stop is sent as the one intermediate stop, priced like the
      whole ride. */
  function RidePayloadOf(d: RideDraft): (r: Option<RidePayload>)
    ensures r.None? <==> d.from == "" || d.to == "" || d.departure == "" || d.price == ""
    ensures r.Some? ==> r.value.from == d.from && r.value.to == d.to && r.value.departure == d.departure
                        && r.value.price == ParseInt(d.price)
    ensures r.Some? ==> (d.via == "" <==> r.value.via == [])
    ensures r.Some? ==> |r.value.via| <= 1
                        && forall i :: 0 <= i < |r.value.via| ==> r.value.via[i] == SentStop(d.via, r.value.price)
  {
    if d.from == "" || d.to == "" || d.departure == "" || d.price == "" then None
    else
      var p := ParseInt(d.price);
      Some(RidePayload(d.from, d.to, if d.via != "" then [SentStop(d.via, p)] else [], d.departure, p))
  }

  /** The ride the server would build from the page's payload, once the
      departure text has been read as the instant `departure`. */
  function ServerForm(p: RidePayload, departure: int): Rides.RideForm
  {
    var via := seq(|p.via|, i requires 0 <= i < |p.via| => ViaStop(p.via[i].location, if p.via[i].price.Some? then p.via[i].price.value else 0));
    Rides.RideForm(DateAt(departure), Some(p.from), Some(p.to), Some(via), p.price)
  }

  /** A ride created from the page charges the same fare for every
      destination it offers: the form's price. (`CreateRide` stores exactly
      `NewRide` of the form it accepts.) */
  lemma PageRidesHaveOneFare(driver: Id, d: RideDraft, departure: int, destn: string)
    requires RidePayloadOf(d).Some? && Rides.FieldsGiven(ServerForm(RidePayloadOf(d).value, departure))
    ensures var ride := Rides.NewRide(driver, ServerForm(RidePayloadOf(d).value, departure));
      PriceFor(ride, Some(destn)).Some? ==> PriceFor(ride, Some(destn)) == ParseInt(d.price)
  {
    var f := ServerForm(RidePayloadOf(d).value, departure);
    PayloadHasOneFare(d, departure);
    var ride := Rides.NewRide(driver, f);
    assert forall i :: 0 <= i < |ride.via| ==> ride.via[i].price == f.via.value[i].price;
    OneFareRide(ride, f.price.value, destn);
  }

  /** The form the server reads from the page's payload prices every stop
      like the whole ride. */
  lemma PayloadHasOneFare(d: RideDraft, departure: int)
    requires d.from != "" && d.to != "" && d.departure != "" && d.price != ""
    ensures var f := ServerForm(RidePayloadOf(d).value, departure);
      f.price == ParseInt(d.price) && f.via.Some?
      && (f.price.Some? ==> forall i :: 0 <= i < |f.via.value| ==> f.via.value[i].price == f.price.value)
  {
  }

  /** A ride whose stops all cost its own price charges that price for
      every destination. */
  lemma OneFareRide(ride: Ride, fare: int, destn: string)
    requires ride.price == fare
    requires forall i :: 0 <= i < |ride.via| ==> ride.via[i].price == fare
    ensures PriceFor(ride, Some(destn)).Some? ==> PriceFor(ride, Some(destn)).value == fare
  {
  }

  // ---------------------------------------------------------------- destinations

  /** The destination menu: the intermediate stops in order, then the final
      one. */
  function Destinations(ride: Ride): (d: seq<string>)
    ensures |d| == |ride.via| + 1 && d[|ride.via|] == ride.to
    ensures forall i :: 0 <= i < |ride.via| ==> d[i] == ride.via[i].location
  {
    seq(|ride.via|, i requires 0 <= i < |ride.via| => ride.via[i].location) + [ride.to]
  }

  /** Every destination the menu offers has a fare on the server. */
  lemma DestinationsArePriced(ride: Ride, i: nat)
    requires i < |Destinations(ride)|
    ensures PriceFor(ride, Some(Destinations(ride)[i])).Some?
  {
    if i < |ride.via| {
      assert ride.via[i].location == Destinations(ride)[i];
    }
  }

  /** The destination `bookRide` sends: the only one without asking, or the
      one whose 1-based number the passenger typed; `None` when the answer
      (`None` for a dismissed prompt) is not a number in range, which shows
      "Invalid destination selection" and sends nothing. */
  function ChooseDestination(ride: Ride, answer: Option<string>): (r: Option<string>)
    ensures |Destinations(ride)| == 1 ==> r == Some(ride.to)
    ensures |Destinations(ride)| > 1 ==>
      (r.Some? <==> answer.Some? && ParseInt(answer.value).Some? && 1 <= ParseInt(answer.value).value <= |Destinations(ride)|)
    ensures r.Some? ==> r.value in Destinations(ride)
  {
    var d := Destinations(ride);
    if |d| == 1 then Some(d[0])
    else if answer.None? then None
    else match ParseInt(answer.value)
      case None => None
      case Some(n) => if 1 <= n <= |d| then Some(d[n - 1]) else None
  }

  /** An answer in `parseInt`'s hexadecimal form selects like its value:
      `0x2` picks the second destination. */
  lemma HexAnswerSelects(ride: Ride)
    requires |Destinations(ride)| >= 2
    ensures ChooseDestination(ride, Some("0x2")) == Some(Destinations(ride)[1])
  {
    var a := "0x2";
    assert TrimStart(a) == a && SignFree(a) == a && HexMarked(a) && a[2..] == "2";
    assert HexPrefix("2") == "2";
    assert HexValue("2") == 2 by { assert "2"[..0] == ""; }
    assert ParseInt(a) == Some(2);
  }

  /** Typing the number shown next to a destination selects it, and the
      server prices what was selected. */
  lemma TypedNumberSelects(ride: Ride, n: nat)
    requires 1 <= n <= |Destinations(ride)|
    ensures ChooseDestination(ride, Some(NatToDecimal(n))) == Some(Destinations(ride)[n - 1])
    ensures PriceFor(ride, ChooseDestination(ride, Some(NatToDecimal(n)))).Some?
  {
    ParseDecimal(n);
    DestinationsArePriced(ride, n - 1);
  }

  // ---------------------------------------------------------------- fare label

  /** The lowest of `p` and the stops' fares. */
  function LowestFare(p: int, via: seq<ViaStop>): (m: int)
    ensures m <= p && forall i :: 0 <= i < |via| ==> m <= via[i].price
    ensures m == p || exists i :: 0 <= i < |via| && m == via[i].price
    decreases |via|
  {
    if |via| == 0 then p
    else
      var rest := LowestFare(p, via[1..]);
      assert forall i :: 1 <= i < |via| ==> via[i] == via[1..][i - 1];
      if via[0].price < rest then via[0].price else rest
  }

  /** The highest of `p` and the stops' fares. */
  function HighestFare(p: int, via: seq<ViaStop>): (m: int)
    ensures m >= p && forall i :: 0 <= i < |via| ==> m >= via[i].price
    ensures m == p || exists i :: 0 <= i < |via| && m == via[i].price
    decreases |via|
  {
    if |via| == 0 then p
    else
      var rest := HighestFare(p, via[1..]);
      assert forall i :: 1 <= i < |via| ==> via[i] == via[1..][i - 1];
      if via[0].price > rest then via[0].price else rest
  }

  /** A ride card's fare label: one fare, or a range. */
  datatype FareLabel = OneFare(fare: int) | FareRange(low: int, high: int)

  /** `getPriceDisplay`. */
  function FareLabelOf(ride: Ride): (l: FareLabel)
    ensures |ride.via| == 0 ==> l == OneFare(ride.price)
    ensures l.FareRange? ==> l.low < l.high
  {
    if |ride.via| == 0 then OneFare(ride.price)
    else
      var lo := LowestFare(ride.price, ride.via);
      var hi := HighestFare(ride.price, ride.via);
      if lo == hi then OneFare(lo) else FareRange(lo, hi)
  }

  /** The fare a passenger is charged for any destination lies within the
      label; a single-fare label is exactly the fare charged. */
  lemma ChargedFareWithinLabel(ride: Ride, destn: Option<string>)
    requires PriceFor(ride, destn).Some?
    ensures var p := PriceFor(ride, destn).value;
      match FareLabelOf(ride)
      case OneFare(f) => p == f
      case FareRange(lo, hi) => lo <= p <= hi
  {
    PriceIsOffered(ride, destn);
    var lo := LowestFare(ride.price, ride.via);
    var hi := HighestFare(ride.price, ride.via);
    var p := PriceFor(ride, destn).value;
    if |ride.via| > 0 {
      assert lo <= p <= hi;
    }
  }

  /** The label's text: the rupee sign before each fare. */
  function FareText(l: FareLabel): string
  {
    match l
    case OneFare(f) => "\U{20B9}" + IntText(f)
    case FareRange(lo, hi) => "\U{20B9}" + IntText(lo) + " - \U{20B9}" + IntText(hi)
  }

  /** An integer in decimal, with a minus sign when negative. */
  function IntText(n: int): string
  {
    if n < 0 then "-" + NatToDecimal(-n) else NatToDecimal(n)
  }

  // ---------------------------------------------------------------- bookings

  /** The text of the booking status badge (`getStatusDisplay`): the five
      known statuses in capitals, anything else shown as pending. */
  function StatusBadge(status: string): (t: string)
    ensures status !in {"pending", "accepted", "rejected", "cancelled", "completed"} ==> t == "PENDING"
  {
    if status == "accepted" then "ACCEPTED"
    else if status == "rejected" then "REJECTED"
    else if status == "cancelled" then "CANCELLED"
    else if status == "completed" then "COMPLETED"
    else "PENDING"
  }

  /** Every status a stored booking can have is shown under its own name,
      in capitals. */
  lemma BadgeNamesStoredStatus(s: BookingStatus)
    ensures StatusBadge(BookingStatusName(s)) == Upper(BookingStatusName(s))
    ensures s != Pending ==> StatusBadge(BookingStatusName(s)) != "PENDING"
  {
  }

  /** `s` in capitals. */
  function Upper(s: string): (r: string)
    ensures |r| == |s|
  {
    seq(|s|, i requires 0 <= i < |s| => if 'a' <= s[i] <= 'z' then (s[i] as int - 32) as char else s[i])
  }

  /** The cancel button shows for pending and accepted bookings. */
  predicate ShowsCancel(status: string)
  {
    status == "pending" || status == "accepted"
  }

  /** The button shows for exactly the bookings that are still open. */
  lemma CancelShownForOpenBookings(s: BookingStatus)
    ensures ShowsCancel(BookingStatusName(s)) <==> s == Pending || s == Accepted
  {
  }
}

=== FILE: signup.dfy ===
/** Signup by e-mail code (`auth.controller.js`): `sendOtp` stores the form in
    a ticket and mails the code; `verifyOtp` checks the code and creates the
    user, pending an administrator's approval. */
module Signup {
  import opened Common
  import opened Text
  import Otp
  import opened Accounts

  /** The request body of `sendOtp`; `None` is a missing field. */
  datatype SignupForm = SignupForm(name: Option<string>, email: Option<string>, usn: Option<string>,
                                   password: Option<string>, role: Option<string>)

  predicate Complete(f: SignupForm)
  {
    Present(f.name) && Present(f.email) && Present(f.usn) && Present(f.password) && Present(f.role)
  }

  /** The form of an e-mail the signup flow looks up and stores:
      lower-cased, then trimmed. */
  function NormalizeEmail(e: string): (r: string)
    ensures |r| <= |e|
    ensures forall i :: 0 <= i < |r| ==> !IsUpper(r[i])
    ensures |r| > 0 ==> !IsSpace(r[0]) && !IsSpace(r[|r| - 1])
  {
    TrimKeepsLower(Lower(e));
    Trim(Lower(e))
  }

  /** Normalizing is idempotent: a stored e-mail is its own lookup key. */
  lemma NormalizeEmailIdempotent(e: string)
    ensures NormalizeEmail(NormalizeEmail(e)) == NormalizeEmail(e)
  {
    var n := NormalizeEmail(e);
    LowerOfLower(n);
    TrimIdempotent(Lower(e));
  }

  /** The ticket data `sendOtp` stores: the form, with the normalized e-mail. */
  function FormData(f: SignupForm): Otp.TicketData
    requires Complete(f)
  {
    Otp.SignupData(f.name.value, NormalizeEmail(f.email.value), f.usn.value, f.password.value, f.role.value)
  }

  /** `sendOtp`. `draw` is the random part of the code; `mailOk` says whether
      the mail was sent. The ticket is written before the mail goes out, so a
      mail failure turns the reply into a 500 but keeps the new ticket. */
  function SendOtp(s: Store, form: SignupForm, now: int, draw: nat, mailOk: bool): (r: (Reply<()>, Store))
    requires draw < Otp.OtpSpan
    ensures !Complete(form) ==> r == (Err(400, "Data missing"), s)
    ensures Complete(form) && FindByEmail(s.users, NormalizeEmail(form.email.value)).Some? ==>
      r == (Err(400, "Email already registered"), s)
    ensures r.0.Ok? <==>
      Complete(form) && FindByEmail(s.users, NormalizeEmail(form.email.value)).None? && mailOk
    ensures r.0 == Err(500, "Server error") <==>
      Complete(form) && FindByEmail(s.users, NormalizeEmail(form.email.value)).None? && !mailOk
    ensures r.1.users == s.users && r.1.nextUserId == s.nextUserId
    ensures WellFormed(s) ==> WellFormed(r.1)
    ensures r.1 != s ==> Complete(form) && IssuedFor(s, r.1, NormalizeEmail(form.email.value),
                                                      Otp.GenerateOtp(draw), now, FormData(form))
    ensures Complete(form) && FindByEmail(s.users, NormalizeEmail(form.email.value)).None? ==>
      IssuedFor(s, r.1, NormalizeEmail(form.email.value), Otp.GenerateOtp(draw), now, FormData(form))
  {
    if !Complete(form) then (Err(400, "Data missing"), s)
    else
      var email := NormalizeEmail(form.email.value);
      if FindByEmail(s.users, email).Some? then (Err(400, "Email already registered"), s)
      else
        var code := Otp.GenerateOtp(draw);
        var s' := s.(tickets := Otp.Issue(s.tickets, email, code, now, FormData(form)));
        if mailOk then (Ok(()), s') else (Err(500, "Server error"), s')
  }

  /** `s'` differs from `s` by one freshly issued ticket for `email`: the only
      ticket for that e-mail holds `code` and `data` and expires five minutes
      after `now`; the tickets of every other e-mail are untouched. */
  ghost predicate IssuedFor(s: Store, s': Store, email: string, code: string, now: int, data: Otp.TicketData)
  {
    && s'.users == s.users
    && (forall t :: t in s'.tickets && t.email != email <==> t in s.tickets && t.email != email)
    && Otp.FindTicket(s'.tickets, email).Some?
    && s'.tickets[Otp.FindTicket(s'.tickets, email).value] == Otp.Ticket(email, code, now + Otp.TicketLifetimeMs, data)
  }

  /** `verifyOtp`. Checks run in this order: both fields given, a ticket
      exists, the code matches, the ticket has not expired. Then the user is
      created as pending from the stored form and the ticket deleted. A ticket
      without a form (one issued for a password reset or an account deletion)
      makes the password hashing throw; a form the schema refuses, or an
      e-mail taken in the meantime, makes the creation throw: both are 500s
      that leave the ticket in place. */
  function VerifyOtp(s: Store, email: Option<string>, otp: Option<string>, now: int): (r: (Reply<()>, Store))
    ensures !Present(email) || !Present(otp) ==> r == (Err(400, "Email and OTP are required"), s)
    ensures Present(email) && Present(otp) ==>
      var c := Otp.CheckCode(s.tickets, NormalizeEmail(email.value), otp.value, now);
      && (c == Otp.NoTicket ==> r == (Err(400, "No OTP request found for this email"), s))
      && (c == Otp.WrongCode ==> r == (Err(400, "Invalid OTP"), s))
      && (c == Otp.Expired ==> r == (Err(400, "OTP expired"), s))
      && (r.0.Ok? <==> c.Valid? && c.ticket.data.SignupData? && Creatable(s, NormalizeEmail(email.value), c.ticket.data))
    ensures r.0.Ok? ==> Present(email) && Present(otp) && Joined(s, r.1, NormalizeEmail(email.value))
    ensures !r.0.Ok? ==> r.1 == s
    ensures WellFormed(s) ==> WellFormed(r.1)
  {
    if !Present(email) || !Present(otp) then (Err(400, "Email and OTP are required"), s)
    else
      var e := NormalizeEmail(email.value);
      match Otp.CheckCode(s.tickets, e, otp.value, now)
      case NoTicket => (Err(400, "No OTP request found for this email"), s)
      case WrongCode => (Err(400, "Invalid OTP"), s)
      case Expired => (Err(400, "OTP expired"), s)
      case Valid(t) =>
        match t.data
        case NoData => (Err(500, "Server error"), s)
        case SignupData(name, _, usn, password, role) =>
          match CreateUser(s, name, e, usn, Hash(password), role, Pending)
          case None => (Err(500, "Server error"), s)
          case Some(s1) => (Ok(()), s1.(tickets := Otp.DeleteOne(s1.tickets, e)))
  }

  /** The stored form passes the schema and its e-mail is still free. */
  predicate Creatable(s: Store, email: string, data: Otp.TicketData)
    requires data.SignupData?
  {
    ValidSignup(data.name, email, data.usn, data.role) && FindByEmail(s.users, email).None?
  }

  /** `s'` is `s` with one more user, pending, under `email`, and without the
      ticket for `email`. */
  ghost predicate Joined(s: Store, s': Store, email: string)
  {
    && |s'.users| == |s.users| + 1
    && s'.users[..|s.users|] == s.users
    && s'.users[|s.users|].email == email
    && s'.users[|s.users|].status == Pending
    && s'.users[|s.users|].id == s.nextUserId
    && (WellFormed(s) ==> Otp.FindTicket(s'.tickets, email).None?)
  }

  /** A successful verification consumes the ticket: the same request sent
      again finds no ticket. */
  lemma VerifyIsSingleUse(s: Store, email: Option<string>, otp: Option<string>, now: int)
    requires WellFormed(s)
    requires VerifyOtp(s, email, otp, now).0.Ok?
    ensures VerifyOtp(VerifyOtp(s, email, otp, now).1, email, otp, now)
            == (Err(400, "No OTP request found for this email"), VerifyOtp(s, email, otp, now).1)
  {
  }

  /** The code is still accepted at its expiry instant and refused one
      millisecond later; a wrong code is reported as wrong whatever the
      time, because the code is compared before the expiry. */
  lemma ExpiryIsInclusive(s: Store, email: string, otp: string, now: int)
    requires Otp.FindTicket(s.tickets, NormalizeEmail(email)).Some?
    requires email != "" && otp != ""
    ensures var t := s.tickets[Otp.FindTicket(s.tickets, NormalizeEmail(email)).value];
      && (t.otp != otp ==> VerifyOtp(s, Some(email), Some(otp), now).0 == Err(400, "Invalid OTP"))
      && (t.otp == otp && now == t.otpExpiry + 1 ==> VerifyOtp(s, Some(email), Some(otp), now).0 == Err(400, "OTP expired"))
      && (t.otp == otp && now == t.otpExpiry ==> VerifyOtp(s, Some(email), Some(otp), now).0 != Err(400, "OTP expired"))
  {
  }

  /** A request carrying the code of a live signup ticket succeeds exactly
      when the stored form can be created, and appends that user. */
  lemma VerifyLiveTicket(s: Store, email: string, code: string, later: int)
    requires email != "" && code != ""
    requires Otp.FindTicket(s.tickets, NormalizeEmail(email)).Some?
    requires var t := s.tickets[Otp.FindTicket(s.tickets, NormalizeEmail(email)).value];
      t.otp == code && later <= t.otpExpiry && t.data.SignupData?
    ensures var t := s.tickets[Otp.FindTicket(s.tickets, NormalizeEmail(email)).value];
      var r := VerifyOtp(s, Some(email), Some(code), later);
      && (r.0.Ok? <==> Creatable(s, NormalizeEmail(email), t.data))
      && (r.0.Ok? ==> r.1.users == s.users + [User(s.nextUserId, t.data.name, NormalizeEmail(email), t.data.usn,
                                                   Hash(t.data.password), ParseRole(t.data.role).value, Pending)])
  {
  }

  /** The whole signup: after `sendOtp` for a complete form with a free
      e-mail, sending the mailed code within five minutes creates the user,
      pending approval, exactly when the form passes the schema. */
  lemma SignupRoundTrip(s: Store, form: SignupForm, now: int, draw: nat, mailOk: bool, later: int)
    requires WellFormed(s) && draw < Otp.OtpSpan
    requires Complete(form) && FindByEmail(s.users, NormalizeEmail(form.email.value)).None?
    requires later <= now + Otp.TicketLifetimeMs
    ensures var s1 := SendOtp(s, form, now, draw, mailOk).1;
      var r := VerifyOtp(s1, form.email, Some(Otp.GenerateOtp(draw)), later);
      && (r.0.Ok? <==> ValidSignup(form.name.value, NormalizeEmail(form.email.value), form.usn.value, form.role.value))
      && (r.0.Ok? ==> r.1.users == s.users + [User(s.nextUserId, form.name.value, NormalizeEmail(form.email.value),
                                                   form.usn.value, Hash(form.password.value),
                                                   ParseRole(form.role.value).value, Pending)])
  {
    var e := NormalizeEmail(form.email.value);
    var code := Otp.GenerateOtp(draw);
    var ts := Otp.Issue(s.tickets, e, code, now, FormData(form));
    var s1 := s.(tickets := ts);
    assert SendOtp(s, form, now, draw, mailOk).1 == s1;
    assert Otp.FindTicket(ts, e) == Some(|ts| - 1);
    VerifyLiveTicket(s1, form.email.value, code, later);
  }
}

=== FILE: sorting.dfy ===
/** Listing a collection by a numeric field, largest first, as the
    database's `sort({ field: -1 })` returns it. The database leaves the
    order among equal keys open; the model fixes one (an earlier element
    of the input comes first), and the lemmas here say what holds for every
    order the database may choose. */
module Sorting {

  /** Largest key first. */
  predicate Descending<T>(s: seq<T>, key: T -> int)
  {
    forall i, j :: 0 <= i < j < |s| ==> key(s[i]) >= key(s[j])
  }

  /** `e` placed in front of the first element whose key is not larger. */
  function Insert<T(==)>(e: T, s: seq<T>, key: T -> int): (r: seq<T>)
    requires Descending(s, key)
    ensures Descending(r, key)
    ensures multiset(r) == multiset(s) + multiset{e}
    decreases |s|
  {
    if |s| == 0 || key(e) >= key(s[0]) then
      [e] + s
    else
      var t := Insert(e, s[1..], key);
      assert s == [s[0]] + s[1..];
      HeadIsLargest(e, s, t, key);
      ConsDescending(s[0], t, key);
      [s[0]] + t
  }

  /** After `e`, whose key is below the head's, is placed into the tail, the
      head still has the largest key. */
  lemma HeadIsLargest<T>(e: T, s: seq<T>, t: seq<T>, key: T -> int)
    requires Descending(s, key) && |s| > 0 && key(e) < key(s[0])
    requires multiset(t) == multiset(s[1..]) + multiset{e}
    ensures forall j :: 0 <= j < |t| ==> key(s[0]) >= key(t[j])
  {
    forall j | 0 <= j < |t| ensures key(s[0]) >= key(t[j]) {
      assert t[j] in multiset(t);
      if t[j] != e {
        assert t[j] in multiset(s[1..]);
        var i :| 0 <= i < |s[1..]| && s[1..][i] == t[j];
        assert s[i + 1] == t[j];
      }
    }
  }

  /** An element whose key is no smaller than any of a sorted list's can
      lead it. */
  lemma ConsDescending<T>(x: T, t: seq<T>, key: T -> int)
    requires Descending(t, key)
    requires forall j :: 0 <= j < |t| ==> key(x) >= key(t[j])
    ensures Descending([x] + t, key)
  {
    var r := [x] + t;
    forall i, j | 0 <= i < j < |r| ensures key(r[i]) >= key(r[j]) {
      assert r[j] == t[j - 1];
      if i > 0 { assert r[i] == t[i - 1]; }
    }
  }

  /** The same elements, largest key first. */
  function SortDescending<T(==)>(s: seq<T>, key: T -> int): (r: seq<T>)
    ensures Descending(r, key)
    ensures multiset(r) == multiset(s)
    decreases |s|
  {
    if |s| == 0 then []
    else
      assert s == [s[0]] + s[1..];
      Insert(s[0], SortDescending(s[1..], key), key)
  }

  /** Two descending arrangements of the same elements have the same key
      at every position: any order the database picks among equal keys
      gives the same sequence of keys. */
  lemma {:induction false} SortedKeysAgree<T>(x: seq<T>, y: seq<T>, key: T -> int)
    requires Descending(x, key) && Descending(y, key) && multiset(x) == multiset(y)
    ensures |x| == |y|
    ensures forall i :: 0 <= i < |x| ==> key(x[i]) == key(y[i])
    decreases |x|
  {
    assert |x| == |multiset(x)| == |multiset(y)| == |y|;
    if |x| > 0 {
      assert x[0] in multiset(y);
      var yi :| 0 <= yi < |y| && y[yi] == x[0];
      TopKeysAgree(x, y, yi, key);
      var y' := y[..yi] + y[yi + 1..];
      DropOne(y, yi, key);
      assert x == [x[0]] + x[1..];
      assert multiset(x[1..]) == multiset(y');
      SortedKeysAgree(x[1..], y', key);
      forall i | 0 < i < |x| ensures key(x[i]) == key(y[i]) {
        assert x[i] == x[1..][i - 1];
        if i - 1 < yi {
          assert y'[i - 1] == y[i - 1];
        } else {
          assert y'[i - 1] == y[i];
        }
      }
    }
  }

  /** The element at position `yi` of `y` is `x`'s first: then `y` opens
      with a run of that one key up to `yi`. */
  lemma TopKeysAgree<T>(x: seq<T>, y: seq<T>, yi: nat, key: T -> int)
    requires Descending(x, key) && Descending(y, key) && multiset(x) == multiset(y)
    requires 0 < |x| && yi < |y| && y[yi] == x[0]
    ensures forall k :: 0 <= k <= yi ==> key(y[k]) == key(x[0])
  {
    assert y[0] in multiset(x);
    var j :| 0 <= j < |x| && x[j] == y[0];
    assert key(x[0]) >= key(x[j]);
  }

  /** `y` without position `yi` is still descending, and its multiset loses
      exactly that element. */
  lemma DropOne<T>(y: seq<T>, yi: nat, key: T -> int)
    requires Descending(y, key) && yi < |y|
    ensures Descending(y[..yi] + y[yi + 1..], key)
    ensures multiset(y[..yi] + y[yi + 1..]) == multiset(y) - multiset{y[yi]}
  {
    var y' := y[..yi] + y[yi + 1..];
    assert y == y[..yi] + [y[yi]] + y[yi + 1..];
    forall i, j | 0 <= i < j < |y'| ensures key(y'[i]) >= key(y'[j]) {
      var i' := if i < yi then i else i + 1;
      var j' := if j < yi then j else j + 1;
      assert y'[i] == y[i'] && y'[j] == y[j'];
    }
  }

  /** Any contiguous slice of a descending list is descending. */
  lemma SliceDescending<T>(s: seq<T>, a: nat, b: nat, key: T -> int)
    requires Descending(s, key) && a <= b <= |s|
    ensures Descending(s[a..b], key)
  {
    var w := s[a..b];
    forall i, j | 0 <= i < j < |w| ensures key(w[i]) >= key(w[j]) {
      assert w[i] == s[a + i] && w[j] == s[a + j];
    }
  }
}

=== FILE: text.dfy ===
/** The JavaScript string operations the handlers and pages rely on:
    `toLowerCase` (over ASCII), `trim`, `includes`, `split(" ")`, the decimal
    form of a number, and `parseInt` without a radix (base ten, or base
    sixteen after a `0x` prefix). */
module Text {
  import opened Common

  // ---------------------------------------------------------------- case

  predicate IsUpper(c: char) { 'A' <= c <= 'Z' }

  function LowerChar(c: char): char
  {
    if IsUpper(c) then (c as int + 32) as char else c
  }

  /** `toLowerCase`, restricted to the ASCII letters. */
  function Lower(s: string): (r: string)
    ensures |r| == |s|
    ensures forall i :: 0 <= i < |r| ==> !IsUpper(r[i])
    ensures forall i :: 0 <= i < |r| ==> r[i] == s[i] || (IsUpper(s[i]) && r[i] as int == s[i] as int + 32)
  {
    seq(|s|, i requires 0 <= i < |s| => LowerChar(s[i]))
  }

  /** Lower-casing twice is lower-casing once. */
  lemma LowerIdempotent(s: string)
    ensures Lower(Lower(s)) == Lower(s)
  {
  }

  /** A string without upper-case letters is its own lower-case form. */
  lemma LowerOfLower(s: string)
    requires forall i :: 0 <= i < |s| ==> !IsUpper(s[i])
    ensures Lower(s) == s
  {
  }

  // ---------------------------------------------------------------- trim

  /** The characters `String.prototype.trim` removes: the ECMAScript
      WhiteSpace and LineTerminator code points. */
  predicate IsSpace(c: char)
  {
    || c == '\t' || c == '\n' || c == '\U{000B}' || c == '\U{000C}' || c == '\r' || c == ' '
    || c == '\U{00A0}' || c == '\U{1680}' || ('\U{2000}' <= c <= '\U{200A}')
    || c == '\U{2028}' || c == '\U{2029}' || c == '\U{202F}' || c == '\U{205F}'
    || c == '\U{3000}' || c == '\U{FEFF}'
  }

  predicate AllSpace(s: string)
  {
    forall i :: 0 <= i < |s| ==> IsSpace(s[i])
  }

  /** `trimStart`: drops the leading white space, keeps the rest verbatim. */
  function TrimStart(s: string): (r: string)
    ensures |r| <= |s| && r == s[|s| - |r|..]
    ensures AllSpace(s[..|s| - |r|])
    ensures |r| > 0 ==> !IsSpace(r[0])
    decreases |s|
  {
    if |s| > 0 && IsSpace(s[0]) then TrimStart(s[1..]) else s
  }

  /** `trimEnd`: drops the trailing white space, keeps the rest verbatim. */
  function TrimEnd(s: string): (r: string)
    ensures |r| <= |s| && r == s[..|r|]
    ensures AllSpace(s[|r|..])
    ensures |r| > 0 ==> !IsSpace(r[|r| - 1])
    decreases |s|
  {
    if |s| > 0 && IsSpace(s[|s| - 1]) then TrimEnd(s[..|s| - 1]) else s
  }

  /** `trim`: the text between the leading and the trailing white space. */
  function Trim(s: string): (r: string)
    ensures |r| <= |s|
    ensures |r| > 0 ==> !IsSpace(r[0]) && !IsSpace(r[|r| - 1])
    ensures |r| == 0 <==> AllSpace(s)
  {
    var t := TrimStart(s);
    assert |t| == 0 ==> s[..|s|] == s;
    assert |t| > 0 ==> !IsSpace(s[|s| - |t|]);
    var r := TrimEnd(t);
    assert |r| == 0 ==> AllSpace(t[0..]) && t[0..] == t;
    assert |r| > 0 ==> r[0] == t[0];
    r
  }

  /** Trimming a trimmed string changes nothing. */
  lemma TrimIdempotent(s: string)
    ensures Trim(Trim(s)) == Trim(s)
  {
    var r := Trim(s);
    if |r| > 0 {
      assert TrimStart(r) == r;
      assert TrimEnd(r) == r;
    }
  }

  /** Trimming keeps a string free of upper-case letters. */
  lemma TrimKeepsLower(s: string)
    requires forall i :: 0 <= i < |s| ==> !IsUpper(s[i])
    ensures forall i :: 0 <= i < |Trim(s)| ==> !IsUpper(Trim(s)[i])
  {
    var t := TrimStart(s);
    var r := TrimEnd(t);
    assert Trim(s) == r;
    forall i | 0 <= i < |r| ensures !IsUpper(r[i]) {
      assert r[i] == t[i] && t[i] == s[|s| - |t| + i];
    }
  }

  // ---------------------------------------------------------------- search

  /** `hay.includes(needle)`. */
  predicate Contains(hay: string, needle: string)
  {
    exists i | 0 <= i <= |hay| - |needle| :: MatchAt(hay, needle, i)
  }

  predicate MatchAt(hay: string, needle: string, i: nat)
    requires i + |needle| <= |hay|
  {
    hay[i..i + |needle|] == needle
  }

  /** `hay.toLowerCase().includes(query.toLowerCase())`. */
  predicate ContainsIgnoringCase(hay: string, query: string)
  {
    Contains(Lower(hay), Lower(query))
  }

  /** The empty query is found in every text. */
  lemma EmptyQueryMatches(hay: string)
    ensures ContainsIgnoringCase(hay, "")
  {
    assert MatchAt(Lower(hay), Lower(""), 0);
  }

  /** A text is found in itself, whatever the case of either. */
  lemma TextMatchesItself(hay: string)
    ensures ContainsIgnoringCase(hay, hay)
  {
    assert MatchAt(Lower(hay), Lower(hay), 0);
  }

  // ---------------------------------------------------------------- split

  /** The position of the first `c` in `s`. */
  function IndexOf(s: string, c: char): (i: nat)
    requires c in s
    ensures i < |s| && s[i] == c && c !in s[..i]
  {
    if s[0] == c then 0
    else
      assert c in s[1..] by { var k :| 0 <= k < |s| && s[k] == c; assert s[1..][k - 1] == c; }
      var j := IndexOf(s[1..], c);
      assert s[..j + 1] == [s[0]] + s[1..][..j];
      j + 1
  }

  /** `s.split(sep)` for a one-character separator: the maximal runs between
      separators, empty runs included. */
  function Split(s: string, sep: char): (r: seq<string>)
    ensures |r| >= 1
    ensures forall k :: 0 <= k < |r| ==> sep !in r[k]
    decreases |s|
  {
    if sep in s then
      var i := IndexOf(s, sep);
      [s[..i]] + Split(s[i + 1..], sep)
    else [s]
  }

  /** The inverse of `Split`: the fields glued back with the separator. */
  function Join(parts: seq<string>, sep: char): string
    requires |parts| >= 1
    decreases |parts|
  {
    if |parts| == 1 then parts[0] else parts[0] + [sep] + Join(parts[1..], sep)
  }

  /** Splitting loses nothing: joining the fields gives the text back. */
  lemma {:induction false} JoinSplit(s: string, sep: char)
    ensures Join(Split(s, sep), sep) == s
    decreases |s|
  {
    if sep in s {
      var i := IndexOf(s, sep);
      var r := Split(s, sep);
      JoinSplit(s[i + 1..], sep);
      assert r[1..] == Split(s[i + 1..], sep);
      assert s == s[..i] + [sep] + s[i + 1..];
    }
  }

  /** The first field of a split is the text up to the first separator. */
  lemma FirstField(s: string, sep: char)
    ensures Split(s, sep)[0] == if sep in s then s[..IndexOf(s, sep)] else s
  {
  }

  // ---------------------------------------------------------------- numbers

  predicate IsDigit(c: char) { '0' <= c <= '9' }

  predicate AllDigits(s: string)
  {
    forall i :: 0 <= i < |s| ==> IsDigit(s[i])
  }

  function DigitChar(d: nat): (c: char)
    requires d < 10
    ensures IsDigit(c)
  {
    ('0' as int + d) as char
  }

  function DigitValue(c: char): (d: nat)
    requires IsDigit(c)
    ensures d < 10
  {
    c as int - '0' as int
  }

  /** `String(n)` for a natural number: its decimal digits, no leading zero. */
  function NatToDecimal(n: nat): (r: string)
    ensures |r| >= 1 && AllDigits(r)
    ensures n > 0 ==> r[0] != '0'
    decreases n
  {
    if n < 10 then [DigitChar(n)] else NatToDecimal(n / 10) + [DigitChar(n % 10)]
  }

  /** The number a string of decimal digits denotes. */
  function DecimalValue(s: string): nat
    requires AllDigits(s)
    decreases |s|
  {
    if |s| == 0 then 0 else DecimalValue(s[..|s| - 1]) * 10 + DigitValue(s[|s| - 1])
  }

  /** Reading back the decimal form gives the number. */
  lemma {:induction false} DecimalRoundTrip(n: nat)
    ensures DecimalValue(NatToDecimal(n)) == n
    decreases n
  {
    if n >= 10 {
      DecimalRoundTrip(n / 10);
      var r := NatToDecimal(n);
      assert r[..|r| - 1] == NatToDecimal(n / 10);
    }
  }

  function Pow10(k: nat): (p: nat)
    ensures p >= 1
  {
    if k == 0 then 1 else 10 * Pow10(k - 1)
  }

  /** A number with k digits has a decimal form of length k. */
  lemma {:induction false} DecimalLength(n: nat, k: nat)
    requires k >= 1 && Pow10(k - 1) <= n < Pow10(k)
    ensures |NatToDecimal(n)| == k
    decreases k
  {
    if k > 1 {
      assert n >= 10;
      assert Pow10(k - 2) <= n / 10 < Pow10(k - 1);
      DecimalLength(n / 10, k - 1);
    }
  }

  /** The longest prefix of `s` made of decimal digits. */
  function DigitPrefix(s: string): (r: string)
    ensures |r| <= |s| && r == s[..|r|] && AllDigits(r)
    ensures |r| < |s| ==> !IsDigit(s[|r|])
    decreases |s|
  {
    if |s| > 0 && IsDigit(s[0]) then [s[0]] + DigitPrefix(s[1..]) else []
  }

  predicate IsHexDigit(c: char) { IsDigit(c) || 'a' <= c <= 'f' || 'A' <= c <= 'F' }

  function HexDigitValue(c: char): (d: nat)
    requires IsHexDigit(c)
    ensures d < 16
    ensures IsDigit(c) ==> d == DigitValue(c)
  {
    if IsDigit(c) then DigitValue(c)
    else if 'a' <= c <= 'f' then c as int - 'a' as int + 10
    else c as int - 'A' as int + 10
  }

  predicate AllHexDigits(s: string)
  {
    forall i :: 0 <= i < |s| ==> IsHexDigit(s[i])
  }

  /** The longest prefix of `s` made of hexadecimal digits. */
  function HexPrefix(s: string): (r: string)
    ensures |r| <= |s| && r == s[..|r|] && AllHexDigits(r)
    ensures |r| < |s| ==> !IsHexDigit(s[|r|])
    decreases |s|
  {
    if |s| > 0 && IsHexDigit(s[0]) then [s[0]] + HexPrefix(s[1..]) else []
  }

  /** The number a string of hexadecimal digits denotes. */
  function HexValue(s: string): nat
    requires AllHexDigits(s)
    decreases |s|
  {
    if |s| == 0 then 0 else HexValue(s[..|s| - 1]) * 16 + HexDigitValue(s[|s| - 1])
  }

  /** The text starts with `0x` or `0X`, which selects base sixteen. */
  predicate HexMarked(u: string)
  {
    |u| >= 2 && u[0] == '0' && (u[1] == 'x' || u[1] == 'X')
  }

  /** `parseInt(s)` without a radix: leading white space is skipped and an
      optional sign read; a `0x` or `0X` prefix then selects base sixteen,
      anything else base ten; the longest run of digits of that base is
      read. `None` stands for `NaN`, the result of an empty run. */
  function ParseInt(s: string): (r: Option<int>)
    ensures var u := SignFree(TrimStart(s));
      !HexMarked(u) ==> (r.None? <==> |DigitPrefix(u)| == 0)
    ensures var u := SignFree(TrimStart(s));
      HexMarked(u) ==> (r.None? <==> |HexPrefix(u[2..])| == 0)
    ensures r.Some? && r.value < 0 ==> TrimStart(s)[0] == '-'
  {
    var t := TrimStart(s);
    var u := SignFree(t);
    var m: Option<nat> :=
      if HexMarked(u) then
        var d := HexPrefix(u[2..]);
        if |d| == 0 then None else Some(HexValue(d))
      else
        var d := DigitPrefix(u);
        if |d| == 0 then None else Some(DecimalValue(d));
    if m.None? then None
    else if |t| > 0 && t[0] == '-' then Some(-(m.value as int))
    else Some(m.value)
  }

  function SignFree(t: string): string
  {
    if |t| > 0 && (t[0] == '-' || t[0] == '+') then t[1..] else t
  }

  /** A `0x` prefix is read in base sixteen, after the sign. */
  lemma HexPrefixIsBaseSixteen()
    ensures ParseInt("0x1A") == Some(26)
    ensures ParseInt("-0x10") == Some(-16)
  {
    HexPositive();
    HexNegative();
  }

  lemma HexPositive()
    ensures ParseInt("0x1A") == Some(26)
  {
    var s := "0x1A";
    assert SignFree(s) == s && HexMarked(s);
    assert s[2..] == "1A";
    HexPrefixOfHexDigits("1A");
    assert "1A"[..1] == "1";
    assert HexValue("1A") == 26;
    HexReading(s, s);
  }

  lemma HexNegative()
    ensures ParseInt("-0x10") == Some(-16)
  {
    var s := "-0x10";
    var u := "0x10";
    assert SignFree(s) == u && HexMarked(u);
    assert u[2..] == "10";
    HexPrefixOfHexDigits("10");
    assert "10"[..1] == "1";
    assert HexValue("10") == 16;
    HexReading(s, u);
  }

  /** With no leading white space, a `0x` mark after the optional sign
      reads the hexadecimal digits that follow, negated after a minus. */
  lemma HexReading(s: string, u: string)
    requires |s| > 0 && !IsSpace(s[0]) && SignFree(s) == u
    requires HexMarked(u) && |HexPrefix(u[2..])| > 0
    ensures var n := HexValue(HexPrefix(u[2..]));
      ParseInt(s) == Some(if s[0] == '-' then -(n as int) else n)
  {
    TrimStartStops(s);
  }

  lemma {:induction false} HexPrefixOfHexDigits(s: string)
    requires AllHexDigits(s)
    ensures HexPrefix(s) == s
    decreases |s|
  {
    if |s| > 0 {
      HexPrefixOfHexDigits(s[1..]);
    }
  }

  /** A `0x` prefix with no hexadecimal digit after it is `NaN`, where a
      reading in base ten would have given zero. */
  lemma HexPrefixWithoutDigitsIsNaN()
    ensures ParseInt("0x") == None && ParseInt("0xg") == None
  {
    BareHexPrefix();
    HexPrefixBeforeLetter();
  }

  lemma BareHexPrefix()
    ensures ParseInt("0x") == None
  {
    HexMarkWithoutDigits("0x");
  }

  lemma HexPrefixBeforeLetter()
    ensures ParseInt("0xg") == None
  {
    assert !IsHexDigit("0xg"[2]);
    HexMarkWithoutDigits("0xg");
  }

  lemma HexMarkWithoutDigits(u: string)
    requires HexMarked(u) && (|u| == 2 || !IsHexDigit(u[2]))
    ensures ParseInt(u) == None
  {
    TrimStartStops(u);
    HexPrefixStops(u[2..]);
    assert SignFree(TrimStart(u)) == u;
  }

  lemma TrimStartStops(s: string)
    requires |s| > 0 && !IsSpace(s[0])
    ensures TrimStart(s) == s
  {
  }

  lemma HexPrefixStops(s: string)
    requires |s| == 0 || !IsHexDigit(s[0])
    ensures HexPrefix(s) == []
  {
  }

  lemma {:induction false} DigitPrefixOfDigits(s: string)
    requires AllDigits(s)
    ensures DigitPrefix(s) == s
    decreases |s|
  {
    if |s| > 0 {
      DigitPrefixOfDigits(s[1..]);
    }
  }

  /** `parseInt(String(n)) == n`: the decimal form parses back to the number. */
  lemma ParseDecimal(n: nat)
    ensures ParseInt(NatToDecimal(n)) == Some(n)
  {
    var s := NatToDecimal(n);
    assert TrimStart(s) == s;
    assert SignFree(s) == s;
    assert !HexMarked(s) by { if |s| >= 2 { assert IsDigit(s[1]); } }
    DigitPrefixOfDigits(s);
    DecimalRoundTrip(n);
  }
}

=== FILE: user_otp.dfy ===
/** Password reset and account deletion by e-mail code (`user.controller.js`).
    Both flows issue their codes into the same ticket collection as signup,
    keyed by e-mail alone, and they lower-case the e-mail without trimming. */
module UserOtp {
  import opened Common
  import opened Text
  import Otp
  import opened Accounts

  /** `sendPasswordOtp` and `sendDeleteOtp`, which differ only in the mail
      text: a code is issued for an existing account. The ticket is written
      before the mail goes out, so a mail failure is a 500 that keeps it. */
  function SendAccountOtp(s: Store, email: Option<string>, now: int, draw: nat, mailOk: bool): (r: (Reply<()>, Store))
    requires draw < Otp.OtpSpan
    ensures !Present(email) ==> r == (Err(400, "Email is required"), s)
    ensures Present(email) && FindByEmail(s.users, Lower(email.value)).None? ==> r == (Err(404, "User not found"), s)
    ensures r.0.Ok? <==> Present(email) && FindByEmail(s.users, Lower(email.value)).Some? && mailOk
    ensures r.1.users == s.users && r.1.nextUserId == s.nextUserId
    ensures r.1 != s ==> Present(email) && FindByEmail(s.users, Lower(email.value)).Some?
    ensures Present(email) && FindByEmail(s.users, Lower(email.value)).Some? ==>
      var e := Lower(email.value);
      && Otp.FindTicket(r.1.tickets, e).Some?
      && r.1.tickets[Otp.FindTicket(r.1.tickets, e).value]
         == Otp.Ticket(e, Otp.GenerateOtp(draw), now + Otp.TicketLifetimeMs, Otp.NoData)
      && (forall t :: t in r.1.tickets && t.email != e <==> t in s.tickets && t.email != e)
    ensures WellFormed(s) ==> WellFormed(r.1)
  {
    if !Present(email) then (Err(400, "Email is required"), s)
    else
      var e := Lower(email.value);
      if FindByEmail(s.users, e).None? then (Err(404, "User not found"), s)
      else
        var s' := s.(tickets := Otp.Issue(s.tickets, e, Otp.GenerateOtp(draw), now, Otp.NoData));
        if mailOk then (Ok(()), s') else (Err(500, "Server error"), s')
  }

  function SendPasswordOtp(s: Store, email: Option<string>, now: int, draw: nat, mailOk: bool): (Reply<()>, Store)
    requires draw < Otp.OtpSpan
  {
    SendAccountOtp(s, email, now, draw, mailOk)
  }

  function SendDeleteOtp(s: Store, email: Option<string>, now: int, draw: nat, mailOk: bool): (Reply<()>, Store)
    requires draw < Otp.OtpSpan
  {
    SendAccountOtp(s, email, now, draw, mailOk)
  }

  /** The code check the reset and the deletion share, with their messages. */
  function CheckReply(c: Otp.Check): (r: Option<Reply<()>>)
    ensures r.None? <==> c.Valid?
  {
    match c
    case NoTicket => Some(Err(400, "No OTP request found"))
    case WrongCode => Some(Err(400, "Invalid OTP"))
    case Expired => Some(Err(400, "OTP expired"))
    case Valid(_) => None
  }

  /** `User.updateOne({ email }, { password })`: the first user with that
      e-mail gets the new digest; with no such user nothing changes. */
  function SetPassword(users: seq<User>, email: string, d: Digest): (r: seq<User>)
    ensures |r| == |users|
    ensures forall k :: 0 <= k < |r| ==> r[k].(password := users[k].password) == users[k]
    ensures FindByEmail(users, email).Some? ==> r[FindByEmail(users, email).value].password == d
    ensures forall k :: 0 <= k < |r| && Some(k) != FindByEmail(users, email) ==> r[k] == users[k]
  {
    match FindByEmail(users, email)
    case None => users
    case Some(i) => users[i := users[i].(password := d)]
  }

  /** `resetPasswordWithOtp`. A valid code sets the password of the account
      with that e-mail, if there is one, and consumes the ticket; the reply is
      a success either way. */
  function ResetPasswordWithOtp(s: Store, email: Option<string>, otp: Option<string>,
                                newPassword: Option<string>, now: int): (r: (Reply<()>, Store))
    ensures !Present(email) || !Present(otp) || !Present(newPassword) ==> r == (Err(400, "All fields are required"), s)
    ensures r.0.Ok? <==>
      Present(email) && Present(otp) && Present(newPassword)
      && Otp.CheckCode(s.tickets, Lower(email.value), otp.value, now).Valid?
    ensures !r.0.Ok? ==> r.1 == s
    ensures Present(email) && Present(otp) && Present(newPassword) && !r.0.Ok? ==>
      Some(r.0) == CheckReply(Otp.CheckCode(s.tickets, Lower(email.value), otp.value, now))
    ensures r.0.Ok? ==>
      && r.1.users == SetPassword(s.users, Lower(email.value), Hash(newPassword.value))
      && r.1.nextUserId == s.nextUserId
      && (WellFormed(s) ==> Otp.FindTicket(r.1.tickets, Lower(email.value)).None?)
    ensures WellFormed(s) ==> WellFormed(r.1)
  {
    if !Present(email) || !Present(otp) || !Present(newPassword) then (Err(400, "All fields are required"), s)
    else
      var e := Lower(email.value);
      var c := Otp.CheckCode(s.tickets, e, otp.value, now);
      if !c.Valid? then (CheckReply(c).value, s)
      else
        var users := SetPassword(s.users, e, Hash(newPassword.value));
        var s' := Store(users, Otp.DeleteOne(s.tickets, e), s.nextUserId);
        assert WellFormed(s) ==> WellFormed(s') by {
          if WellFormed(s) && FindByEmail(s.users, e).Some? {
            var i := FindByEmail(s.users, e).value;
            UpdateUserKeepsWellFormed(s, i, s.users[i].(password := Hash(newPassword.value)), s'.tickets);
          }
        }
        (Ok(()), s')
  }

  /** `deleteAccount`. A valid code deletes the account with that e-mail and
      consumes the ticket. */
  function DeleteAccount(s: Store, email: Option<string>, otp: Option<string>, now: int): (r: (Reply<()>, Store))
    ensures !Present(email) || !Present(otp) ==> r == (Err(400, "Email and OTP are required"), s)
    ensures r.0.Ok? <==>
      Present(email) && Present(otp) && Otp.CheckCode(s.tickets, Lower(email.value), otp.value, now).Valid?
    ensures !r.0.Ok? ==> r.1 == s
    ensures Present(email) && Present(otp) && !r.0.Ok? ==>
      Some(r.0) == CheckReply(Otp.CheckCode(s.tickets, Lower(email.value), otp.value, now))
    ensures r.0.Ok? ==>
      && (forall u :: u in r.1.users ==> u in s.users)
      && (forall u :: u in s.users && u.email != Lower(email.value) ==> u in r.1.users)
      && (WellFormed(s) ==> FindByEmail(r.1.users, Lower(email.value)).None?
                            && Otp.FindTicket(r.1.tickets, Lower(email.value)).None?)
    ensures WellFormed(s) ==> WellFormed(r.1)
  {
    if !Present(email) || !Present(otp) then (Err(400, "Email and OTP are required"), s)
    else
      var e := Lower(email.value);
      var c := Otp.CheckCode(s.tickets, e, otp.value, now);
      if !c.Valid? then (CheckReply(c).value, s)
      else
        var s' := Store(DeleteUserByEmail(s.users, e), Otp.DeleteOne(s.tickets, e), s.nextUserId);
        assert WellFormed(s) ==> WellFormed(s') by {
          if WellFormed(s) { DeleteUserKeepsWellFormed(s, e, s'.tickets); }
        }
        (Ok(()), s')
  }

  /** A reset code is single-use: the same reset sent again finds no ticket. */
  lemma ResetIsSingleUse(s: Store, email: Option<string>, otp: Option<string>, pw: Option<string>, now: int)
    requires WellFormed(s)
    requires ResetPasswordWithOtp(s, email, otp, pw, now).0.Ok?
    ensures var s1 := ResetPasswordWithOtp(s, email, otp, pw, now).1;
      ResetPasswordWithOtp(s1, email, otp, pw, now) == (Err(400, "No OTP request found"), s1)
  {
  }

  /** After a reset the account's password is the new one and nothing else
      about any account changed. */
  lemma ResetSetsPassword(s: Store, email: string, otp: string, pw: string, now: int, k: nat)
    requires WellFormed(s) && email != "" && otp != "" && pw != ""
    requires ResetPasswordWithOtp(s, Some(email), Some(otp), Some(pw), now).0.Ok?
    requires k < |s.users| && s.users[k].email == Lower(email)
    ensures var s1 := ResetPasswordWithOtp(s, Some(email), Some(otp), Some(pw), now).1;
      && Matches(pw, s1.users[k].password)
      && s1.users[k].(password := s.users[k].password) == s.users[k]
  {
    FindByEmailUnique(s.users, Lower(email), k);
  }

  /** Tickets carry no purpose. A code mailed for deleting an account also
      resets its password, and a code mailed for a password reset also
      deletes the account. */
  lemma CodesAreInterchangeable(s: Store, email: string, now: int, draw: nat, later: int, pw: string)
    requires WellFormed(s) && draw < Otp.OtpSpan && email != "" && pw != ""
    requires FindByEmail(s.users, Lower(email)).Some?
    requires later <= now + Otp.TicketLifetimeMs
    ensures var s1 := SendDeleteOtp(s, Some(email), now, draw, true).1;
      ResetPasswordWithOtp(s1, Some(email), Some(Otp.GenerateOtp(draw)), Some(pw), later).0.Ok?
    ensures var s1 := SendPasswordOtp(s, Some(email), now, draw, true).1;
      var s2 := DeleteAccount(s1, Some(email), Some(Otp.GenerateOtp(draw)), later).1;
      DeleteAccount(s1, Some(email), Some(Otp.GenerateOtp(draw)), later).0.Ok?
      && FindByEmail(s2.users, Lower(email)).None?
  {
    DeleteCodeResets(s, email, now, draw, later, pw);
    ResetCodeDeletes(s, email, now, draw, later);
  }

  lemma DeleteCodeResets(s: Store, email: string, now: int, draw: nat, later: int, pw: string)
    requires WellFormed(s) && draw < Otp.OtpSpan && email != "" && pw != ""
    requires FindByEmail(s.users, Lower(email)).Some?
    requires later <= now + Otp.TicketLifetimeMs
    ensures var s1 := SendDeleteOtp(s, Some(email), now, draw, true).1;
      ResetPasswordWithOtp(s1, Some(email), Some(Otp.GenerateOtp(draw)), Some(pw), later).0.Ok?
  {
    IssuedCodeChecks(s, email, now, draw, later);
  }

  lemma ResetCodeDeletes(s: Store, email: string, now: int, draw: nat, later: int)
    requires WellFormed(s) && draw < Otp.OtpSpan && email != ""
    requires FindByEmail(s.users, Lower(email)).Some?
    requires later <= now + Otp.TicketLifetimeMs
    ensures var s1 := SendPasswordOtp(s, Some(email), now, draw, true).1;
      var s2 := DeleteAccount(s1, Some(email), Some(Otp.GenerateOtp(draw)), later).1;
      DeleteAccount(s1, Some(email), Some(Otp.GenerateOtp(draw)), later).0.Ok?
      && FindByEmail(s2.users, Lower(email)).None?
  {
    IssuedCodeChecks(s, email, now, draw, later);
    var s1 := SendAccountOtp(s, Some(email), now, draw, true).1;
    assert SendPasswordOtp(s, Some(email), now, draw, true).1 == s1;
    ValidCodeDeletes(s1, Lower(email), email, Otp.GenerateOtp(draw), later);
  }

  /** With a valid code, the deletion succeeds and the account is gone. */
  lemma ValidCodeDeletes(s: Store, e: string, email: string, otp: string, now: int)
    requires WellFormed(s) && email != "" && otp != "" && e == Lower(email)
    requires Otp.CheckCode(s.tickets, e, otp, now).Valid?
    ensures var d := DeleteAccount(s, Some(email), Some(otp), now);
      d.0.Ok? && FindByEmail(d.1.users, e).None?
  {
  }

  /** A code just issued for an account checks out against the same e-mail
      until its ticket expires, and the store stays well formed. */
  lemma IssuedCodeChecks(s: Store, email: string, now: int, draw: nat, later: int)
    requires WellFormed(s) && draw < Otp.OtpSpan && email != ""
    requires FindByEmail(s.users, Lower(email)).Some?
    requires later <= now + Otp.TicketLifetimeMs
    ensures var s1 := SendAccountOtp(s, Some(email), now, draw, true).1;
      && WellFormed(s1)
      && Otp.CheckCode(s1.tickets, Lower(email), Otp.GenerateOtp(draw), later).Valid?
  {
    var s1 := SendAccountOtp(s, Some(email), now, draw, true).1;
    var e := Lower(email);
    var i := Otp.FindTicket(s1.tickets, e).value;
    assert s1.tickets[i] == Otp.Ticket(e, Otp.GenerateOtp(draw), now + Otp.TicketLifetimeMs, Otp.NoData);
    assert !Otp.IsExpired(s1.tickets[i], later);
  }

  /** The reset does not require an account: with the code of a signup that
      was never completed, it reports success and changes no account. */
  lemma ResetWithoutAccount(s: Store, email: string, otp: string, pw: string, now: int)
    requires email != "" && otp != "" && pw != ""
    requires FindByEmail(s.users, Lower(email)).None?
    requires Otp.CheckCode(s.tickets, Lower(email), otp, now).Valid?
    ensures var r := ResetPasswordWithOtp(s, Some(email), Some(otp), Some(pw), now);
      r.0.Ok? && r.1.users == s.users
  {
  }

  /** Deleting an account by code makes its e-mail free for a new signup. */
  lemma DeletedAccountIsGone(s: Store, email: string, otp: string, now: int)
    requires WellFormed(s) && email != "" && otp != ""
    requires DeleteAccount(s, Some(email), Some(otp), now).0.Ok?
    ensures var s1 := DeleteAccount(s, Some(email), Some(otp), now).1;
      forall k :: 0 <= k < |s1.users| ==> s1.users[k].email != Lower(email)
  {
  }
}
